=== FILE: README.md ===
# Recovery-image and serial-signing tools, modelled in Dafny

This project models the core of a set of Go tools for Ubuntu Core devices:

- **The recovery-image builder** (`cmd/ubuntu-recovery-image/main.go`) lays out a
  recovery image from a base image. It sizes the image and reads the base
  image's partition table as `parted -m` prints it. It then decides, line by
  line, which base partitions are copied and which are removed, and places
  the recovery partition. The bootloader area is raw-copied only when the
  Bootloader setting is "gpt" or "mbr"; for those settings the recovery
  partition number is empty, so such a run stops at
  `cmd/ubuntu-recovery-image/main.go:114-115` with only the raw copies issued
  (`RecoveryLayout.RawCopyRunHalts`). A run that places a recovery partition
  (Bootloader "grub" or "u-boot") raw-copies nothing. It also picks the
  initrd codec, the recovery file-system label, the base mounts, the recovery
  partition number and the output file name.
- **The first-generation builder** (`ubuntu-recovery-image.go`) validates its
  YAML configuration into global settings and dispatches on the recovery type.
  It builds the base image with the image tool and places its recovery partition
  from MiB 4.
- **The build-stamp helpers** (`utils/utils.go`) cover the `git describe`
  version rewrite (`-N-gHASH` becomes `+N-gHASH`), the trimmed output of a
  command, and the commit time stamp.
- **The serial-signing client** (`cmd/signserial/main.go`) loads or creates a
  device key, fetches one nonce, writes the serial request and submits it.
- **The mock serial generator** (`cmd/mockSerialGen/main.go`) finds or creates
  the brand account and its account key in an assertion store that trusts the
  test root. It loads or creates the brand key, writes `keypair.json` with the
  key in base64, and issues the model and serial assertions.

Shell commands, HTTP, files, the clock and key generation are not executed.
The outcomes the model reads are parameters: the git `ExecResult`, the lines
`parted -m` prints, the `World` records of the signing tools, the glob result
and the date. The commands the builders issue (`dd`, `parted`, the image tool,
compression) are recorded in order and assumed to succeed.
Each operation returns either a value or the trace of effects it would issue, in
order. A fatal end is part of the result: the trust-chain and signing traces
end in a fatal effect, and the layout planner's failure (`Halt`) carries the
commands it issued before the failure together with the failure.

The Go library behaviour the tools depend on is modelled explicitly in its own
modules:

- `GoInt`: 64-bit wrap-around and truncating division.
- `GoStrings`: `strings.Split` for one separator, cutset `Trim`/`TrimLeft`/`TrimRight`,
  `TrimPrefix` and `TrimSpace`.
- `GoStrconv`: `%d`, `%02d`, `%!s(int=N)`, `strconv.Atoi`, and
  `strconv.ParseInt(s, 10, 64)` with its clamping on overflow.
- `Base64`: the standard encoding of section 4 of RFC 4648, with a decoder.

Module layout, one per file:

- `wrappers.dfy` (Wrappers): `Option` and `Result`.
- `goint.dfy` (GoInt): Go `int`/`int64` arithmetic.
- `gostrings.dfy` (GoStrings): the `strings`/`bytes` helpers.
- `gostrconv.dfy` (GoStrconv): `strconv` and `fmt` integer formatting.
- `base64.dfy` (Base64): `base64.StdEncoding`.
- `build_info.dfy` (BuildInfo): `utils/utils.go`.
- `image_name.dfy` (ImageName): the output file name of both builders.
- `recovery_layout.dfy` (RecoveryLayout): `cmd/ubuntu-recovery-image/main.go`.
- `legacy_recovery.dfy` (LegacyRecovery): `ubuntu-recovery-image.go`.
- `sign_serial.dfy` (SignSerial): `cmd/signserial/main.go`.
- `trust_chain.dfy` (TrustChain): `cmd/mockSerialGen/main.go`.

## Model

| member | source | states |
|---|---|---|
| GoInt.Wrap64 | cmd/ubuntu-recovery-image/main.go:60 | The 64-bit result is in the `int64` range and congruent to the exact result modulo 2^64. It equals the exact result whenever that fits. |
| GoInt.Quo | cmd/ubuntu-recovery-image/main.go:98 | Go's `/` by a positive divisor rounds toward zero: the remainder has the sign of the dividend and is smaller than the divisor. |
| GoStrings.Split | cmd/ubuntu-recovery-image/main.go:80 | `strings.Split(line, ":")` gives at least one piece. No piece contains the separator, and joining the pieces with it gives back the line. |
| GoStrings.SplitJoin | cmd/ubuntu-recovery-image/main.go:80 | Split is the inverse of Join on separator-free pieces, so the fields of a partition line are exactly what was joined. |
| GoStrings.SplitCons | cmd/ubuntu-recovery-image/main.go:80 | A leading separator-free field followed by `:` is the first piece of the split, and the rest splits on its own. |
| GoStrings.TrimRight | cmd/ubuntu-recovery-image/main.go:83-86 | `strings.TrimRight(x, "B")` leaves a prefix of `x` whose last character is not in the cutset. Everything removed was in the cutset, and an all-cutset string trims to empty. |
| GoStrings.TrimRightAppended | cmd/ubuntu-recovery-image/main.go:83-86 | Right-trimming removes exactly an appended run of cutset characters, such as the `B` unit after a numeral. |
| GoStrings.TrimLeft | cmd/ubuntu-recovery-image/main.go:464 | Leaves a suffix whose first character is not in the cutset. Everything removed was in the cutset. |
| GoStrings.TrimLeftPrepended | cmd/ubuntu-recovery-image/main.go:464 | Left-trimming removes exactly a prepended run of cutset characters when the next character is not in the cutset. |
| GoStrings.Trim | cmd/ubuntu-recovery-image/main.go:464 | `strings.Trim` returns the run of its input at some offset such that every character before and after it is in the cutset, and neither of its own ends is. It is empty exactly when every input character is in the cutset. |
| GoStrings.TrimPrefix | cmd/ubuntu-recovery-image/main.go:464 | Removes the prefix once when the input starts with it, so prefix + result == input. Otherwise the input comes back unchanged. |
| GoStrings.TrimSpace | utils/utils.go:98 | `bytes.TrimSpace` returns the run of its input at some offset such that every character before and after it is Unicode white space, and neither of its own ends is. It is empty exactly when the input is all white space. |
| GoStrings.BothEnds | utils/utils.go:98 | Trimming from the left and then from the right leaves the run of the input that starts where the left trim stopped. Everything around it is cut, and it is empty exactly when every character is cut. |
| GoStrings.CutsetAround | cmd/ubuntu-recovery-image/main.go:464 | After a left and a right cutset trim, every character of the input before or after the result is in the cutset. |
| GoStrconv.FormatNat | cmd/ubuntu-recovery-image/main.go:128 | `%d` of a natural number is a non-empty digit string with no leading zero. It is one digit exactly for numbers below 10. |
| GoStrconv.FormatNatValue | cmd/ubuntu-recovery-image/main.go:128 | The numeral `%d` prints reads back as the number. |
| GoStrconv.FormatInt | cmd/ubuntu-recovery-image/main.go:109 | `%d`/`%v` of an integer starts with `-` exactly when the number is negative, and is all digits otherwise. |
| GoStrconv.ParseInt64 | utils/utils.go:87 | `strconv.ParseInt(s, 10, 64)` succeeds exactly on an optionally signed decimal numeral whose value fits in `int64`, and then returns that value. A syntax error yields 0. A range error yields the bound on the numeral's side, and every well-formed numeral that does not fit is a range error. A string of at most 19 characters that is not a numeral is a syntax error with value 0. |
| GoStrconv.ScanUintDigits | utils/utils.go:87 | On a digit string, the unsigned scan gives the numeral's value exactly when it fits in 64 bits, and a range error otherwise. |
| GoStrconv.ScanUintNonDigit | utils/utils.go:87 | A string holding a non-digit never parses. |
| GoStrconv.ParseUint64 | utils/utils.go:87 | The unsigned parse under `ParseInt` accepts exactly the non-empty digit strings whose value fits in 64 unsigned bits, and returns that value. A longer numeral is a range error, and the empty string a syntax error. A string of at most 19 characters is never a range error. |
| GoStrconv.ScanUintShort | utils/utils.go:87 | Nineteen digits cannot overflow: scanning at most 19 characters from a value small enough never ends in a range error. |
| GoStrconv.DigitsValueSnoc | utils/utils.go:87 | Appending a digit multiplies the value read so far by ten and adds the digit. |
| GoStrconv.DigitsValueGrows | utils/utils.go:87 | Reading more digits never decreases the value. |
| GoStrconv.Atoi | cmd/ubuntu-recovery-image/main.go:81-85 | `strconv.Atoi` succeeds exactly on an optionally signed decimal numeral whose value fits in 64 bits, and returns that value. A well-formed numeral that does not fit is a range error. |
| GoStrconv.ParseFormat | cmd/ubuntu-recovery-image/main.go:81-85 | What `%d` prints for an `int64`, `Atoi` and `ParseInt` read back without error as the same number. |
| GoStrconv.ZeroPad2 | ubuntu-recovery-image.go:555 | `%02d` prints at least two digits, exactly two below 100, and reads back as the number. |
| GoStrconv.BadVerbS | cmd/ubuntu-recovery-image/main.go:98 | `%s` applied to an `int` prints `%!s(int=…)`, which starts with that marker and ends with `)`. |
| Base64.ValueOfCharOf | cmd/mockSerialGen/main.go:250 | Every 6-bit value's alphabet character decodes back to that value. |
| Base64.ValueOf | cmd/mockSerialGen/main.go:250 | A character has a 6-bit value exactly when it belongs to the standard alphabet. |
| Base64.Encode | cmd/mockSerialGen/main.go:250 | `StdEncoding.EncodeToString` of n bytes is 4·⌈n/3⌉ characters long. |
| Base64.EncodeSplit | cmd/mockSerialGen/main.go:250 | The first group of an encoding of at least three bytes is their block, and the rest is the encoding of the rest. |
| Base64.EncodeAlphabet | cmd/mockSerialGen/main.go:250 | Every character of an encoding is in the alphabet or is the `=` pad. |
| Base64.BlockRoundTrip | cmd/mockSerialGen/main.go:250 | A full group decodes back to its three bytes. |
| Base64.PairRoundTrip | cmd/mockSerialGen/main.go:250 | A final group padded with one `=` decodes back to its two bytes. |
| Base64.SingleRoundTrip | cmd/mockSerialGen/main.go:250 | A final group padded with `==` decodes back to its byte. |
| Base64.DecodeEncode | cmd/mockSerialGen/main.go:250 | Decoding the standard encoding of any byte string gives that byte string back. |
| BuildInfo.RunFrom | utils/utils.go:38 | The run of a character class from a position stays within the string, and the character after it, if any, is outside the class. |
| BuildInfo.RunFromExact | utils/utils.go:38 | A run of class characters followed by a character outside the class is exactly what `RunFrom` measures. |
| BuildInfo.MatchAtPattern | utils/utils.go:38 | `MatchAt` holds at a position exactly when the regular expression `-[0-9]{1,3}-g[0-9a-f]{5,10}` matches there, read literally: a dash, one to three digits, `-g`, and at least five lower-case hexadecimal characters. |
| BuildInfo.MatchEnds | utils/utils.go:38 | The table of matches of `-[0-9]{1,3}-g[0-9a-f]{5,10}` is non-negative exactly where a match starts, and there holds that match's end. |
| BuildInfo.InnerNoMatch | utils/utils.go:38 | No match of the version pattern starts strictly inside another. |
| BuildInfo.MatchEndsDisjoint | utils/utils.go:38 | The pattern's matches never overlap, so a left-to-right scan misses none. |
| BuildInfo.ScanFrom | utils/utils.go:75-78 | The left-to-right `ReplaceAllFunc` scan from a position rewrites the rest of the string without changing its length. |
| BuildInfo.ScanFromAt | utils/utils.go:75-78 | The `ReplaceAllFunc` scan writes `+` at exactly the positions the match table marks as match starts, and keeps every other character. |
| BuildInfo.Rewrite | utils/utils.go:75-78 | The rewrite keeps the length. Every match's leading dash becomes `+`, and every other character is kept. |
| BuildInfo.RewriteNoMatch | utils/utils.go:75-78 | A version string with no match is returned unchanged. |
| BuildInfo.MatchSurvivesFrom | utils/utils.go:75-78 | Replacing dashes with `+` creates no new match. |
| BuildInfo.NoMatchAfterRewrite | utils/utils.go:75-78 | No match of the pattern remains after the rewrite. |
| BuildInfo.RewriteIdempotent | utils/utils.go:75-78 | Rewriting an already rewritten version changes nothing. |
| BuildInfo.RewriteSingleMatch | utils/utils.go:75-78 | A string with a single match has exactly that match's dash replaced. |
| BuildInfo.RewriteExample | utils/utils.go:70-80 | `1.2-14-g1a2b3c4-dirty` becomes `1.2+14-g1a2b3c4-dirty`. The dash before the hash and the one before `dirty` stay. |
| BuildInfo.RunError | utils/utils.go:91-99 | `runError` fails exactly when the command fails. Otherwise it returns the run of the combined output at some offset such that only white space lies before and after it, with no white space at either of its ends. It is empty only when the output was all white space. |
| BuildInfo.GetGitSha | utils/utils.go:70-80 | On failure the sha is `unknown-dev`. Otherwise it is the trimmed `git describe` output with a `+` at exactly the positions where a version-pattern match starts. |
| BuildInfo.CommitStamp | utils/utils.go:82-89 | When git fails, the stamp is the current time. When the trimmed output is a decimal numeral, the stamp is its value clamped to `int64`. It is always an `int64`, and 0 on a syntax error, in particular whenever the trimmed output has at most 19 characters and is not a numeral. |
| BuildInfo.TrimSpaceNumeral | utils/utils.go:98 | Trimming a printed number followed by a newline leaves the number. |
| BuildInfo.CommitStampReadsGit | utils/utils.go:82-89 | The commit time git prints (seconds and a newline) is the stamp returned. |
| BuildInfo.CommitStampGarbage | utils/utils.go:82-89 | Output that does not start with a number, such as an error message on a zero exit, yields stamp 0. |
| ImageName.DateStamp | cmd/ubuntu-recovery-image/main.go:471 | `%d%02d%02d` of a date is at least five characters, all digits for a non-negative year. It is the year's numeral plus four for a month and day below 100. |
| ImageName.OutputFilename | cmd/ubuntu-recovery-image/main.go:470-472 | The name starts with the project and a dash and ends with `-0.img`, with the date stamp in between. |
| ImageName.ParseWellFormed | cmd/ubuntu-recovery-image/main.go:470-472 | A name of the shape project-digits-0.img is taken apart at the year, month and day fields. |
| ImageName.DateStampFields | cmd/ubuntu-recovery-image/main.go:471 | The three fields of a stamp read back as the year, the month and the day. |
| ImageName.ParseOutputFilenameRoundTrip | ubuntu-recovery-image.go:554-556 | The date reads back from the image name for a non-negative year and a month and day below 100. |
| ImageName.OutputFilenameInjective | ubuntu-recovery-image.go:554-556 | Images of one project built on different days never share a name. |
| ImageName.RecoveryOutputFile | cmd/ubuntu-recovery-image/main.go:472-473 | The `-o` flag's value when given, the dated default otherwise. |
| RecoveryLayout.MaxInt64 | cmd/ubuntu-recovery-image/main.go:32-38 | The result is one of the two arguments and at least both. |
| RecoveryLayout.ImageSize | cmd/ubuntu-recovery-image/main.go:54-60 | The allocated size is an `int64` and is the larger of the base image's size and the 64-bit wrapped recovery size + 20 MiB: it is one of the two and at least each. It is at least recovery size + 20 MiB when that fits in 64 bits. |
| RecoveryLayout.ParseNumber | cmd/ubuntu-recovery-image/main.go:81-82 | A fatal `Atoi` succeeds exactly when `Atoi` does, with its `int64` value. |
| RecoveryLayout.ParsePartitionLine | cmd/ubuntu-recovery-image/main.go:80-86 | A line parses exactly when it has at least four `:`-separated fields and its first field and `B`-trimmed third field are numbers. It then yields those numbers with the second and fourth fields `B`-trimmed. A bad number fails with that field, and a line that is too short fails with the first missing field index. |
| RecoveryLayout.ParsePartedLine | cmd/ubuntu-recovery-image/main.go:80-86 | The line `parted -m` prints for a partition parses back to that partition (number, begin, end, size), whatever follows. |
| RecoveryLayout.RawCopyStart | cmd/ubuntu-recovery-image/main.go:97-101 | The raw copy starts at sector 34 or 1, and only for the Bootloader settings "gpt" and "mbr". |
| RecoveryLayout.RawCopyCommand | cmd/ubuntu-recovery-image/main.go:93-101 | Corrected raw copy: only for "gpt"/"mbr". Its count operand is a number `dd` reads, covering exactly the whole 512-byte sectors from the start sector up to partition 1's first byte. |
| RecoveryLayout.RawCopyCommandAsWritten | cmd/ubuntu-recovery-image/main.go:98-100 | As written, the raw copy's count operand is never a number `Atoi` (or `dd`) can read. |
| RecoveryLayout.RawCopyAsWrittenCount | cmd/ubuntu-recovery-image/main.go:98-100 | The command the code writes differs from the corrected one only in its count operand, which is the corrected count printed with `%s`. |
| RecoveryLayout.RawCopyCountExample | cmd/ubuntu-recovery-image/main.go:98 | For a GPT image whose partition 1 starts at 1 MiB, the code passes `count=%!s(int=2014)` where `count=2014` was meant. |
| RecoveryLayout.RawCopyStep | cmd/ubuntu-recovery-image/main.go:93-101 | Partition 1's begin must be a number even when no raw copy follows. One raw copy is issued exactly for partition 1 when the Bootloader setting is "gpt" or "mbr". |
| RecoveryLayout.LineStep | cmd/ubuntu-recovery-image/main.go:92-111 | One loop iteration only appends commands to those already issued. |
| RecoveryLayout.PartitionLoop | cmd/ubuntu-recovery-image/main.go:78-112 | The loop only appends commands to those already issued, and a fatal line stops it with every command issued before that line. |
| RecoveryLayout.PartitionLoopHalt | cmd/ubuntu-recovery-image/main.go:78-112 | When the lines before a rejected line are all accepted, the loop halts on it having issued exactly what those lines issue. |
| RecoveryLayout.PartitionLoopRawOnly | cmd/ubuntu-recovery-image/main.go:93-111 | With the recovery number unreadable, the loop copies and removes nothing: it issues exactly the raw copies. |
| RecoveryLayout.PartitionLoopOk | cmd/ubuntu-recovery-image/main.go:78-112 | The loop is fatal exactly when some line does not parse, or is partition 1 with a begin that is not a number. |
| RecoveryLayout.PartitionLoopCons | cmd/ubuntu-recovery-image/main.go:78-112 | A rejected line stops the loop, and an accepted one moves it on to the next line with that line's state. |
| RecoveryLayout.OnlyAppend | cmd/ubuntu-recovery-image/main.go:78-112 | Filtering the commands of one kind distributes over concatenation. |
| RecoveryLayout.LastKeptEndNone | cmd/ubuntu-recovery-image/main.go:107 | When no partition is below the recovery number, `last_end` keeps its starting value. |
| RecoveryLayout.LastKeptEndIsLast | cmd/ubuntu-recovery-image/main.go:107 | Otherwise `last_end` is the end of the last partition numbered below the recovery number. |
| RecoveryLayout.PartitionLoopTrace | cmd/ubuntu-recovery-image/main.go:78-112 | With every line accepted and the recovery number known, the loop issues each line's commands in table order and remembers the last kept end. |
| RecoveryLayout.LoopCopies | cmd/ubuntu-recovery-image/main.go:105-107 | The loop's `dd` copies are exactly the partitions numbered below the recovery partition, in table order. |
| RecoveryLayout.LoopRemovals | cmd/ubuntu-recovery-image/main.go:108-110 | The loop's `parted rm` commands are exactly the partitions numbered at or above it, in table order. |
| RecoveryLayout.LoopRawCopies | cmd/ubuntu-recovery-image/main.go:93-101 | The loop raw-copies once per partition 1 when the Bootloader setting is "gpt" or "mbr", and never otherwise. |
| RecoveryLayout.LoopMakesNothing | cmd/ubuntu-recovery-image/main.go:78-112 | The loop never creates a partition or sets a flag. |
| RecoveryLayout.RecoveryPartitionCommands | cmd/ubuntu-recovery-image/main.go:125-136 | One `mkpart` over the given bytes, only for "gpt" and "mbr". It is named (`name`, the number, the label) exactly for "gpt". |
| RecoveryLayout.PlanLayout | cmd/ubuntu-recovery-image/main.go:41-142 | A successful plan allocates at least the base image's size, and the recovery partition's bounds are `int64` values. An unreadable recovery size stops it before any command. |
| RecoveryLayout.KnownNumber | cmd/ubuntu-recovery-image/main.go:104 | The loop knows the recovery number exactly when it reads as a number, and then knows its value. |
| RecoveryLayout.PlanLayoutHaltsInLoop | cmd/ubuntu-recovery-image/main.go:78-112 | A rejected partition line stops the planner with the commands the lines before it issued. |
| RecoveryLayout.PlanLayoutHaltsAfterLoop | cmd/ubuntu-recovery-image/main.go:104-115 | An unreadable recovery number stops the planner after the whole loop, with everything the loop issued and the number's error. |
| RecoveryLayout.RawCopyRunFails | cmd/ubuntu-recovery-image/main.go:97-115 | Whenever the Bootloader setting calls for a raw copy, the planner fails, because the recovery number for that setting is empty. |
| RecoveryLayout.RawCopyRunHalts | cmd/ubuntu-recovery-image/main.go:97-115 | Such a run, with readable lines and size, stops on the empty recovery number having issued exactly the raw copies. |
| RecoveryLayout.PlaceRecovery | cmd/ubuntu-recovery-image/main.go:114-142 | Placing the recovery partition keeps the computed image size and yields `int64` bounds. |
| RecoveryLayout.PlanLayoutOk | cmd/ubuntu-recovery-image/main.go:54-115 | The planner fails exactly when the recovery size or the recovery number is not a number, or some partition line is not accepted. |
| RecoveryLayout.PlanCommandsAre | cmd/ubuntu-recovery-image/main.go:78-142 | The plan's commands are every line's commands, then the recovery partition, then the boot flag. |
| RecoveryLayout.PlanLayoutCommands | cmd/ubuntu-recovery-image/main.go:93-111 | The whole plan copies exactly the partitions below the recovery partition and removes exactly the others, in table order. It raw-copies once per partition 1 when the Bootloader setting allows. |
| RecoveryLayout.PlanLayoutNewPartition | cmd/ubuntu-recovery-image/main.go:125-142 | The plan creates exactly the recovery partition, named only in a "gpt" table. It sets the boot flag exactly when the recovery partition is number 1. |
| RecoveryLayout.PlanLayoutPlacement | cmd/ubuntu-recovery-image/main.go:114-123 | The recovery partition starts at 4 MiB when it is number 1, and otherwise on the byte after the last kept partition's end. It spans the recovery size in MiB and the image holds size + 20 MiB, unless 64-bit arithmetic wraps. |
| RecoveryLayout.Arguments | cmd/ubuntu-recovery-image/main.go:106-141 | The argument lists of `dd` and `parted`: `rm` and `mkpart` carry numbers that read back as the partition number and the byte bounds, and a copy skips and seeks to the same offset. |
| RecoveryLayout.ExtractTool | cmd/ubuntu-recovery-image/main.go:206-214 | An accepted content type gets a tool that decompresses a known format. A rejected one fails with the unknown-initrd-type error naming it. |
| RecoveryLayout.RecompressTool | cmd/ubuntu-recovery-image/main.go:222-229 | An accepted content type gets a command that compresses to a known format. A rejected one fails with the same unknown-initrd-type error. |
| RecoveryLayout.InitrdCodecMatches | cmd/ubuntu-recovery-image/main.go:204-229 | Both switches accept the same two content types, and the initrd is recompressed in the format it was unpacked from. |
| RecoveryLayout.InitrdCommands | cmd/ubuntu-recovery-image/main.go:215-229 | The unpack pipeline starts with the chosen decompressor, and the repack pipeline ends by piping through the matching compressor into the initrd path. |
| RecoveryLayout.BaseMountDir | cmd/ubuntu-recovery-image/main.go:277-288 | After white-space trimming, "vfat" mounts on `system-boot` and "ext4" on `writable`. Every other type is skipped. |
| RecoveryLayout.BaseMounts | cmd/ubuntu-recovery-image/main.go:276-300 | There are never more mounts than partitions. |
| RecoveryLayout.BaseMountsSound | cmd/ubuntu-recovery-image/main.go:276-300 | Every mount is of a partition of a mountable type, on its type's directory. |
| RecoveryLayout.BaseMountsComplete | cmd/ubuntu-recovery-image/main.go:276-300 | Every partition of a mountable type is mounted. |
| RecoveryLayout.RecoveryLabel | cmd/ubuntu-recovery-image/main.go:232-239 | The headless-installer image type gets the installer label, and every other type the recovery label. |
| RecoveryLayout.RecoveryNumberAsWritten | cmd/ubuntu-recovery-image/main.go:454-466 | As written: "1" for grub and "" for an unknown bootloader. For u-boot it is the run of the partition path at some offset such that only characters of `/dev/<loop>p` lie before and after it, and neither of its ends is one. That set is a cutset, not a prefix. |
| RecoveryLayout.RecoveryNumber | cmd/ubuntu-recovery-image/main.go:454-466 | Corrected: "1" for grub and "" for an unknown bootloader. For u-boot, the device prefix followed by the result is the partition path. |
| RecoveryLayout.RecoveryNumberOfPartition | cmd/ubuntu-recovery-image/main.go:463-464 | On u-boot, the corrected number of partition n of the loop device is n. |
| RecoveryLayout.RecoveryNumberAgrees | cmd/ubuntu-recovery-image/main.go:464 | The cutset trim agrees with the corrected one when the number neither starts nor ends with a character of the prefix. |
| RecoveryLayout.RecoveryNumberCutsetExample | cmd/ubuntu-recovery-image/main.go:464 | Partition 2 of `loop2` comes out as "" as written, and "2" corrected. |
| LegacyRecovery.RequiredFields | ubuntu-recovery-image.go:361-425 | There are thirteen required fields. |
| LegacyRecovery.ErrorCount | ubuntu-recovery-image.go:361-430 | The error count is zero exactly when no required field is empty. |
| LegacyRecovery.ErrorCountMissing | ubuntu-recovery-image.go:361-430 | Some error is counted exactly when a required field of the configuration is empty. |
| LegacyRecovery.Assign | ubuntu-recovery-image.go:432-462 | Every setting takes its field's value and keeps its option name. The store and device options get `--store`/`--device` only when a value is given. |
| LegacyRecovery.ParseConfigs | ubuntu-recovery-image.go:358-465 | It returns true (failure) exactly when a required field is empty, and then changes no setting. Otherwise the settings are assigned from the configuration. |
| LegacyRecovery.ParseConfigsOptionalOptions | ubuntu-recovery-image.go:451-459 | From the initial settings, the store option name is `--store` exactly when a store is configured and empty otherwise, and likewise for the device. |
| LegacyRecovery.BaseImageCommand | ubuntu-recovery-image.go:129-162 | The image tool gets 21 arguments. `--enable-ssh` and `--developer-mode` are there exactly when enabled, and empty arguments otherwise. |
| LegacyRecovery.BaseImageGoesToConfiguredFile | ubuntu-recovery-image.go:151-161 | After a successful parse, the base image is written with `--output` to the configured base-image path. |
| LegacyRecovery.SnapPattern | ubuntu-recovery-image.go:65 | The glob pattern is `<folder>/<name>_` followed by `*.snap`, and nothing else. |
| LegacyRecovery.FindSnap | ubuntu-recovery-image.go:64-74 | It succeeds exactly when the glob returns one path, and returns that path. Zero or several paths log the list and then panic with a fixed message. |
| LegacyRecovery.FindSnapIn | ubuntu-recovery-image.go:64-74 | With the glob as a parameter: `findSnap` succeeds exactly when globbing `SnapPattern(folder, name)` returns one path, and returns it. A glob error is fatal, and zero or several paths log the list and then panic with a fixed message. |
| LegacyRecovery.Dispatch | ubuntu-recovery-image.go:537-548 | "base" and "full" build the base image, before any recovery build. "full" and "recovery" build the recovery image. "base" exits 0, and a type other than the three exits 2. No step follows an exit. |
| LegacyRecovery.RecoverySpan | ubuntu-recovery-image.go:48-51 | It fails exactly when the size is not a number. Otherwise it begins at MiB 4 and spans the size when the sum does not wrap. |
| LegacyRecovery.RecoverySpanFits | ubuntu-recovery-image.go:48-51 | Without wrap-around, the span is MiB 4 to 4 + size. |
| LegacyRecovery.RecoverySpanAgreesWithPlanner | ubuntu-recovery-image.go:48-59 | The later planner, asked for recovery partition 1, places it on the same bytes as this builder: from 4 MiB for the recovery size in MiB. |
| LegacyRecovery.Run | ubuntu-recovery-image.go:493-562 | It needs exactly one configuration folder, and a configuration with a missing field builds nothing. Otherwise the base image is built exactly for "base"/"full", and partition-1 recovery image named after the project and date exactly for "full"/"recovery". |
| LegacyRecovery.Actions | ubuntu-recovery-image.go:537-561 | The base build happens exactly when dispatched, and so does the recovery build. |
| SignSerial.NonceUrl | cmd/signserial/main.go:41-42 | The nonce address is the server with every trailing `/` removed, followed by `/request-id`. |
| SignSerial.NonceUrlPlain | cmd/signserial/main.go:41-42 | A server without a trailing slash is used as it is. |
| SignSerial.NonceUrlTrailingSlash | cmd/signserial/main.go:41-42 | A trailing slash makes no difference to the nonce address. |
| SignSerial.NonceRequest | cmd/signserial/main.go:44-49 | A POST with an empty body to the nonce address, carrying the form content type and the API key. |
| SignSerial.GetNonce | cmd/signserial/main.go:38-69 | The request is sent unless it could not be built. Every failure returns its error at once with an empty nonce, and on success the nonce is the reply's request id. |
| SignSerial.LoadDeviceKey | cmd/signserial/main.go:110-125 | A key in the file is reused without writing. A missing file means a generated key written with mode 0600. A failed generation, or a readable file that is not a key, is fatal. |
| SignSerial.SubmitStage | cmd/signserial/main.go:141-147 | The request is submitted exactly when a signing server is configured. It is submitted once, as the first effect, followed by exactly one outcome effect that is not a submission. |
| SignSerial.SignStage | cmd/signserial/main.go:136-147 | The written request carries the model, key, `A1234567`, revision 1 and the nonce. It is written before it is submitted, and a fatal error is last. |
| SignSerial.AfterKey | cmd/signserial/main.go:127-147 | At most one request is posted, and it is the nonce request for the configured server. A written request means the model decoded and the nonce post came first and returned an id. The request carries that model and nonce. A fatal error ends the trace. |
| SignSerial.PostThen | cmd/signserial/main.go:133-139 | A single nonce post before the signing stage keeps the trace properties. |
| SignSerial.Run | cmd/signserial/main.go:71-148 | A wrong argument count is fatal at once. Otherwise a fatal error is always last and at most one nonce is requested. Every submission follows the write of its request, and nothing is submitted without a configured signing server. |
| SignSerial.RunTail | cmd/signserial/main.go:110-125 | Effects of the key load that neither post, submit nor fail keep the trace properties of the rest. |
| SignSerial.RunSucceeds | cmd/signserial/main.go:71-148 | When every step succeeds, the nonce is posted and the request, carrying the returned nonce, is written. It is submitted exactly when a server is configured, and a generated key is written first. |
| SignSerial.RunReusesKey | cmd/signserial/main.go:110-116 | A key read from its file is never rewritten, and every written request is signed with it. |
| TrustChain.OpenStore | cmd/mockSerialGen/main.go:179-196 | The opened database trusts exactly the root account and the root account key. |
| TrustChain.RootSelfSigned | cmd/mockSerialGen/main.go:106-155 | The root account is signed with the key the root account-key assertion carries, and both belong to `testrootorg`. |
| TrustChain.FirstMatch | cmd/mockSerialGen/main.go:203 | The index found matches the kind and every queried header, and nothing before it matches. None is found exactly when nothing matches. |
| TrustChain.Find | cmd/mockSerialGen/main.go:203-222 | A lookup fails exactly when the store is unreadable. What it finds is a trusted or added assertion that matches, and "not found" means nothing matches. |
| TrustChain.Add | cmd/mockSerialGen/main.go:214 | Adding appends the assertion and changes nothing else. |
| TrustChain.FindAfterAdd | cmd/mockSerialGen/main.go:203-217 | Once added, an assertion is found again by its headers. |
| TrustChain.NewAccount | cmd/mockSerialGen/main.go:209-213 | The created account has the configured id, is certified, and is signed by the root key. |
| TrustChain.FindOrCreateAccount | cmd/mockSerialGen/main.go:201-222 | It fails exactly on a store error. Otherwise the account has the configured id and either nothing changes or exactly it is added. Nothing is added exactly when a matching account already exists. |
| TrustChain.FindOrCreateAccountIdempotent | cmd/mockSerialGen/main.go:201-222 | A second find-or-create in the resulting store returns the same account and adds nothing. |
| TrustChain.FirstMatchAppend | cmd/mockSerialGen/main.go:203-217 | With no earlier match, an appended matching assertion is the first match. |
| TrustChain.NewAccountKey | cmd/mockSerialGen/main.go:266-268 | The account key carries the brand key's id under the account's id, and is signed by the root key. |
| TrustChain.FindOrCreateAccountKey | cmd/mockSerialGen/main.go:257-277 | The same find-or-create contract for the account key, looked up by account id and public-key id. |
| TrustChain.LoadAccountKey | cmd/mockSerialGen/main.go:229-248 | A key read from its file is used and not imported. A missing file means a generated key, written with mode 0600 and then imported under the brand account. Generation or import failure, or a readable non-key, is fatal and last. |
| TrustChain.NewModel | cmd/mockSerialGen/main.go:288-300 | The model assertion is signed by the brand key, with brand and authority the account, the configured model, series 16 and revision 1. |
| TrustChain.NewModelHeaderNames | cmd/mockSerialGen/main.go:288-300 | The model assertion has exactly the eleven headers the generator sets. |
| TrustChain.NewSerial | cmd/mockSerialGen/main.go:327-334 | The serial assertion is signed by the brand key and carries the device key, the account, the model, the serial and revision 1. |
| TrustChain.NewSerialHeaderNames | cmd/mockSerialGen/main.go:327-334 | The serial assertion has exactly the six headers the generator sets. |
| TrustChain.LoadDeviceKey | cmd/mockSerialGen/main.go:309-324 | The device key is read or generated (and written with mode 0600), and never imported or added. A readable non-key or a failed generation is fatal. |
| TrustChain.Issue | cmd/mockSerialGen/main.go:286-335 | The model assertion is written first, and issuing touches no store. |
| TrustChain.Chain | cmd/mockSerialGen/main.go:198-335 | The run never changes the trusted set. |
| TrustChain.AfterAccount | cmd/mockSerialGen/main.go:229-335 | After the account, the run only extends the trace and the added assertions. A key file that is not a key ends it at once. A key read from its file imports nothing and is followed first by the `keypair.json` write. |
| TrustChain.AfterKey | cmd/mockSerialGen/main.go:257-335 | After the key, the run keeps the trusted set and the imported keys and adds at most one assertion. An unreadable store ends it with that error. Otherwise it writes the account-key assertion file. |
| TrustChain.Run | cmd/mockSerialGen/main.go:179-196 | A wrong argument count is fatal, and the store always trusts exactly the root account and its key. |
| TrustChain.KeypairJsonRoundTrip | cmd/mockSerialGen/main.go:250-255 | The base64 text in `keypair.json` decodes back to the brand key's armored bytes, under the configured authority id. |
| TrustChain.ImportOnlyWhenGenerated | cmd/mockSerialGen/main.go:229-248 | The only key import is of the brand key generated in this run. A key read from its file is never imported. |
| TrustChain.FindStable | cmd/mockSerialGen/main.go:203-277 | Adding assertions never changes what an earlier successful lookup finds. |
| TrustChain.FirstMatchPrefix | cmd/mockSerialGen/main.go:203-277 | Extending the candidates never changes a match already found. |
| TrustChain.RerunAddsNothing | cmd/mockSerialGen/main.go:198-277 | A second run against the store the first left, with the brand key read from the file it wrote, adds no assertion, imports no key and leaves the store unchanged. |
| TrustChain.ChainWhenAllFound | cmd/mockSerialGen/main.go:198-335 | When both lookups find their assertion and the key comes from its file, the run leaves the store unchanged. |
| TrustChain.ChainAllFoundTrace | cmd/mockSerialGen/main.go:224-335 | That run is a head of file writes (account, `keypair.json`, account key), none touching the store, followed by issuing the model and serial. |

## Left out

- Running commands, HTTP, file reads and writes, globbing, `losetup`, mounts and `time.Now` are not executed. Their outcomes are parameters, and each model returns the commands or effects in order.
- Write failures are not modelled. The code ignores most of them, except the two `Checkerr`s in `cmd/signserial/main.go` at 139 and 146.
- `syscall.Fallocate` (cmd/ubuntu-recovery-image/main.go:61-62) is left out: its failure, for example no space left or a zero size, is fatal there, and the model assumes it succeeds.
- The partition-table copy with `sfdisk`/`sgdisk` (cmd/ubuntu-recovery-image/main.go:64-68) is left out: it issues no command the planner decides on, and the model assumes it succeeds.
- Every shell command the planner and the legacy builder issue (`dd`, `parted rm`/`mkpart`/`set`, the image tool, `xz`) is assumed to succeed: `PlanLayout`, `PartitionLoop` and `LegacyRecovery.Run` record the command and go on, so a failing command's effect on the run is not modelled.
- YAML and JSON decoding, `printConfigs`, logging and the version banner are left out: each is output or library decoding.
- Key generation, private-key parsing, signatures, SHA3 key ids and assertion encoding are left out. Keys are opaque values known by their id.
- `assertstest`'s default headers and signature checks inside the assertion database are left out. `Find` is a lookup by kind and header values over the trusted and added assertions, and a failed `db.Add` is not modelled.
- `rplib.FindSnapName` in the newer `findSnap` (main.go:159-177) is left out. `LegacyRecovery.FindSnap` models the shared glob-and-count logic, with the glob result as a parameter.
- `rplib.HEADLESS_INSTALLER` is not part of this model. `RecoveryLabel` takes its value as a parameter.
- `http.DetectContentType` is left out. The initrd codec switch takes the detected type as a parameter, and the copy of `initrd_local-includes` is not modelled.
- The legacy `setupInitrd`, `createRecoveryImage` body and `compressXZImage` are left out. The legacy recovery partition is covered by `LegacyRecovery.RecoverySpan` and the compression decision by `LegacyRecovery.Actions`.
- The rest of the newer `createRecoveryImage` is left out: file-system creation, the recovery-directory layout and the u-boot environment handling.
- Invalid UTF-8 in command output is not modelled: strings are sequences of code points, and `runError` trims them.
- LegacyRecovery.BaseImageCommand: its contract states only the length and the ssh and developer-mode switches. The other positions are fixed by `BaseImageGoesToConfiguredFile` (`--output` and the path) and by `Assign`.
- LegacyRecovery.RecoverySpan: when `4 + size` wraps, the end is the wrapped value, and the contract says nothing about its difference from the start.
- LegacyRecovery.Actions: the contract does not say that compression follows the recovery build exactly when `xz` is on.
- RecoveryLayout.PlanLayout: its own contract states only the size and bound ranges. The commands and placement are stated by the lemmas `PlanCommandsAre`, `PlanLayoutCommands`, `PlanLayoutNewPartition` and `PlanLayoutPlacement`. Its raw copy, and so `RawCopies`, `LoopRawCopies` and `PlanLayoutCommands`, carries the corrected `count=N` where the code issues `count=%!s(int=N)`. See Findings and `RawCopyAsWrittenCount`.
- RecoveryLayout.RawCopyStep: issues the corrected raw copy, `count=N`, where the code issues `count=%!s(int=N)`. `RawCopyAsWrittenCount` states that this operand is the only difference.
- TrustChain.Chain and TrustChain.Issue: their contracts state only store invariants. The effects are stated by `ImportOnlyWhenGenerated`, `RerunAddsNothing` and `ChainAllFoundTrace`.
- Key files that read but do not hold a key are fatal in the model. The comment at `cmd/signserial/main.go:118` says a key that was not loaded is replaced by a new one. But the code prints the parsed key's id before that check (`cmd/signserial/main.go:114-115`, `cmd/mockSerialGen/main.go:235-236` and `313-314`), so a nil key crashes the run first. The model follows the code.
- SignSerial.RunSucceeds: the outcome of the nonce request is a parameter, so the lemma also admits a successful request with an empty sign server. There `net/http` would reject the relative URL `/request-id`, and `Checkerr` would end the run at `cmd/signserial/main.go:134`.

## Findings

| source | as written | input that shows it | evidently intended | confidence | as-written member | corrected member |
|---|---|---|---|---|---|---|
| cmd/ubuntu-recovery-image/main.go:98-100 | `fmt.Sprintf("count=%s", (begin_nr/512)-34)` formats an `int` with `%s` and yields `count=%!s(int=N)` | Bootloader "gpt" and partition 1 beginning at byte 1048576: the operand is `count=%!s(int=2014)`; such a run then dies at main.go:115, because the recovery number for "gpt" is empty (`RawCopyRunHalts`) | `count=2014`, a decimal sector count `dd` can read | not executed | RecoveryLayout.RawCopyCommandAsWritten | RecoveryLayout.RawCopyCommand |
| cmd/ubuntu-recovery-image/main.go:464 | `strings.Trim(recovery_part, "/dev/<loop>p")` removes any characters of that set from both ends, not the prefix | loop device `loop2`, writable partition `/dev/loop2p2`: every character is in the cutset, so the number is "" | the partition suffix after `/dev/loop2p`, i.e. "2" (`strings.TrimPrefix`) | not executed | RecoveryLayout.RecoveryNumberAsWritten | RecoveryLayout.RecoveryNumber |

`RecoveryLayout.RawCopyCountExample` and `RecoveryLayout.RecoveryNumberCutsetExample` prove both inputs' outcomes, as written and corrected. The planner (`RawCopyStep`, `PlanLayout`) uses the corrected raw copy. `RecoveryNumberAgrees` shows that the two recovery-number definitions coincide on numbers with no character of the device prefix at either end.

=== FILE: base64.dfy ===
/** The standard base64 encoding of section 4 of RFC 4648 (alphabet
    `A-Z a-z 0-9 + /`, `=` padding), which `base64.StdEncoding` implements,
    together with a decoder, so that what is encoded can be read back. */
module Base64 {
  import opened Wrappers

  type uint8 = x: int | 0 <= x < 256
  type uint6 = x: int | 0 <= x < 64

  /** The character that stands for the 6-bit value `v`. */
  function CharOf(v: uint6): (c: char)
    ensures IsBase64Char(c)
  {
    if v < 26 then ('A' as int + v) as char
    else if v < 52 then ('a' as int + (v - 26)) as char
    else if v < 62 then ('0' as int + (v - 52)) as char
    else if v == 62 then '+'
    else '/'
  }

  predicate IsBase64Char(c: char) {
    ('A' <= c <= 'Z') || ('a' <= c <= 'z') || ('0' <= c <= '9') || c == '+' || c == '/'
  }

  /** The 6-bit value a character of the alphabet stands for. */
  function ValueOf(c: char): (r: Option<uint6>)
    ensures r.Some? <==> IsBase64Char(c)
  {
    if 'A' <= c <= 'Z' then Some(c as int - 'A' as int)
    else if 'a' <= c <= 'z' then Some(c as int - 'a' as int + 26)
    else if '0' <= c <= '9' then Some(c as int - '0' as int + 52)
    else if c == '+' then Some(62)
    else if c == '/' then Some(63)
    else None
  }

  lemma ValueOfCharOf(v: uint6)
    ensures ValueOf(CharOf(v)) == Some(v)
  {
  }

  /** Three bytes as four characters. */
  function EncodeBlock(b0: uint8, b1: uint8, b2: uint8): (r: string)
    ensures |r| == 4
    ensures IsBase64Char(r[0]) && IsBase64Char(r[1]) && IsBase64Char(r[2]) && IsBase64Char(r[3])
  {
    [CharOf(b0 / 4), CharOf((b0 % 4) * 16 + b1 / 16), CharOf((b1 % 16) * 4 + b2 / 64), CharOf(b2 % 64)]
  }

  /** The last two bytes of an input whose length leaves two over. */
  function EncodePair(b0: uint8, b1: uint8): (r: string)
    ensures |r| == 4 && r[3] == '='
    ensures IsBase64Char(r[0]) && IsBase64Char(r[1]) && IsBase64Char(r[2])
  {
    [CharOf(b0 / 4), CharOf((b0 % 4) * 16 + b1 / 16), CharOf((b1 % 16) * 4), '=']
  }

  /** The last byte of an input whose length leaves one over. */
  function EncodeSingle(b0: uint8): (r: string)
    ensures |r| == 4 && r[2] == '=' && r[3] == '=' && IsBase64Char(r[0]) && IsBase64Char(r[1])
  {
    [CharOf(b0 / 4), CharOf((b0 % 4) * 16), '=', '=']
  }

  /** `base64.StdEncoding.EncodeToString`. */
  function Encode(s: seq<uint8>): (r: string)
    ensures |r| == 4 * ((|s| + 2) / 3)
    decreases |s|
  {
    if |s| >= 3 then
      var head := EncodeBlock(s[0], s[1], s[2]);
      var tail := Encode(s[3..]);
      assert (|s| + 2) / 3 == (|s[3..]| + 2) / 3 + 1;
      head + tail
    else if |s| == 2 then EncodePair(s[0], s[1])
    else if |s| == 1 then EncodeSingle(s[0])
    else ""
  }

  /** The first group of an encoding of at least three bytes is the first
      three bytes' block, and the rest encodes the rest. */
  lemma EncodeSplit(s: seq<uint8>)
    requires |s| >= 3
    ensures |Encode(s)| == 4 + |Encode(s[3..])|
    ensures Encode(s)[..4] == EncodeBlock(s[0], s[1], s[2])
    ensures Encode(s)[4..] == Encode(s[3..])
  {
  }

  /** Every character of an encoding is of the alphabet or padding. */
  lemma {:induction false} EncodeAlphabet(s: seq<uint8>)
    ensures forall i :: 0 <= i < |Encode(s)| ==> IsBase64Char(Encode(s)[i]) || Encode(s)[i] == '='
    decreases |s|
  {
    if |s| >= 3 {
      EncodeAlphabet(s[3..]);
      var r := Encode(s);
      EncodeSplit(s);
      forall i | 0 <= i < |r|
        ensures IsBase64Char(r[i]) || r[i] == '='
      {
        if i >= 4 {
          assert r[i] == r[4..][i - 4];
        } else {
          assert r[i] == r[..4][i];
        }
      }
    }
  }

  /** Four characters of the alphabet as three bytes. */
  function DecodeQuad(v0: uint6, v1: uint6, v2: uint6, v3: uint6): seq<uint8> {
    [v0 * 4 + v1 / 16, (v1 % 16) * 16 + v2 / 4, (v2 % 4) * 64 + v3]
  }

  /** Decodes one group of four characters; `last` says whether padding may
      appear in it. */
  function DecodeGroup(g: string, last: bool): Option<seq<uint8>>
    requires |g| == 4
  {
    var v0 :- ValueOf(g[0]);
    var v1 :- ValueOf(g[1]);
    if last && g[2] == '=' && g[3] == '=' then
      Some([v0 * 4 + v1 / 16])
    else
      var v2 :- ValueOf(g[2]);
      if last && g[3] == '=' then
        Some([v0 * 4 + v1 / 16, (v1 % 16) * 16 + v2 / 4])
      else
        var v3 :- ValueOf(g[3]);
        Some(DecodeQuad(v0, v1, v2, v3))
  }

  /** Decodes padded standard base64; `None` for text that no encoding produces
      in length or alphabet. */
  function Decode(t: string): Option<seq<uint8>>
    decreases |t|
  {
    if |t| == 0 then Some([])
    else if |t| < 4 then None
    else
      var head :- DecodeGroup(t[..4], |t| == 4);
      var tail :- Decode(t[4..]);
      Some(head + tail)
  }

  /** The bit fields of the encoding put back together give the bytes. */
  lemma BlockArithmetic(b0: uint8, b1: uint8, b2: uint8)
    ensures (b0 / 4) * 4 + ((b0 % 4) * 16 + b1 / 16) / 16 == b0
    ensures (((b0 % 4) * 16 + b1 / 16) % 16) * 16 + ((b1 % 16) * 4 + b2 / 64) / 4 == b1
    ensures (((b1 % 16) * 4 + b2 / 64) % 4) * 64 + b2 % 64 == b2
  {
  }

  lemma BlockRoundTrip(b0: uint8, b1: uint8, b2: uint8)
    ensures DecodeGroup(EncodeBlock(b0, b1, b2), false) == Some([b0, b1, b2])
    ensures DecodeGroup(EncodeBlock(b0, b1, b2), true) == Some([b0, b1, b2])
  {
    var v0, v1, v2, v3 := b0 / 4, (b0 % 4) * 16 + b1 / 16, (b1 % 16) * 4 + b2 / 64, b2 % 64;
    ValueOfCharOf(v0);
    ValueOfCharOf(v1);
    ValueOfCharOf(v2);
    ValueOfCharOf(v3);
    BlockArithmetic(b0, b1, b2);
    assert DecodeQuad(v0, v1, v2, v3) == [b0, b1, b2];
  }

  lemma PairRoundTrip(b0: uint8, b1: uint8)
    ensures DecodeGroup(EncodePair(b0, b1), true) == Some([b0, b1])
  {
    var t := EncodePair(b0, b1);
    var v0, v1, v2 := b0 / 4, (b0 % 4) * 16 + b1 / 16, (b1 % 16) * 4;
    ValueOfCharOf(v0);
    ValueOfCharOf(v1);
    ValueOfCharOf(v2);
    BlockArithmetic(b0, b1, 0);
    assert t[2] != '=';
    assert DecodeGroup(t, true) == Some([v0 * 4 + v1 / 16, (v1 % 16) * 16 + v2 / 4]);
  }

  lemma SingleRoundTrip(b0: uint8)
    ensures DecodeGroup(EncodeSingle(b0), true) == Some([b0])
  {
    ValueOfCharOf(b0 / 4);
    ValueOfCharOf((b0 % 4) * 16);
    BlockArithmetic(b0, 0, 0);
  }

  /** Decoding takes the first group, then the rest. */
  lemma DecodeStep(t: string, head: seq<uint8>, rest: seq<uint8>)
    requires |t| >= 4
    requires DecodeGroup(t[..4], |t| == 4) == Some(head)
    requires Decode(t[4..]) == Some(rest)
    ensures Decode(t) == Some(head + rest)
  {
  }

  /** A group that holds the whole text decodes on its own. */
  lemma DecodeLastGroup(t: string, bytes: seq<uint8>)
    requires |t| == 4 && DecodeGroup(t, true) == Some(bytes)
    ensures Decode(t) == Some(bytes)
  {
    assert t[..4] == t && t[4..] == "";
    DecodeStep(t, bytes, []);
    assert bytes + [] == bytes;
  }

  lemma DecodeEncodePair(s: seq<uint8>)
    requires |s| == 2
    ensures Decode(Encode(s)) == Some(s)
  {
    var b0, b1 := s[0], s[1];
    assert Encode(s) == EncodePair(b0, b1);
    PairRoundTrip(b0, b1);
    DecodeLastGroup(EncodePair(b0, b1), [b0, b1]);
    assert s == [b0, b1];
  }

  lemma DecodeEncodeSingle(s: seq<uint8>)
    requires |s| == 1
    ensures Decode(Encode(s)) == Some(s)
  {
    var b0 := s[0];
    assert Encode(s) == EncodeSingle(b0);
    SingleRoundTrip(b0);
    DecodeLastGroup(EncodeSingle(b0), [b0]);
    assert s == [b0];
  }

  lemma FirstThree<T>(s: seq<T>)
    requires |s| >= 3
    ensures s == [s[0], s[1], s[2]] + s[3..]
  {
  }

  /** One block more in front of a text that round-trips still round-trips. */
  lemma DecodeEncodeCons(s: seq<uint8>)
    requires |s| >= 3
    requires Decode(Encode(s[3..])) == Some(s[3..])
    ensures Decode(Encode(s)) == Some(s)
  {
    BlockRoundTrip(s[0], s[1], s[2]);
    EncodeSplit(s);
    FirstThree(s);
    DecodeStep(Encode(s), [s[0], s[1], s[2]], s[3..]);
  }

  /** Decoding what was encoded gives back the original bytes. */
  lemma {:induction false} DecodeEncode(s: seq<uint8>)
    ensures Decode(Encode(s)) == Some(s)
    decreases |s|
  {
    if |s| >= 3 {
      DecodeEncode(s[3..]);
      DecodeEncodeCons(s);
    } else if |s| == 2 {
      DecodeEncodePair(s);
    } else if |s| == 1 {
      DecodeEncodeSingle(s);
    } else {
      assert Encode(s) == "";
    }
  }
}

=== FILE: build_info.dfy ===
/** The build-stamp helpers of `utils/utils.go`: the `git describe` version
    rewrite, the trimmed output of a command, and the commit time stamp.
    Running `git` is not modelled; its outcome is a parameter. */
module BuildInfo {
  import opened Wrappers
  import opened GoInt
  import opened GoStrings
  import opened GoStrconv

  const Version: string := "0.1.0"
  const BuildStampFile: string := "buildstamp"
  const UnknownSha: string := "unknown-dev"

  /** How a command ended: it could not start or exited non-zero, or it
      succeeded with the given combined standard output and error. */
  datatype ExecResult = ExecFailed(reason: string) | ExecSucceeded(combined: string)

  predicate IsLowerHex(c: char) {
    ('0' <= c <= '9') || ('a' <= c <= 'f')
  }

  /** The two character classes of the version pattern: `[0-9]` and `[0-9a-f]`. */
  datatype CharClass = Digits | LowerHex

  predicate InClass(c: char, cls: CharClass) {
    match cls
    case Digits => IsDigit(c)
    case LowerHex => IsLowerHex(c)
  }

  /** The number of consecutive characters from position `i` on that belong to `p`. */
  function RunFrom(s: string, i: nat, p: CharClass): (n: nat)
    requires i <= |s|
    ensures i + n <= |s|
    ensures i + n < |s| ==> !InClass(s[i + n], p)
    decreases |s| - i
  {
    if i < |s| && InClass(s[i], p) then 1 + RunFrom(s, i + 1, p) else 0
  }

  /** Every character of the run belongs to `p`. */
  lemma {:induction false} RunFromHolds(s: string, i: nat, p: CharClass, k: int)
    requires i <= |s| && i <= k < i + RunFrom(s, i, p)
    ensures InClass(s[k], p)
    decreases |s| - i
  {
    if k > i {
      RunFromHolds(s, i + 1, p, k);
    }
  }

  /** A match of the version pattern `-[0-9]{1,3}-g[0-9a-f]{5,10}` starts at
      position `i`. The digits must be the whole run of digits after the dash,
      since the character after them has to be a dash. */
  predicate MatchAt(s: string, i: int) {
    && 0 <= i < |s|
    && s[i] == '-'
    && var d := RunFrom(s, i + 1, Digits);
    && 1 <= d <= 3
    && i + d + 2 < |s|
    && s[i + 1 + d] == '-'
    && s[i + 2 + d] == 'g'
    && RunFrom(s, i + 3 + d, LowerHex) >= 5
  }

  /** The regular expression `-[0-9]{1,3}-g[0-9a-f]{5,}` read literally at
      position `i` with `d` digits: a dash, `d` digits, `-g`, and at least
      five lower-case hexadecimal characters. (The upper bound of ten only
      limits how far a match extends, not whether one starts.) */
  ghost predicate PatternAt(s: string, i: int, d: int) {
    && 0 <= i
    && 1 <= d <= 3
    && i + d + 8 <= |s|
    && s[i] == '-'
    && (forall j :: i + 1 <= j < i + 1 + d ==> IsDigit(s[j]))
    && s[i + 1 + d] == '-'
    && s[i + 2 + d] == 'g'
    && (forall j :: i + 3 + d <= j < i + 8 + d ==> IsLowerHex(s[j]))
  }

  /** A run of `n` class characters from `i` makes the run at least `n` long. */
  lemma {:induction false} RunFromAtLeast(s: string, i: nat, p: CharClass, n: nat)
    requires i + n <= |s|
    requires forall j :: i <= j < i + n ==> InClass(s[j], p)
    ensures RunFrom(s, i, p) >= n
    decreases n
  {
    if n > 0 {
      RunFromAtLeast(s, i + 1, p, n - 1);
    }
  }

  /** A run of `n` class characters from `i` followed by a character outside
      the class is the whole run. */
  lemma RunFromExact(s: string, i: nat, p: CharClass, n: nat)
    requires i + n < |s|
    requires forall j :: i <= j < i + n ==> InClass(s[j], p)
    requires !InClass(s[i + n], p)
    ensures RunFrom(s, i, p) == n
  {
    RunFromAtLeast(s, i, p, n);
    if RunFrom(s, i, p) > n {
      RunFromHolds(s, i, p, i + n);
    }
  }

  /** `MatchAt` holds exactly where the version pattern matches: the digit
      count it reads off the run is the only one the pattern can use. */
  lemma MatchAtPattern(s: string, i: int)
    ensures MatchAt(s, i) <==> exists d :: PatternAt(s, i, d)
  {
    if MatchAt(s, i) {
      var d := RunFrom(s, i + 1, Digits);
      forall j | i + 1 <= j < i + 1 + d
        ensures IsDigit(s[j])
      {
        RunFromHolds(s, i + 1, Digits, j);
      }
      forall j | i + 3 + d <= j < i + 8 + d
        ensures IsLowerHex(s[j])
      {
        RunFromHolds(s, i + 3 + d, LowerHex, j);
      }
      assert PatternAt(s, i, d);
    }
    if d :| PatternAt(s, i, d) {
      RunFromExact(s, i + 1, Digits, d);
      RunFromAtLeast(s, i + 3 + d, LowerHex, 5);
    }
  }

  /** Where the leftmost-first match starting at `i` ends: the hexadecimal part
      is greedy, up to ten characters. */
  function MatchEnd(s: string, i: int): (e: nat)
    requires MatchAt(s, i)
    ensures i + 9 <= e <= |s|
  {
    var d := RunFrom(s, i + 1, Digits);
    var h := RunFrom(s, i + 3 + d, LowerHex);
    i + 3 + d + (if h < 10 then h else 10)
  }

  /** No match starts strictly inside another: the only dash inside a match is
      followed by `g`, not by a digit. */
  lemma InnerNoMatch(s: string, i: int, k: int)
    requires MatchAt(s, i)
    requires i < k < MatchEnd(s, i)
    ensures !MatchAt(s, k)
  {
    var d := RunFrom(s, i + 1, Digits);
    if k == i + 1 + d {
      assert !IsDigit(s[k + 1]);
      assert RunFrom(s, k + 1, Digits) == 0;
    } else if k < i + 1 + d {
      RunFromHolds(s, i + 1, Digits, k);
    } else if k > i + 2 + d {
      RunFromHolds(s, i + 3 + d, LowerHex, k);
    }
  }

  /** Where a match starting at each position ends, or -1 where none starts. */
  function MatchEnds(s: string): (m: seq<int>)
    ensures |m| == |s|
    ensures forall i :: 0 <= i < |s| ==> (m[i] >= 0 <==> MatchAt(s, i))
    ensures forall i :: 0 <= i < |s| && MatchAt(s, i) ==> m[i] == MatchEnd(s, i)
  {
    seq(|s|, i requires 0 <= i < |s| => if MatchAt(s, i) then MatchEnd(s, i) else -1)
  }

  /** A table of match ends as the scan needs it: every match ends after it
      starts and within the string, and no match starts inside another. */
  predicate Disjoint(m: seq<int>) {
    && (forall i :: 0 <= i < |m| && m[i] >= 0 ==> i < m[i] <= |m|)
    && (forall i, k :: 0 <= i < k < |m| && k < m[i] ==> m[k] < 0)
  }

  /** The version pattern's matches never overlap. */
  lemma MatchEndsDisjoint(s: string)
    ensures Disjoint(MatchEnds(s))
  {
    var m := MatchEnds(s);
    forall i, k | 0 <= i < k < |m| && k < m[i]
      ensures m[k] < 0
    {
      InnerNoMatch(s, i, k);
    }
  }

  /** `regexp.ReplaceAllFunc` with the callback that turns the first byte of
      each match into `+`, applied to `s` from position `pos` on, given where
      the matches end: matches are found left to right and the search resumes
      where a match ends. */
  function ScanFrom(s: string, m: seq<int>, pos: nat): (r: string)
    requires |m| == |s| && pos <= |s| && Disjoint(m)
    ensures |r| == |s| - pos
    decreases |s| - pos
  {
    if pos == |s| then []
    else if m[pos] >= 0 then ['+'] + s[pos + 1..m[pos]] + ScanFrom(s, m, m[pos])
    else [s[pos]] + ScanFrom(s, m, pos + 1)
  }

  /** Every position is rewritten by the scan exactly when a match starts
      there: the scan skips no match, since none starts inside another. */
  lemma {:induction false} ScanFromAt(s: string, m: seq<int>, pos: nat, k: nat)
    requires |m| == |s| && Disjoint(m)
    requires pos <= k < |s|
    ensures ScanFrom(s, m, pos)[k - pos] == if m[k] >= 0 then '+' else s[k]
    decreases |s| - pos
  {
    if m[pos] >= 0 {
      var e := m[pos];
      var head := ['+'] + s[pos + 1..e];
      assert ScanFrom(s, m, pos) == head + ScanFrom(s, m, e);
      if k >= e {
        ScanFromAt(s, m, e, k);
      } else if k > pos {
        assert head[k - pos] == s[k];
      }
    } else if k > pos {
      ScanFromAt(s, m, pos + 1, k);
      assert ScanFrom(s, m, pos) == [s[pos]] + ScanFrom(s, m, pos + 1);
    }
  }

  /** The version rewrite of `GetGitSha` on a whole string: each match's
      leading dash becomes `+`, every other character is kept. */
  function Rewrite(s: string): (r: string)
    ensures |r| == |s|
    ensures forall k :: 0 <= k < |s| ==> r[k] == if MatchAt(s, k) then '+' else s[k]
  {
    var m := MatchEnds(s);
    MatchEndsDisjoint(s);
    forall k | 0 <= k < |s|
      ensures ScanFrom(s, m, 0)[k] == if MatchAt(s, k) then '+' else s[k]
    {
      ScanFromAt(s, m, 0, k);
    }
    ScanFrom(s, m, 0)
  }

  /** A string with no match is left as it is. */
  lemma RewriteNoMatch(s: string)
    requires forall k :: !MatchAt(s, k)
    ensures Rewrite(s) == s
  {
  }

  /** `r` is `s` with some dashes replaced by `+`. */
  ghost predicate DashesPlussed(s: string, r: string) {
    |r| == |s| && forall j :: 0 <= j < |s| ==> r[j] == s[j] || (r[j] == '+' && s[j] == '-')
  }

  /** Neither class holds '-' or '+', so their runs are unaffected by
      replacing dashes with `+`. */
  lemma {:induction false} SameRuns(s: string, r: string, i: nat, p: CharClass)
    requires DashesPlussed(s, r) && i <= |s|
    ensures RunFrom(r, i, p) == RunFrom(s, i, p)
    decreases |s| - i
  {
    if i < |s| {
      SameRuns(s, r, i + 1, p);
    }
  }

  /** Replacing dashes with `+` creates no match. */
  lemma MatchSurvivesFrom(s: string, r: string, k: int)
    requires DashesPlussed(s, r)
    requires MatchAt(r, k)
    ensures MatchAt(s, k)
  {
    var d := RunFrom(r, k + 1, Digits);
    assert RunFrom(s, k + 1, Digits) == d by {
      SameRuns(s, r, k + 1, Digits);
    }
    assert RunFrom(s, k + 3 + d, LowerHex) >= 5 by {
      SameRuns(s, r, k + 3 + d, LowerHex);
    }
    assert s[k] == '-' && s[k + 1 + d] == '-' && s[k + 2 + d] == 'g';
    MatchFromParts(s, k, d);
  }

  /** The pieces of a match, taken one at a time. */
  lemma MatchFromParts(s: string, i: int, d: nat)
    requires 0 <= i && i + d + 2 < |s| && s[i] == '-'
    requires RunFrom(s, i + 1, Digits) == d && 1 <= d <= 3
    requires s[i + 1 + d] == '-' && s[i + 2 + d] == 'g'
    requires RunFrom(s, i + 3 + d, LowerHex) >= 5
    ensures MatchAt(s, i)
  {
  }

  /** A match in the rewritten string would be a match in the original, whose
      first character has been replaced: so none remains. */
  lemma NoMatchAfterRewrite(s: string, k: int)
    ensures !MatchAt(Rewrite(s), k)
  {
    var r := Rewrite(s);
    assert DashesPlussed(s, r);
    if MatchAt(r, k) {
      MatchSurvivesFrom(s, r, k);
    }
  }

  /** Rewriting twice is rewriting once. */
  lemma RewriteIdempotent(s: string)
    ensures Rewrite(Rewrite(s)) == Rewrite(s)
  {
    forall k ensures !MatchAt(Rewrite(s), k) {
      NoMatchAfterRewrite(s, k);
    }
    RewriteNoMatch(Rewrite(s));
  }

  /** `runError`: the combined output with surrounding white space removed, or
      the error. */
  function RunError(res: ExecResult): (r: Result<string, string>)
    ensures res.ExecFailed? <==> r.Err?
    ensures r.Ok? ==> IsInfix(r.value, res.combined)
    ensures r.Ok? && |r.value| > 0 ==> !IsSpace(r.value[0]) && !IsSpace(r.value[|r.value| - 1])
    ensures r.Ok? && |r.value| == 0 ==> forall i :: 0 <= i < |res.combined| ==> IsSpace(res.combined[i])
    ensures r.Ok? ==> exists k :: SpaceAround(res.combined, r.value, k)
  {
    match res
    case ExecFailed(reason) => Err(reason)
    case ExecSucceeded(out) =>
      var t := TrimSpace(out);
      assert IsInfix(t, out);
      Ok(t)
  }

  /** `GetGitSha`, given how `git describe --always --dirty` ended. */
  function GetGitSha(describe: ExecResult): (r: string)
    ensures describe.ExecFailed? ==> r == UnknownSha
    ensures describe.ExecSucceeded? ==>
      var v := TrimSpace(describe.combined);
      |r| == |v| && forall k :: 0 <= k < |v| ==> r[k] == if MatchAt(v, k) then '+' else v[k]
  {
    match RunError(describe)
    case Err(_) => UnknownSha
    case Ok(v) => Rewrite(v)
  }

  /** `CommitStamp`, given how `git show -s --format=%ct` ended and the current
      Unix time: the current time when git fails, otherwise whatever
      `ParseInt` yields with its error ignored. */
  function CommitStamp(show: ExecResult, now: int): (r: int)
    ensures show.ExecFailed? ==> r == now
    ensures show.ExecSucceeded? ==> IsInt64(r)
    ensures show.ExecSucceeded? && ParseInt64(TrimSpace(show.combined)).1 == Some(ErrSyntax) ==> r == 0
    ensures show.ExecSucceeded? ==>
      var v := TrimSpace(show.combined);
      DecimalSyntax(v) ==>
        r == if DecimalValue(v) > Int64Max then Int64Max
             else if DecimalValue(v) < Int64Min then Int64Min
             else DecimalValue(v)
    ensures show.ExecSucceeded? ==>
      var v := TrimSpace(show.combined);
      |v| <= 19 && !DecimalSyntax(v) ==> r == 0
  {
    match RunError(show)
    case Err(_) => now
    case Ok(bs) => ParseInt64(bs).0
  }

  /** A trailing newline is all `TrimSpace` removes from a printed number. */
  lemma TrimSpaceNumeral(n: int)
    ensures TrimSpace(FormatInt(n) + "\n") == FormatInt(n)
  {
    var x := FormatInt(n);
    var s := x + "\n";
    assert !IsSpace(s[0]);
    assert TrimLeftFunc(s, IsSpace) == s;
    assert s[..|s| - 1] == x;
    assert TrimRightFunc(s, IsSpace) == TrimRightFunc(x, IsSpace);
    assert !IsSpace(x[|x| - 1]);
  }

  /** The time stamp git prints (seconds, then a newline) is the one returned. */
  lemma CommitStampReadsGit(t: int, now: int)
    requires IsInt64(t)
    ensures CommitStamp(ExecSucceeded(FormatInt(t) + "\n"), now) == t
  {
    TrimSpaceNumeral(t);
    ParseFormat(t);
  }

  /** Output that does not start with a number, such as an error message, gives 0. */
  lemma CommitStampGarbage(out: string, now: int)
    requires var v := TrimSpace(out);
      var body := if |v| > 0 && (v[0] == '+' || v[0] == '-') then v[1..] else v;
      |body| == 0 || !IsDigit(body[0])
    ensures CommitStamp(ExecSucceeded(out), now) == 0
  {
  }

  /** A typical `git describe --dirty` output: tag, commit count, hash, dirty mark. */
  const DescribeExample: string := "1.2-14-g1a2b3c4-dirty"

  lemma ExampleCountRun()
    ensures RunFrom(DescribeExample, 4, Digits) == 2
  {
    var s := DescribeExample;
    assert RunFrom(s, 6, Digits) == 0;
    assert RunFrom(s, 5, Digits) == 1;
  }

  lemma ExampleHashRun()
    ensures RunFrom(DescribeExample, 8, LowerHex) == 7
  {
    var s := DescribeExample;
    assert RunFrom(s, 15, LowerHex) == 0;
    assert RunFrom(s, 14, LowerHex) == 1;
    assert RunFrom(s, 13, LowerHex) == 2;
    assert RunFrom(s, 12, LowerHex) == 3;
    assert RunFrom(s, 11, LowerHex) == 4;
    assert RunFrom(s, 10, LowerHex) == 5;
    assert RunFrom(s, 9, LowerHex) == 6;
  }

  /** The dash before the commit count starts a match. */
  lemma ExampleMatchesCount()
    ensures MatchAt(DescribeExample, 3)
  {
    ExampleCountRun();
    ExampleHashRun();
  }

  /** The dash before the hash does not start a match: a letter follows it. */
  lemma ExampleHashDash()
    ensures !MatchAt(DescribeExample, 6)
  {
    assert RunFrom(DescribeExample, 7, Digits) == 0;
  }

  /** Nor does the dash before `dirty`. */
  lemma ExampleDirtyDash()
    ensures !MatchAt(DescribeExample, 15)
  {
    assert RunFrom(DescribeExample, 16, Digits) == 0;
  }

  /** No other position starts a match: it holds no dash. */
  lemma ExampleNoOtherMatch(k: int)
    requires 0 <= k < |DescribeExample| && k != 3 && k != 6 && k != 15
    ensures !MatchAt(DescribeExample, k)
  {
  }

  /** A string with a single match has just that match's dash replaced. */
  lemma RewriteSingleMatch(s: string, j: int)
    requires MatchAt(s, j)
    requires forall k :: k != j ==> !MatchAt(s, k)
    ensures Rewrite(s) == s[..j] + "+" + s[j + 1..]
  {
    var t := s[..j] + "+" + s[j + 1..];
    var r := Rewrite(s);
    assert |t| == |r|;
    forall k | 0 <= k < |s|
      ensures r[k] == t[k]
    {
      if k < j {
        assert t[k] == s[k];
      } else if k > j {
        assert t[k] == s[j + 1..][k - j - 1];
      }
    }
  }

  /** Only the dash before the commit count changes. */
  lemma RewriteExampleSplice()
    ensures Rewrite(DescribeExample) == DescribeExample[..3] + "+" + DescribeExample[4..]
  {
    ExampleMatchesCount();
    ExampleOnlyMatch();
    RewriteSingleMatch(DescribeExample, 3);
  }

  /** No position but the dash before the commit count starts a match. */
  lemma ExampleOnlyMatch()
    ensures forall k :: k != 3 ==> !MatchAt(DescribeExample, k)
  {
    forall k | k != 3
      ensures !MatchAt(DescribeExample, k)
    {
      if k == 6 {
        ExampleHashDash();
      } else if k == 15 {
        ExampleDirtyDash();
      } else if 0 <= k < |DescribeExample| {
        ExampleNoOtherMatch(k);
      }
    }
  }

  /** The version string that goes into the build stamp for this describe output. */
  lemma RewriteExample()
    ensures Rewrite(DescribeExample) == "1.2+14-g1a2b3c4-dirty"
  {
    RewriteExampleSplice();
    ExampleSpliced();
  }

  lemma ExampleSpliced()
    ensures DescribeExample[..3] + "+" + DescribeExample[4..] == "1.2+14-g1a2b3c4-dirty"
  {
  }
}

=== FILE: goint.dfy ===
/** Go's 64-bit `int`/`int64` arithmetic on top of Dafny's unbounded integers:
    the representable range, two's-complement wrap-around, and division that
    truncates toward zero (Dafny's own `/` is Euclidean). */
module GoInt {

  const TwoTo63: int := 0x8000_0000_0000_0000
  const TwoTo64: int := 0x1_0000_0000_0000_0000
  const Int64Min: int := -TwoTo63
  const Int64Max: int := TwoTo63 - 1

  /** One mebibyte, the unit of the recovery partition size. */
  const MiB: int := 1024 * 1024

  predicate IsInt64(x: int) {
    Int64Min <= x <= Int64Max
  }

  /** The value Go's 64-bit arithmetic produces for the exact result `x`.
      Wrapping after every intermediate step (as Go does) gives the same value
      as wrapping the exact result once, because wrapping is taken modulo 2^64. */
  function Wrap64(x: int): (r: int)
    ensures IsInt64(r)
    ensures (x - r) % TwoTo64 == 0
    ensures IsInt64(x) ==> r == x
  {
    (x + TwoTo63) % TwoTo64 - TwoTo63
  }

  /** Go's `a / b` for a positive divisor: the quotient rounded toward zero,
      so the remainder takes the sign of the dividend. */
  function Quo(a: int, b: int): (q: int)
    requires b > 0
    ensures a >= 0 ==> 0 <= a - q * b < b
    ensures a < 0 ==> -b < a - q * b <= 0
  {
    if a >= 0 then a / b
    else
      var q0 := (-a) / b;
      assert -a == q0 * b + (-a) % b;
      assert (-q0) * b == -(q0 * b);
      -q0
  }
}

=== FILE: gostrconv.dfy ===
/** Decimal conversions from Go's `strconv` and `fmt` packages: `%d`
    formatting, `strconv.Atoi`, `strconv.ParseInt(s, 10, 64)` with its
    clamping on overflow, `%02d`, and the text `fmt` prints for a verb that
    does not fit its operand. */
module GoStrconv {
  import opened GoInt
  import opened Wrappers

  const MaxUint64: int := TwoTo64 - 1

  datatype NumError = ErrSyntax | ErrRange

  predicate IsDigit(c: char) {
    '0' <= c <= '9'
  }

  predicate AllDigits(s: string) {
    forall i :: 0 <= i < |s| ==> IsDigit(s[i])
  }

  function DigitValue(c: char): nat
    requires IsDigit(c)
  {
    c as int - '0' as int
  }

  function DigitChar(d: nat): (c: char)
    requires d < 10
    ensures IsDigit(c) && DigitValue(c) == d
  {
    ('0' as int + d) as char
  }

  /** The value of `acc` followed by the decimal digits of `s`, read left to right. */
  function DigitsValue(s: string, acc: nat): nat
    requires AllDigits(s)
  {
    if |s| == 0 then acc else DigitsValue(s[1..], acc * 10 + DigitValue(s[0]))
  }

  /** Appending one digit multiplies the value read so far by ten. */
  lemma {:induction false} DigitsValueSnoc(s: string, c: char, acc: nat)
    requires AllDigits(s) && IsDigit(c)
    ensures AllDigits(s + [c])
    ensures DigitsValue(s + [c], acc) == DigitsValue(s, acc) * 10 + DigitValue(c)
    decreases |s|
  {
    if |s| > 0 {
      assert (s + [c])[1..] == s[1..] + [c];
      DigitsValueSnoc(s[1..], c, acc * 10 + DigitValue(s[0]));
    }
  }

  /** Reading more digits never makes the value smaller. */
  lemma {:induction false} DigitsValueGrows(s: string, acc: nat)
    requires AllDigits(s)
    ensures DigitsValue(s, acc) >= acc
    decreases |s|
  {
    if |s| > 0 {
      DigitsValueGrows(s[1..], acc * 10 + DigitValue(s[0]));
    }
  }

  /** `%d` of a natural number: the shortest decimal numeral, so no leading
      zero unless the number is zero. */
  function FormatNat(n: nat): (r: string)
    ensures |r| >= 1 && AllDigits(r)
    ensures |r| > 1 ==> r[0] != '0'
    ensures n < 10 <==> |r| == 1
    decreases n
  {
    if n < 10 then [DigitChar(n)] else FormatNat(n / 10) + [DigitChar(n % 10)]
  }

  /** The numeral `FormatNat` prints reads back as the number. */
  lemma {:induction false} FormatNatValue(n: nat)
    ensures DigitsValue(FormatNat(n), 0) == n
    decreases n
  {
    if n >= 10 {
      FormatNatValue(n / 10);
      DigitsValueSnoc(FormatNat(n / 10), DigitChar(n % 10), 0);
    }
  }

  /** `%d` / `strconv.Itoa`: a minus sign for negative numbers, then the numeral. */
  function FormatInt(n: int): (r: string)
    ensures |r| >= 1
    ensures n < 0 <==> r[0] == '-'
    ensures n >= 0 ==> AllDigits(r)
  {
    if n < 0 then "-" + FormatNat(-n) else FormatNat(n)
  }

  /** The digit loop of `strconv.ParseUint(s, 10, 64)`, with `n` the value
      accumulated so far: a non-digit is a syntax error at the point it is
      reached, and the first digit that takes the value past 2^64-1 is a range
      error, whatever follows it. */
  function ScanUint(s: string, n: nat): Result<nat, NumError>
    requires n <= MaxUint64
  {
    if |s| == 0 then Ok(n)
    else if !IsDigit(s[0]) then Err(ErrSyntax)
    else
      var n' := n * 10 + DigitValue(s[0]);
      if n' > MaxUint64 then Err(ErrRange) else ScanUint(s[1..], n')
  }

  /** `strconv.ParseUint(s, 10, 64)`: accepts exactly the non-empty digit
      strings whose value fits in 64 unsigned bits; a longer one is a range
      error, the empty string a syntax error. */
  function ParseUint64(s: string): (r: Result<nat, NumError>)
    ensures r.Ok? <==> s != "" && AllDigits(s) && DigitsValue(s, 0) <= MaxUint64
    ensures r.Ok? ==> AllDigits(s) && r.value == DigitsValue(s, 0)
    ensures s != "" && AllDigits(s) && DigitsValue(s, 0) > MaxUint64 ==> r == Err(ErrRange)
    ensures s == "" ==> r == Err(ErrSyntax)
    ensures |s| <= 19 ==> r != Err(ErrRange)
  {
    if s == "" then Err(ErrSyntax)
    else
      Pow10Short(|s|);
      ScanUintShort(s, 0);
      if AllDigits(s) then
        ScanUintDigits(s, 0);
        ScanUint(s, 0)
      else
        ScanUintNonDigit(s, 0);
        ScanUint(s, 0)
  }

  /** Ten to the power `k`. */
  function Pow10(k: nat): (r: nat)
    ensures r >= 1
  {
    if k == 0 then 1 else 10 * Pow10(k - 1)
  }

  /** Ten to the power 19 or less is below 2^64. */
  lemma {:induction false} Pow10Short(k: nat)
    ensures k <= 19 ==> Pow10(k) <= 10_000_000_000_000_000_000 < TwoTo64
    decreases 19 - k
  {
    if k < 19 {
      Pow10Short(k + 1);
      assert Pow10(k + 1) == 10 * Pow10(k);
    } else if k == 19 {
      assert Pow10(10) == 10_000_000_000;
      assert Pow10(19) == 10 * Pow10(18);
      assert Pow10(18) == 10 * Pow10(17);
    }
  }

  /** Nineteen digits never reach 2^64: the scan of a string that short,
      from a value small enough, ends in a value or a syntax error. */
  lemma {:induction false} ScanUintShort(s: string, n: nat)
    requires n <= MaxUint64
    requires |s| <= 19 ==> (n + 1) * Pow10(|s|) <= TwoTo64
    ensures |s| <= 19 ==> ScanUint(s, n) != Err(ErrRange)
    decreases |s|
  {
    if |s| <= 19 && |s| > 0 && IsDigit(s[0]) {
      var n' := n * 10 + DigitValue(s[0]);
      ShortStep(n, DigitValue(s[0]), Pow10(|s| - 1));
      ScanUintShort(s[1..], n');
    }
  }

  /** One more digit keeps the bound: if `n` followed by `k + 1` digits
      stays below 2^64, so does `10n + d` followed by `k`. */
  lemma ShortStep(n: nat, d: nat, p: nat)
    requires d <= 9 && p >= 1
    requires (n + 1) * (10 * p) <= TwoTo64
    ensures n * 10 + d <= MaxUint64
    ensures (n * 10 + d + 1) * p <= TwoTo64
  {
    assert (n * 10 + d + 1) * p <= (n + 1) * 10 * p by {
      MulMono(n * 10 + d + 1, (n + 1) * 10, p);
    }
    assert (n + 1) * 10 * p == (n + 1) * (10 * p);
  }

  lemma MulMono(a: nat, b: nat, c: nat)
    requires a <= b
    ensures a * c <= b * c
  {
  }

  /** On a string of digits, the scan yields the numeral's value exactly when
      it fits in 64 unsigned bits, and a range error otherwise. */
  lemma {:induction false} ScanUintDigits(s: string, n: nat)
    requires AllDigits(s) && n <= MaxUint64
    ensures DigitsValue(s, n) <= MaxUint64 ==> ScanUint(s, n) == Ok(DigitsValue(s, n))
    ensures DigitsValue(s, n) > MaxUint64 ==> ScanUint(s, n) == Err(ErrRange)
    decreases |s|
  {
    if |s| > 0 {
      var n' := n * 10 + DigitValue(s[0]);
      DigitsValueGrows(s[1..], n');
      if n' <= MaxUint64 {
        ScanUintDigits(s[1..], n');
      }
    }
  }

  /** A string that contains a non-digit is a syntax error when no range error
      comes first, and never parses. */
  lemma {:induction false} ScanUintNonDigit(s: string, n: nat)
    requires n <= MaxUint64
    requires !AllDigits(s)
    ensures ScanUint(s, n).Err?
    decreases |s|
  {
    if IsDigit(s[0]) {
      var n' := n * 10 + DigitValue(s[0]);
      if n' <= MaxUint64 {
        assert !AllDigits(s[1..]) by {
          var i :| 0 <= i < |s| && !IsDigit(s[i]);
          assert s[1..][i - 1] == s[i];
        }
        ScanUintNonDigit(s[1..], n');
      }
    }
  }

  /** `strconv.ParseInt(s, 10, 64)`, both of its results: the value and the
      error. A well-formed numeral that fits is read exactly; a syntax error
      yields 0; a range error yields the bound of the side the number
      overflowed on. */
  function ParseInt64(s: string): (r: (int, Option<NumError>))
    ensures IsInt64(r.0)
    ensures r.1.None? <==> DecimalSyntax(s) && IsInt64(DecimalValue(s))
    ensures r.1.None? ==> DecimalSyntax(s) && r.0 == DecimalValue(s)
    ensures r.1 == Some(ErrSyntax) ==> r.0 == 0
    ensures r.1 == Some(ErrRange) ==> |s| > 0 && r.0 == if s[0] == '-' then Int64Min else Int64Max
    ensures DecimalSyntax(s) && !IsInt64(DecimalValue(s)) ==> r.1 == Some(ErrRange)
    ensures |s| <= 19 && !DecimalSyntax(s) ==> r == (0, Some(ErrSyntax))
  {
    if s == "" then (0, Some(ErrSyntax))
    else
      var neg := s[0] == '-';
      var body := if s[0] == '+' || s[0] == '-' then s[1..] else s;
      match ParseUint64(body)
      case Err(ErrSyntax) => (0, Some(ErrSyntax))
      case Err(ErrRange) => (if neg then Int64Min else Int64Max, Some(ErrRange))
      case Ok(un) =>
        if !neg && un > Int64Max then (Int64Max, Some(ErrRange))
        else if neg && un > TwoTo63 then (Int64Min, Some(ErrRange))
        else (if neg then 0 - un else un, None)
  }

  /** `strconv.Atoi` on a 64-bit platform: the value of a well-formed numeral
      that fits in 64 bits, or the error. */
  function Atoi(s: string): (r: Result<int, NumError>)
    ensures r.Ok? <==> DecimalSyntax(s) && IsInt64(DecimalValue(s))
    ensures r.Ok? ==> r.value == DecimalValue(s) && IsInt64(r.value)
    ensures DecimalSyntax(s) && !IsInt64(DecimalValue(s)) ==> r == Err(ErrRange)
  {
    var (v, e) := ParseInt64(s);
    if e.Some? then Err(e.value) else Ok(v)
  }

  /** An optionally signed decimal numeral with at least one digit. */
  predicate DecimalSyntax(s: string) {
    if |s| > 0 && (s[0] == '+' || s[0] == '-') then |s| > 1 && AllDigits(s[1..])
    else |s| > 0 && AllDigits(s)
  }

  /** The integer a well-formed decimal numeral denotes. */
  function DecimalValue(s: string): int
    requires DecimalSyntax(s)
  {
    if s[0] == '-' then 0 - DigitsValue(s[1..], 0)
    else if s[0] == '+' then DigitsValue(s[1..], 0)
    else DigitsValue(s, 0)
  }

  /** What `%d` prints, `ParseInt` reads back without error. */
  lemma ParseFormat(n: int)
    requires IsInt64(n)
    ensures ParseInt64(FormatInt(n)) == (n, None)
    ensures Atoi(FormatInt(n)) == Ok(n)
  {
    var m := if n < 0 then -n else n;
    FormatNatValue(m);
    ScanUintDigits(FormatNat(m), 0);
    if n < 0 {
      assert FormatInt(n)[1..] == FormatNat(m);
    }
  }

  /** `%02d` of a non-negative number: at least two digits, padded with a
      leading zero. */
  function ZeroPad2(n: nat): (r: string)
    ensures |r| >= 2 && AllDigits(r)
    ensures n < 100 ==> |r| == 2
    ensures DigitsValue(r, 0) == n
  {
    FormatNatValue(n);
    if n < 10 then
      assert DigitsValue("0" + FormatNat(n), 0) == DigitsValue(FormatNat(n), 0);
      "0" + FormatNat(n)
    else FormatNat(n)
  }

  /** What `fmt` prints for the verb `%s` applied to an `int` operand. */
  function BadVerbS(n: int): (r: string)
    ensures "%!s(int=" <= r && r[|r| - 1] == ')'
  {
    "%!s(int=" + FormatInt(n) + ")"
  }
}

=== FILE: gostrings.dfy ===
/** The pieces of Go's `strings` and `bytes` packages the tools rely on:
    splitting on a separator, cutset trimming, prefix trimming and white-space
    trimming. Strings are sequences of Unicode code points. */
module GoStrings {

  /** `r` occurs in `s` as a contiguous run. */
  ghost predicate IsInfix(r: string, s: string) {
    exists k :: 0 <= k <= |s| - |r| && s[k..][..|r|] == r
  }

  /** `r` is the run of `s` at offset `k`, and every character of `s` before
      or after it is in `cutset`. */
  ghost predicate CutAround(s: string, r: string, k: int, cutset: string) {
    && 0 <= k <= |s| - |r|
    && s[k..k + |r|] == r
    && (forall i :: 0 <= i < k ==> s[i] in cutset)
    && (forall i :: k + |r| <= i < |s| ==> s[i] in cutset)
  }

  /** The pieces joined back together with the separator between them
      (`strings.Join` with a one-character separator). */
  function Join(parts: seq<string>, sep: char): string {
    if |parts| == 0 then ""
    else if |parts| == 1 then parts[0]
    else parts[0] + [sep] + Join(parts[1..], sep)
  }

  /** The position of the first occurrence of `c` in `s`. */
  function IndexOf(s: string, c: char): (i: nat)
    requires c in s
    ensures i < |s| && s[i] == c
    ensures c !in s[..i]
  {
    if s[0] == c then 0
    else
      var j := IndexOf(s[1..], c);
      assert s[..j + 1] == [s[0]] + s[1..][..j];
      j + 1
  }

  /** `strings.Split(s, sep)` for a one-character separator: the maximal
      separator-free pieces, one more than there are separators. */
  function Split(s: string, sep: char): (parts: seq<string>)
    ensures |parts| >= 1
    ensures forall i :: 0 <= i < |parts| ==> sep !in parts[i]
    ensures Join(parts, sep) == s
    decreases |s|
  {
    if sep !in s then [s]
    else
      var i := IndexOf(s, sep);
      var rest := Split(s[i + 1..], sep);
      var parts := [s[..i]] + rest;
      assert parts[1..] == rest;
      assert s == s[..i] + [sep] + s[i + 1..];
      parts
  }

  /** Splitting a join gives back the pieces, provided none of them contains
      the separator: `Split` and `Join` are inverse to each other. */
  lemma {:induction false} SplitJoin(parts: seq<string>, sep: char)
    requires |parts| >= 1
    requires forall i :: 0 <= i < |parts| ==> sep !in parts[i]
    ensures Split(Join(parts, sep), sep) == parts
    decreases |parts|
  {
    if |parts| > 1 {
      var rest := Join(parts[1..], sep);
      var s := Join(parts, sep);
      assert s == parts[0] + [sep] + rest;
      assert s[|parts[0]|] == sep;
      var i := IndexOf(s, sep);
      assert forall j :: 0 <= j < |parts[0]| ==> s[j] == parts[0][j];
      assert i == |parts[0]|;
      assert s[..i] == parts[0];
      assert s[i + 1..] == rest;
      SplitJoin(parts[1..], sep);
    }
  }

  /** Splitting a string that starts with a separator-free piece and a
      separator gives that piece followed by the pieces of the rest. */
  lemma SplitCons(head: string, tail: string, sep: char)
    requires sep !in head
    ensures Split(head + [sep] + tail, sep) == [head] + Split(tail, sep)
  {
    var s := head + [sep] + tail;
    assert s[|head|] == sep;
    var i := IndexOf(s, sep);
    assert forall j :: 0 <= j < |head| ==> s[j] == head[j];
    assert i == |head|;
    assert s[..i] == head;
    assert s[i + 1..] == tail;
  }

  /** `strings.TrimLeftFunc`: drops the longest prefix whose characters satisfy `cut`. */
  function TrimLeftFunc(s: string, cut: char -> bool): (r: string)
    ensures |r| <= |s| && r == s[|s| - |r|..]
    ensures |r| > 0 ==> !cut(r[0])
    ensures forall i :: 0 <= i < |s| - |r| ==> cut(s[i])
  {
    if |s| > 0 && cut(s[0]) then
      var r := TrimLeftFunc(s[1..], cut);
      assert s[1..][|s| - 1 - |r|..] == s[|s| - |r|..];
      assert forall i :: 1 <= i < |s| - |r| ==> s[i] == s[1..][i - 1];
      r
    else s
  }

  /** `strings.TrimRightFunc`: drops the longest suffix whose characters satisfy `cut`. */
  function TrimRightFunc(s: string, cut: char -> bool): (r: string)
    ensures |r| <= |s| && r == s[..|r|]
    ensures |r| > 0 ==> !cut(r[|r| - 1])
    ensures forall i :: |r| <= i < |s| ==> cut(s[i])
  {
    if |s| > 0 && cut(s[|s| - 1]) then
      var r := TrimRightFunc(s[..|s| - 1], cut);
      assert s[..|s| - 1][..|r|] == s[..|r|];
      r
    else s
  }

  /** `strings.TrimRight(s, cutset)`: every trailing character that occurs in
      `cutset` is removed. The cutset is a set of characters, not a suffix. */
  function TrimRight(s: string, cutset: string): (r: string)
    ensures |r| <= |s| && r == s[..|r|]
    ensures |r| > 0 ==> r[|r| - 1] !in cutset
    ensures forall i :: |r| <= i < |s| ==> s[i] in cutset
    ensures (forall i :: 0 <= i < |s| ==> s[i] in cutset) ==> r == ""
  {
    TrimRightFunc(s, c => c in cutset)
  }

  /** `strings.TrimLeft(s, cutset)`. */
  function TrimLeft(s: string, cutset: string): (r: string)
    ensures |r| <= |s| && r == s[|s| - |r|..]
    ensures |r| > 0 ==> r[0] !in cutset
    ensures forall i :: 0 <= i < |s| - |r| ==> s[i] in cutset
    ensures (forall i :: 0 <= i < |s| ==> s[i] in cutset) ==> r == ""
  {
    TrimLeftFunc(s, c => c in cutset)
  }

  /** `strings.Trim(s, cutset)`: removes characters of `cutset` from both
      ends. The result sits at some offset `k` of `s`; everything before it
      and everything after it is in the cutset, and its own ends are not. */
  function Trim(s: string, cutset: string): (r: string)
    ensures IsInfix(r, s)
    ensures |r| > 0 ==> r[0] !in cutset && r[|r| - 1] !in cutset
    ensures |r| == 0 <==> forall i :: 0 <= i < |s| ==> s[i] in cutset
    ensures exists k :: CutAround(s, r, k, cutset)
  {
    var l := TrimLeft(s, cutset);
    var r := TrimRight(l, cutset);
    BothEnds(s, l, r, c => c in cutset);
    CutsetAround(s, l, r, cutset);
    r
  }

  /** What trimming from the left and then from the right leaves: the run of
      `s` at offset `|s| - |l|` with only cut characters around it, empty
      exactly when every character of `s` is cut. */
  lemma BothEnds(s: string, l: string, r: string, cut: char -> bool)
    requires |l| <= |s| && l == s[|s| - |l|..] && forall i :: 0 <= i < |s| - |l| ==> cut(s[i])
    requires |r| <= |l| && r == l[..|r|] && forall i :: |r| <= i < |l| ==> cut(l[i])
    requires |r| > 0 ==> !cut(r[0])
    ensures IsInfix(r, s)
    ensures |r| == 0 <==> forall i :: 0 <= i < |s| ==> cut(s[i])
    ensures var k := |s| - |l|;
      && s[k..k + |r|] == r
      && (forall i :: 0 <= i < k ==> cut(s[i]))
      && (forall i :: k + |r| <= i < |s| ==> cut(s[i]))
  {
    var k := |s| - |l|;
    assert s[k..][..|r|] == r;
    assert s[k..k + |r|] == r;
    forall i | k + |r| <= i < |s|
      ensures cut(s[i])
    {
      assert s[i] == l[i - k];
    }
    if |r| == 0 {
      forall i | 0 <= i < |s|
        ensures cut(s[i])
      {
        if i >= k {
          assert s[i] == l[i - k];
        }
      }
    } else {
      assert s[k] == r[0];
    }
  }

  /** The cutset form of the offset clause of `BothEnds`. */
  lemma CutsetAround(s: string, l: string, r: string, cutset: string)
    requires |l| <= |s| && l == s[|s| - |l|..] && forall i :: 0 <= i < |s| - |l| ==> s[i] in cutset
    requires |r| <= |l| && r == l[..|r|] && forall i :: |r| <= i < |l| ==> l[i] in cutset
    ensures CutAround(s, r, |s| - |l|, cutset)
  {
    var k := |s| - |l|;
    assert s[k..k + |r|] == r;
    forall i | k + |r| <= i < |s|
      ensures s[i] in cutset
    {
      assert s[i] == l[i - k];
    }
  }

  /** Right-trimming removes exactly an appended run of cutset characters
      when the character before it is not in the cutset. */
  lemma TrimRightAppended(body: string, tail: string, cutset: string)
    requires |body| > 0 && body[|body| - 1] !in cutset
    requires forall i :: 0 <= i < |tail| ==> tail[i] in cutset
    ensures TrimRight(body + tail, cutset) == body
  {
    var s := body + tail;
    var r := TrimRight(s, cutset);
    assert s[|body| - 1] == body[|body| - 1];
    assert forall i :: |body| <= i < |s| ==> s[i] == tail[i - |body|];
    assert |r| == |body|;
    assert r == s[..|body|];
  }

  /** Left-trimming removes exactly a prepended run of cutset characters when
      the character after it is not in the cutset. */
  lemma TrimLeftPrepended(head: string, body: string, cutset: string)
    requires |body| > 0 && body[0] !in cutset
    requires forall i :: 0 <= i < |head| ==> head[i] in cutset
    ensures TrimLeft(head + body, cutset) == body
  {
    var s := head + body;
    var r := TrimLeft(s, cutset);
    assert s[|head|] == body[0];
    assert forall i :: 0 <= i < |head| ==> s[i] == head[i];
    assert |r| == |body|;
    assert r == s[|head|..];
  }

  /** `strings.TrimPrefix`: removes `prefix` once if `s` starts with it. */
  function TrimPrefix(s: string, prefix: string): (r: string)
    ensures prefix <= s ==> prefix + r == s
    ensures !(prefix <= s) ==> r == s
  {
    if prefix <= s then s[|prefix|..] else s
  }

  /** `r` is the run of `s` at offset `k`, and every character of `s` before
      or after it is white space. */
  ghost predicate SpaceAround(s: string, r: string, k: int) {
    && 0 <= k <= |s| - |r|
    && s[k..k + |r|] == r
    && (forall i :: 0 <= i < k ==> IsSpace(s[i]))
    && (forall i :: k + |r| <= i < |s| ==> IsSpace(s[i]))
  }

  /** `unicode.IsSpace`: the Unicode white-space characters. */
  predicate IsSpace(c: char) {
    c == ' ' || c == '\t' || c == '\n' || c == '\U{0B}' || c == '\U{0C}' || c == '\r'
    || c == '\U{85}' || c == '\U{A0}' || c == '\U{1680}'
    || ('\U{2000}' <= c <= '\U{200A}')
    || c == '\U{2028}' || c == '\U{2029}' || c == '\U{202F}' || c == '\U{205F}' || c == '\U{3000}'
  }

  /** `bytes.TrimSpace` / `strings.TrimSpace`: removes leading and trailing
      white space and nothing else. */
  function TrimSpace(s: string): (r: string)
    ensures IsInfix(r, s)
    ensures |r| > 0 ==> !IsSpace(r[0]) && !IsSpace(r[|r| - 1])
    ensures |r| == 0 <==> forall i :: 0 <= i < |s| ==> IsSpace(s[i])
    ensures exists k :: SpaceAround(s, r, k)
  {
    var l := TrimLeftFunc(s, IsSpace);
    var r := TrimRightFunc(l, IsSpace);
    BothEnds(s, l, r, IsSpace);
    assert SpaceAround(s, r, |s| - |l|);
    r
  }
}

=== FILE: image_name.dfy ===
/** The name both image builders give the recovery image:
    `<project>-<YYYYMMDD>-0.img`, built from the current date with
    `fmt.Sprintf("%d%02d%02d", year, month, day)`. The date is a parameter. */
module ImageName {
  import opened Wrappers
  import opened GoStrconv

  const ImageSuffix: string := "-0.img"

  /** The date stamp: the year as `%d`, month and day as `%02d`. */
  function DateStamp(year: int, month: nat, day: nat): (r: string)
    ensures |r| >= 5
    ensures year >= 0 ==> AllDigits(r)
    ensures month < 100 && day < 100 ==> |r| == |FormatInt(year)| + 4
  {
    FormatInt(year) + ZeroPad2(month) + ZeroPad2(day)
  }

  /** The default output file name for `project` on the given day. */
  function OutputFilename(project: string, year: int, month: nat, day: nat): (r: string)
    ensures project + "-" <= r
    ensures |r| >= |project| + 1 + 5 + |ImageSuffix|
    ensures r[|r| - |ImageSuffix|..] == ImageSuffix
    ensures r[|project| + 1..|r| - |ImageSuffix|] == DateStamp(year, month, day)
  {
    var r := project + "-" + DateStamp(year, month, day) + ImageSuffix;
    assert r[..|project| + 1] == project + "-";
    r
  }

  /** Reads the date back out of a file name for `project`; `None` when the
      name does not have the expected shape. */
  function ParseOutputFilename(project: string, name: string): Option<(nat, nat, nat)> {
    if |name| >= |project| + 1 + 5 + |ImageSuffix| && project + "-" <= name
       && name[|name| - |ImageSuffix|..] == ImageSuffix then
      var date := name[|project| + 1..|name| - |ImageSuffix|];
      if AllDigits(date) then
        var n := |date|;
        Some((DigitsValue(date[..n - 4], 0), DigitsValue(date[n - 4..n - 2], 0), DigitsValue(date[n - 2..], 0)))
      else None
    else None
  }

  /** The parser takes apart a name of the expected shape at the three
      fields of the stamp. */
  lemma ParseWellFormed(project: string, name: string, date: string)
    requires AllDigits(date) && |date| >= 5
    requires name == project + "-" + date + ImageSuffix
    ensures var n := |date|;
      ParseOutputFilename(project, name)
      == Some((DigitsValue(date[..n - 4], 0), DigitsValue(date[n - 4..n - 2], 0), DigitsValue(date[n - 2..], 0)))
  {
    assert name[..|project| + 1] == project + "-";
    assert name[|name| - |ImageSuffix|..] == ImageSuffix;
    assert name[|project| + 1..|name| - |ImageSuffix|] == date;
  }

  /** The three fields of a stamp read back as the year, month and day. */
  lemma DateStampFields(year: nat, month: nat, day: nat)
    requires month < 100 && day < 100
    ensures var date := DateStamp(year, month, day); var n := |date|;
      AllDigits(date) && n >= 5
      && DigitsValue(date[..n - 4], 0) == year
      && DigitsValue(date[n - 4..n - 2], 0) == month
      && DigitsValue(date[n - 2..], 0) == day
  {
    var date := DateStamp(year, month, day);
    var n := |date|;
    assert date[..n - 4] == FormatNat(year);
    assert date[n - 4..n - 2] == ZeroPad2(month);
    assert date[n - 2..] == ZeroPad2(day);
    FormatNatValue(year);
  }

  /** For a non-negative year and a month and day below 100, the date reads
      back from the file name. */
  lemma ParseOutputFilenameRoundTrip(project: string, year: nat, month: nat, day: nat)
    requires month < 100 && day < 100
    ensures ParseOutputFilename(project, OutputFilename(project, year, month, day)) == Some((year, month, day))
  {
    var date := DateStamp(year, month, day);
    DateStampFields(year, month, day);
    ParseWellFormed(project, OutputFilename(project, year, month, day), date);
  }

  /** Images built for the same project on different days never share a name. */
  lemma OutputFilenameInjective(project: string, y1: nat, m1: nat, d1: nat, y2: nat, m2: nat, d2: nat)
    requires m1 < 100 && d1 < 100 && m2 < 100 && d2 < 100
    requires (y1, m1, d1) != (y2, m2, d2)
    ensures OutputFilename(project, y1, m1, d1) != OutputFilename(project, y2, m2, d2)
  {
    ParseOutputFilenameRoundTrip(project, y1, m1, d1);
    ParseOutputFilenameRoundTrip(project, y2, m2, d2);
  }

  /** The `-o` flag of the newer builder: its value when given, the dated
      default otherwise. */
  function RecoveryOutputFile(flagValue: Option<string>, project: string, year: int, month: nat, day: nat): (r: string)
    ensures flagValue.Some? ==> r == flagValue.value
    ensures flagValue.None? ==> r == OutputFilename(project, year, month, day)
  {
    match flagValue
    case Some(f) => f
    case None => OutputFilename(project, year, month, day)
  }
}

=== FILE: legacy_recovery.dfy ===
/** The first-generation image builder: it validates the YAML configuration
    into a set of global settings, optionally builds the base image with the
    image tool, then builds the recovery image, whose only partition spans
    MiB 4 to 4 + the recovery size. */
module LegacyRecovery {
  import opened Wrappers
  import opened GoInt
  import opened GoStrconv
  import ImageName
  import RecoveryLayout

  datatype SnapsSection = SnapsSection(kernel: string, os: string, gadget: string)

  datatype ConfigsSection = ConfigsSection(
    arch: string, baseimage: string, recoverytype: string, recoverysize: string,
    release: string, store: string, device: string, channel: string, size: string,
    oemhookdir: string, oemlogdir: string)

  datatype UdfSection = UdfSection(binary: string, option: string)

  datatype DebugSection = DebugSection(devmode: bool, ssh: bool, xz: bool)

  datatype RecoverySection = RecoverySection(
    fsLabel: string, bootPart: string, systembootPart: string, writablePart: string,
    bootImage: string, systembootImage: string, writableImage: string)

  /** The configuration file, as the YAML decoder fills it in. */
  datatype YamlConfigs = YamlConfigs(
    project: string, snaps: SnapsSection, configs: ConfigsSection,
    udf: UdfSection, debug: DebugSection, recovery: RecoverySection)

  /** A command-line option of the image tool and its value. */
  datatype Config = Config(opt: string, value: string)

  /** The tool's global settings. */
  datatype Settings = Settings(
    project: string, kernel: Config, os: Config, gadget: Config, baseImage: Config,
    recoveryType: string, recoverySize: string, release: string,
    store: Config, device: Config, channel: Config, size: Config,
    oemHookDir: string, oemLogDir: string, udfBinary: string, udfOption: string,
    devmode: bool, ssh: bool, xz: bool, fsLabel: string)

  /** The settings before the configuration is read: the option names are
      fixed, every value is empty, and the store and device options have no
      name yet. */
  const InitialSettings: Settings := Settings(
    "", Config("--kernel", ""), Config("--os", ""), Config("--gadget", ""), Config("--output", ""),
    "", "", "", Config("", ""), Config("", ""), Config("--channel", ""), Config("--size", ""),
    "", "", "", "", false, false, false, "")

  /** The thirteen fields that must be present, in the order they are checked. */
  function RequiredFields(c: YamlConfigs): (r: seq<string>)
    ensures |r| == 13
  {
    [c.project, c.snaps.kernel, c.snaps.os, c.snaps.gadget,
     c.configs.baseimage, c.configs.recoverytype, c.configs.recoverysize, c.configs.release,
     c.configs.channel, c.configs.size, c.udf.binary, c.udf.option, c.recovery.fsLabel]
  }

  /** The number of empty strings among `fields`: each one is reported and counted. */
  function ErrorCount(fields: seq<string>): (n: nat)
    ensures n <= |fields|
    ensures n == 0 <==> forall i :: 0 <= i < |fields| ==> fields[i] != ""
  {
    if |fields| == 0 then 0
    else
      assert forall i :: 1 <= i < |fields| ==> fields[i] == fields[1..][i - 1];
      (if fields[0] == "" then 1 else 0) + ErrorCount(fields[1..])
  }

  /** Some required field of `c` is empty. */
  predicate MissingField(c: YamlConfigs) {
    || c.project == "" || c.snaps.kernel == "" || c.snaps.os == "" || c.snaps.gadget == ""
    || c.configs.baseimage == "" || c.configs.recoverytype == "" || c.configs.recoverysize == ""
    || c.configs.release == "" || c.configs.channel == "" || c.configs.size == ""
    || c.udf.binary == "" || c.udf.option == "" || c.recovery.fsLabel == ""
  }

  /** The settings once a valid configuration is copied in: every setting
      takes its field's value, keeping its option name, and the store and
      device options get their names only when a value is given. */
  function Assign(c: YamlConfigs, g: Settings): (r: Settings)
    ensures r.project == c.project && r.fsLabel == c.recovery.fsLabel
    ensures r.kernel == Config(g.kernel.opt, c.snaps.kernel)
    ensures r.os == Config(g.os.opt, c.snaps.os)
    ensures r.gadget == Config(g.gadget.opt, c.snaps.gadget)
    ensures r.baseImage == Config(g.baseImage.opt, c.configs.baseimage)
    ensures r.recoveryType == c.configs.recoverytype && r.recoverySize == c.configs.recoverysize
    ensures r.release == c.configs.release
    ensures r.channel == Config(g.channel.opt, c.configs.channel)
    ensures r.size == Config(g.size.opt, c.configs.size)
    ensures r.oemHookDir == c.configs.oemhookdir && r.oemLogDir == c.configs.oemlogdir
    ensures r.udfBinary == c.udf.binary && r.udfOption == c.udf.option
    ensures r.devmode == c.debug.devmode && r.ssh == c.debug.ssh && r.xz == c.debug.xz
    ensures r.store == (if c.configs.store != "" then Config("--store", c.configs.store) else g.store)
    ensures r.device == (if c.configs.device != "" then Config("--device", c.configs.device) else g.device)
  {
    var g1 := g.(
      project := c.project,
      kernel := g.kernel.(value := c.snaps.kernel),
      os := g.os.(value := c.snaps.os),
      gadget := g.gadget.(value := c.snaps.gadget),
      baseImage := g.baseImage.(value := c.configs.baseimage),
      recoveryType := c.configs.recoverytype,
      recoverySize := c.configs.recoverysize,
      release := c.configs.release,
      channel := g.channel.(value := c.configs.channel),
      size := g.size.(value := c.configs.size),
      oemHookDir := c.configs.oemhookdir,
      oemLogDir := c.configs.oemlogdir,
      udfBinary := c.udf.binary,
      udfOption := c.udf.option,
      devmode := c.debug.devmode,
      ssh := c.debug.ssh,
      xz := c.debug.xz,
      fsLabel := c.recovery.fsLabel);
    var g2 := if c.configs.store != "" then g1.(store := Config("--store", c.configs.store)) else g1;
    if c.configs.device != "" then g2.(device := Config("--device", c.configs.device)) else g2
  }

  /** Some field is counted as an error exactly when a required field is empty. */
  lemma ErrorCountMissing(c: YamlConfigs)
    ensures ErrorCount(RequiredFields(c)) > 0 <==> MissingField(c)
  {
    var fields := RequiredFields(c);
    assert MissingField(c) <==> "" in fields;
  }

  /** `parseConfigs`: its boolean is `true` on FAILURE. It fails exactly when
      a required field is empty, and then it leaves every setting as it was;
      otherwise the settings are assigned from the configuration. */
  function ParseConfigs(c: YamlConfigs, g: Settings): (r: (bool, Settings))
    ensures r.0 <==> MissingField(c)
    ensures r.0 ==> r.1 == g
    ensures !r.0 ==> r.1 == Assign(c, g)
  {
    ErrorCountMissing(c);
    if ErrorCount(RequiredFields(c)) > 0 then (true, g) else (false, Assign(c, g))
  }

  /** Starting from the initial settings, the store option and its value are
      both empty unless the configuration names a store, and likewise for
      the device. */
  lemma ParseConfigsOptionalOptions(c: YamlConfigs)
    requires !MissingField(c)
    ensures var g := ParseConfigs(c, InitialSettings).1;
      && (g.store.opt == "--store" <==> c.configs.store != "")
      && (g.store.opt == "" <==> c.configs.store == "")
      && g.store.value == c.configs.store
      && (g.device.opt == "--device" <==> c.configs.device != "")
      && (g.device.opt == "" <==> c.configs.device == "")
      && g.device.value == c.configs.device
  {
  }

  /** The arguments of the image-tool run that builds the base image. Empty
      options are passed as empty arguments. */
  function BaseImageCommand(g: Settings): (r: seq<string>)
    ensures |r| == 21
    ensures r[11] == (if g.ssh then "--enable-ssh" else "")
    ensures r[14] == (if g.devmode then "--developer-mode" else "")
  {
    var developerMode := if g.devmode then "--developer-mode" else "";
    var enableSsh := if g.ssh then "--enable-ssh" else "";
    [g.udfBinary, g.udfOption, g.release,
     g.store.opt, g.store.value,
     g.device.opt, g.device.value,
     g.channel.opt, g.channel.value,
     g.baseImage.opt, g.baseImage.value,
     enableSsh,
     g.size.opt, g.size.value,
     developerMode,
     g.kernel.opt, g.kernel.value,
     g.os.opt, g.os.value,
     g.gadget.opt, g.gadget.value]
  }

  /** After a successful parse, the base image is written where the
      configuration says, with the `--output` option. */
  lemma BaseImageGoesToConfiguredFile(c: YamlConfigs)
    requires !MissingField(c)
    ensures BaseImageCommand(ParseConfigs(c, InitialSettings).1)[9] == "--output"
    ensures BaseImageCommand(ParseConfigs(c, InitialSettings).1)[10] == c.configs.baseimage
  {
  }

  /** Why a snap could not be found: the glob failed, or it returned none or
      several paths, which the code logs before it panics with a fixed
      message. */
  datatype SnapError = GlobFailed | NotExactlyOne(paths: seq<string>)

  /** The glob pattern for the snap called `name` in `folder`: the folder, a
      slash, the name and an underscore, then any text ending in `.snap`. */
  function SnapPattern(folder: string, name: string): (r: string)
    ensures folder + "/" + name + "_" <= r
    ensures |r| == |folder + "/" + name + "_"| + 6
    ensures r[|r| - 6..] == "*.snap"
  {
    var r := folder + "/" + name + "_*.snap";
    assert r[..|folder + "/" + name + "_"|] == folder + "/" + name + "_";
    assert r[|r| - 6..] == "*.snap";
    r
  }

  /** `findSnap` with the file-system glob as a parameter: the one path the
      glob of `SnapPattern(folder, name)` returns, a fatal error when the
      glob fails, and a panic for none or several paths. */
  function FindSnapIn(folder: string, name: string, glob: string -> Result<seq<string>, string>): (r: Result<string, SnapError>)
    ensures var g := glob(SnapPattern(folder, name));
      r.Ok? <==> g.Ok? && |g.value| == 1
    ensures var g := glob(SnapPattern(folder, name));
      r.Ok? ==> g.value == [r.value]
    ensures var g := glob(SnapPattern(folder, name));
      g.Err? ==> r == Err(GlobFailed)
    ensures var g := glob(SnapPattern(folder, name));
      g.Ok? && |g.value| != 1 ==> r == Err(NotExactlyOne(g.value))
  {
    FindSnap(glob(SnapPattern(folder, name)))
  }

  /** `findSnap`, given what globbing `SnapPattern(folder, name)` returned:
      the one matching path, and a panic for none or several. */
  function FindSnap(globbed: Result<seq<string>, string>): (r: Result<string, SnapError>)
    ensures r.Ok? <==> globbed.Ok? && |globbed.value| == 1
    ensures r.Ok? ==> globbed.value == [r.value]
    ensures globbed.Ok? && |globbed.value| != 1 ==> r == Err(NotExactlyOne(globbed.value))
    ensures globbed.Err? ==> r == Err(GlobFailed)
  {
    match globbed
    case Err(_) => Err(GlobFailed)
    case Ok(paths) =>
      if |paths| != 1 then Err(NotExactlyOne(paths)) else Ok(paths[0])
  }

  /** The order of the builds the recovery type asks for. */
  datatype Step = BuildBase | BuildRecovery | Exit(code: int)

  /** The dispatch on the recovery type. */
  function Dispatch(recoveryType: string): (r: seq<Step>)
    ensures BuildBase in r <==> recoveryType == "base" || recoveryType == "full"
    ensures BuildRecovery in r <==> recoveryType == "full" || recoveryType == "recovery"
    ensures Exit(0) in r <==> recoveryType == "base"
    ensures Exit(2) in r <==> recoveryType != "base" && recoveryType != "full" && recoveryType != "recovery"
    ensures forall i, j :: 0 <= i < |r| && 0 <= j < |r| && r[i] == BuildBase && r[j] == BuildRecovery ==> i < j
    ensures forall i :: 0 <= i < |r| - 1 ==> !r[i].Exit?
  {
    if recoveryType == "base" then [BuildBase, Exit(0)]
    else if recoveryType == "full" then [BuildBase, BuildRecovery]
    else if recoveryType == "recovery" then [BuildRecovery]
    else [Exit(2)]
  }

  /** The recovery partition of `setupLoopDevice`, in MiB: it begins at 4
      and ends `recoverysize` later, the sum in Go's 64-bit `int`; a size
      that is not a number is fatal. */
  function RecoverySpan(recoverySize: string): (r: Result<(int, int), NumError>)
    ensures r.Ok? <==> Atoi(recoverySize).Ok?
    ensures r.Ok? ==> r.value.0 == 4
    ensures r.Ok? && Atoi(recoverySize).value <= Int64Max - 4 ==> r.value.1 - r.value.0 == Atoi(recoverySize).value
  {
    var size :- Atoi(recoverySize);
    Ok((4, Wrap64(4 + size)))
  }

  /** The later planner, asked for recovery partition 1, places it on the
      same bytes as this builder does: from 4 MiB for `recoverysize` MiB. */
  lemma RecoverySpanAgreesWithPlanner(cfg: RecoveryLayout.LayoutConfig, fsLabel: string, baseSize: int,
                                      partedLines: seq<string>, ps: seq<RecoveryLayout.PartitionLine>)
    requires IsInt64(baseSize)
    requires Atoi(cfg.recoverySize).Ok? && Atoi(cfg.recoverySize).value >= 0
    requires IsInt64((4 + Atoi(cfg.recoverySize).value) * MiB)
    requires |ps| == |partedLines|
    requires forall i :: 0 <= i < |partedLines| ==> RecoveryLayout.ParsePartitionLine(partedLines[i]) == Ok(ps[i])
    requires RecoveryLayout.BeginsReadable(ps)
    ensures RecoveryLayout.PlanLayout(cfg, "1", fsLabel, baseSize, partedLines).Ok?
    ensures var l := RecoveryLayout.PlanLayout(cfg, "1", fsLabel, baseSize, partedLines).value;
      l.recoveryBegin == 4 * MiB && l.recoveryEnd == (4 + Atoi(cfg.recoverySize).value) * MiB
  {
    var size := Atoi(cfg.recoverySize).value;
    AtoiOne();
    SpanArithmetic(size);
    RecoverySpanFits(cfg.recoverySize);
    RecoveryLayout.PlanLayoutPlacement(cfg, "1", fsLabel, baseSize, partedLines, ps, 1, size);
    var l := RecoveryLayout.PlanLayout(cfg, "1", fsLabel, baseSize, partedLines).value;
    assert l.recoveryBegin == 4 * MiB;
    assert l.recoveryEnd - l.recoveryBegin == size * MiB;
  }

  /** Without wrap-around the span ends `recoverysize` MiB after 4. */
  lemma RecoverySpanFits(recoverySize: string)
    requires Atoi(recoverySize).Ok? && IsInt64(4 + Atoi(recoverySize).value)
    ensures RecoverySpan(recoverySize) == Ok((4, 4 + Atoi(recoverySize).value))
  {
  }

  lemma AtoiOne()
    ensures Atoi("1") == Ok(1)
  {
    ParseFormat(1);
    assert FormatInt(1) == "1";
  }

  /** A recovery size whose end in bytes fits in 64 bits also fits in MiB. */
  lemma SpanArithmetic(size: int)
    requires size >= 0 && IsInt64((4 + size) * MiB)
    ensures IsInt64(4 * MiB + size * MiB) && 4 * MiB + size * MiB == (4 + size) * MiB
    ensures Wrap64(4 + size) == 4 + size
  {
    assert (4 + size) * MiB >= 4 + size;
  }

  /** What the builder does after reading its configuration. */
  datatype Action =
    | RunImageTool(args: seq<string>)
    | CreateRecoveryImage(recoveryNR: string, outputFile: string)
    | CompressImage(file: string)
    | ExitWith(code: int)

  /** Why the builder stops with a fatal error. */
  datatype Fatal = NoConfigFolder

  /** `main` once the configuration file has been decoded into `c`: the
      command line must name one configuration folder; a configuration with
      a missing field stops the run without building anything; otherwise the
      recovery type decides the builds, the recovery image is partition 1 of
      the file named after the project and the date, and it is compressed
      when the configuration asks for it. */
  function Run(args: seq<string>, c: YamlConfigs, year: int, month: nat, day: nat): (r: Result<seq<Action>, Fatal>)
    ensures r.Ok? <==> |args| == 2
    ensures r.Ok? && MissingField(c) ==> r.value == []
    ensures r.Ok? && !MissingField(c) ==>
      && (RunImageTool(BaseImageCommand(ParseConfigs(c, InitialSettings).1)) in r.value <==>
            c.configs.recoverytype == "base" || c.configs.recoverytype == "full")
      && (CreateRecoveryImage("1", ImageName.OutputFilename(c.project, year, month, day)) in r.value <==>
            c.configs.recoverytype == "full" || c.configs.recoverytype == "recovery")
  {
    if |args| != 2 then Err(NoConfigFolder)
    else
      var (failed, g) := ParseConfigs(c, InitialSettings);
      if failed then Ok([])
      else
        var outputFile := ImageName.OutputFilename(g.project, year, month, day);
        var steps := Dispatch(g.recoveryType);
        Ok(Actions(steps, g, outputFile))
  }

  /** The actions of the dispatched steps, in order. */
  function Actions(steps: seq<Step>, g: Settings, outputFile: string): (r: seq<Action>)
    ensures RunImageTool(BaseImageCommand(g)) in r <==> BuildBase in steps
    ensures CreateRecoveryImage("1", outputFile) in r <==> BuildRecovery in steps
    ensures forall a :: a in r ==> a.RunImageTool? || a.CreateRecoveryImage? || a.CompressImage? || a.ExitWith?
  {
    if |steps| == 0 then []
    else
      var head := match steps[0]
        case BuildBase => [RunImageTool(BaseImageCommand(g))]
        case BuildRecovery =>
          [CreateRecoveryImage("1", outputFile)] + (if g.xz then [CompressImage(outputFile)] else [])
        case Exit(code) => [ExitWith(code)];
      var rest := Actions(steps[1..], g, outputFile);
      assert BuildBase in steps <==> steps[0] == BuildBase || BuildBase in steps[1..];
      assert BuildRecovery in steps <==> steps[0] == BuildRecovery || BuildRecovery in steps[1..];
      head + rest
  }
}

=== FILE: recovery_layout.dfy ===
/** The partition-layout planner of the newer recovery-image builder
    (`cmd/ubuntu-recovery-image/main.go`): it sizes the image, reads the base
    image's partition table as printed by `parted -m`, decides which base
    partitions are copied and which are removed, places the recovery
    partition, picks the initrd codec and the recovery partition number.
    Shell commands are not run: the planner returns the commands it would
    issue, in order. */
module RecoveryLayout {
  import opened Wrappers
  import opened GoInt
  import opened GoStrings
  import opened GoStrconv

  /** Where the recovery partition starts when it is partition 1: 4 MiB. */
  const FirstPartitionStart: int := 4194304

  /** Why the planner stops. `BadNumber` is a failed `strconv.Atoi` that
      `Checkerr` makes fatal; `MissingField` is an index past the end of the
      fields of a partition line, a run-time panic; `UnknownInitrdType` is the
      panic for an initrd that is neither gzip nor xz. */
  datatype Failure =
    | BadNumber(text: string, error: NumError)
    | MissingField(line: string, index: nat)
    | UnknownInitrdType(filetype: string)

  /** How a planner run ends when it is fatal: the commands it has already
      issued, in order, and the failure that stopped it. */
  datatype Halt = Halt(issued: seq<Command>, reason: Failure)

  /** One partition of the base image: number, first byte (as text), last
      byte, and size (as text), with the unit suffix removed. */
  datatype PartitionLine = PartitionLine(nr: int, begin: string, end: int, size: string)

  /** The commands the planner issues.
      `RawCopy`: `dd bs=512 skip=<sectors> seek=<sectors> <countOperand> conv=notrunc`,
      the bootloader area before partition 1.
      `CopyPartition`: `dd bs=1 skip=<offset> seek=<offset> count=<size> conv=notrunc`.
      `RemovePartition`: `parted -ms <out> rm <nr>`.
      `MakeRecoveryPartition`: `parted ... mkpart primary fat32 <first> <last> <name> print`.
      `SetBoot`: `parted -ms <out> set <bootNr> boot on`. */
  datatype Command =
    | RawCopy(sectors: int, countOperand: string)
    | CopyPartition(offset: string, size: string)
    | RemovePartition(nr: int)
    | MakeRecoveryPartition(first: int, last: int, name: seq<string>)
    | SetBoot(bootNr: string)

  /** `MaxInt64`: the larger of the two. */
  function MaxInt64(a: int, b: int): (r: int)
    ensures r >= a && r >= b
    ensures r == a || r == b
  {
    if a > b then a else b
  }

  /** The size allocated for the recovery image: the recovery partition plus
      20 MiB of file-system overhead, computed in 64-bit arithmetic, but never
      less than the base image. */
  function ImageSize(recoverySize: int, baseSize: int): (r: int)
    requires IsInt64(baseSize)
    ensures IsInt64(r) && r >= baseSize
    ensures IsInt64((recoverySize + 20) * MiB) ==> r >= (recoverySize + 20) * MiB
    ensures r >= Wrap64((recoverySize + 20) * MiB)
    ensures r == baseSize || r == Wrap64((recoverySize + 20) * MiB)
  {
    MaxInt64(Wrap64((recoverySize + 20) * MiB), baseSize)
  }

  /** `strconv.Atoi` made fatal by `Checkerr`. */
  function ParseNumber(text: string): (r: Result<int, Failure>)
    ensures r.Ok? <==> Atoi(text).Ok?
    ensures r.Ok? ==> r.value == Atoi(text).value && IsInt64(r.value)
  {
    match Atoi(text)
    case Ok(n) => Ok(n)
    case Err(e) => Err(BadNumber(text, e))
  }

  /** One line of `parted -ms <image> unit B print`: split on `:`, the number
      read first, then begin, end and size with trailing `B`s trimmed; only
      the number and the end must be integers. */
  function ParsePartitionLine(line: string): (r: Result<PartitionLine, Failure>)
    ensures |Split(line, ':')| < 4 ==> r.Err?
    ensures Atoi(Split(line, ':')[0]).Err? ==> r.Err?
    ensures var f := Split(line, ':');
      r.Ok? <==> |f| >= 4 && Atoi(f[0]).Ok? && Atoi(TrimRight(f[2], "B")).Ok?
    ensures var f := Split(line, ':');
      r.Ok? ==> r.value == PartitionLine(Atoi(f[0]).value, TrimRight(f[1], "B"),
                                         Atoi(TrimRight(f[2], "B")).value, TrimRight(f[3], "B"))
    ensures var f := Split(line, ':');
      Atoi(f[0]).Err? ==> r == Err(BadNumber(f[0], Atoi(f[0]).error))
    ensures var f := Split(line, ':');
      |f| >= 3 && Atoi(f[0]).Ok? && Atoi(TrimRight(f[2], "B")).Err? ==>
        r == Err(BadNumber(TrimRight(f[2], "B"), Atoi(TrimRight(f[2], "B")).error))
    ensures var f := Split(line, ':');
      Atoi(f[0]).Ok? && |f| < 3 ==> r == Err(MissingField(line, |f|))
    ensures var f := Split(line, ':');
      Atoi(f[0]).Ok? && |f| == 3 && Atoi(TrimRight(f[2], "B")).Ok? ==> r == Err(MissingField(line, 3))
  {
    var fields := Split(line, ':');
    var nr :- ParseNumber(fields[0]);
    if |fields| < 2 then Err(MissingField(line, 1))
    else
      var begin := TrimRight(fields[1], "B");
      if |fields| < 3 then Err(MissingField(line, 2))
      else
        var end :- ParseNumber(TrimRight(fields[2], "B"));
        if |fields| < 4 then Err(MissingField(line, 3))
        else Ok(PartitionLine(nr, begin, end, TrimRight(fields[3], "B")))
  }

  /** The line `parted -m` prints for a partition: number, begin, end and size
      in bytes with a `B` unit, then the remaining fields. */
  function PartedLine(p: PartitionLine, rest: string): string {
    FormatInt(p.nr) + ":" + p.begin + "B:" + FormatInt(p.end) + "B:" + p.size + "B:" + rest
  }

  /** A decimal numeral holds no field separator and does not end in `B`. */
  lemma FormatIntShape(n: int)
    ensures ':' !in FormatInt(n)
    ensures FormatInt(n)[|FormatInt(n)| - 1] != 'B'
  {
    var r := FormatInt(n);
    if n < 0 {
      var m := FormatNat(-n);
      assert r == "-" + m;
      assert forall i :: 1 <= i < |r| ==> r[i] == m[i - 1];
    }
  }

  /** A numeral followed by unit characters, trimmed, is the numeral. */
  lemma TrimUnit(digits: string)
    requires |digits| > 0 && digits[|digits| - 1] != 'B'
    ensures TrimRight(digits + "B", "B") == digits
  {
    TrimRightAppended(digits, "B", "B");
  }

  /** Four separator-free fields joined by `:` in front of anything come
      back as the first four pieces of the split. */
  lemma SplitFields(f0: string, f1: string, f2: string, f3: string, rest: string)
    requires ':' !in f0 && ':' !in f1 && ':' !in f2 && ':' !in f3
    ensures var fields := Split(f0 + ":" + f1 + ":" + f2 + ":" + f3 + ":" + rest, ':');
      |fields| >= 4 && fields[0] == f0 && fields[1] == f1 && fields[2] == f2 && fields[3] == f3
  {
    var t3 := f3 + [':'] + rest;
    var t2 := f2 + [':'] + t3;
    var t1 := f1 + [':'] + t2;
    assert f0 + ":" + f1 + ":" + f2 + ":" + f3 + ":" + rest == f0 + [':'] + t1;
    SplitCons(f0, t1, ':');
    SplitCons(f1, t2, ':');
    SplitCons(f2, t3, ':');
    SplitCons(f3, rest, ':');
  }

  /** Parsing the line `parted -m` prints for a partition gives that partition
      back, whatever follows the size field. */
  lemma ParsePartedLine(p: PartitionLine, rest: string)
    requires IsInt64(p.nr) && IsInt64(p.end)
    requires |p.begin| > 0 && AllDigits(p.begin)
    requires |p.size| > 0 && AllDigits(p.size)
    ensures ParsePartitionLine(PartedLine(p, rest)) == Ok(p)
  {
    var f0 := FormatInt(p.nr);
    var f1 := p.begin + "B";
    var f2 := FormatInt(p.end) + "B";
    var f3 := p.size + "B";
    FormatIntShape(p.nr);
    FormatIntShape(p.end);
    assert ':' !in p.begin && ':' !in p.size;
    assert PartedLine(p, rest) == f0 + ":" + f1 + ":" + f2 + ":" + f3 + ":" + rest;
    SplitFields(f0, f1, f2, f3, rest);
    TrimUnit(p.begin);
    TrimUnit(FormatInt(p.end));
    TrimUnit(p.size);
    ParseFormat(p.nr);
    ParseFormat(p.end);
  }

  /** The first sector a raw copy of the bootloader area starts at: after the
      GPT header and entries (34) for "gpt", after the MBR (1) for "mbr";
      other values copy nothing. */
  function RawCopyStart(bootloader: string): (r: Option<int>)
    ensures r.Some? <==> bootloader == "gpt" || bootloader == "mbr"
    ensures r.Some? ==> r.value == 34 || r.value == 1
  {
    if bootloader == "gpt" then Some(34)
    else if bootloader == "mbr" then Some(1)
    else None
  }

  /** The raw copy of the area in front of partition 1, which begins at byte
      `firstBegin`: from the start sector up to the last whole 512-byte sector
      before the partition, with the count printed in decimal. */
  function RawCopyCommand(bootloader: string, firstBegin: int): (r: Option<Command>)
    requires IsInt64(firstBegin)
    ensures r.Some? <==> bootloader == "gpt" || bootloader == "mbr"
    ensures r.Some? ==> r.value.RawCopy? && Some(r.value.sectors) == RawCopyStart(bootloader)
    ensures r.Some? ==> "count=" <= r.value.countOperand && Atoi(r.value.countOperand[6..]).Ok?
    ensures r.Some? && firstBegin >= 0 ==>
      var n := Atoi(r.value.countOperand[6..]).value;
      (r.value.sectors + n) * 512 <= firstBegin < (r.value.sectors + n + 1) * 512
  {
    match RawCopyStart(bootloader)
    case None => None
    case Some(start) =>
      var n := Quo(firstBegin, 512) - start;
      ParseFormat(n);
      var op := "count=" + FormatInt(n);
      assert op[6..] == FormatInt(n);
      Some(RawCopy(start, op))
  }

  /** The raw copy as the code writes it: the count is an `int` printed with
      the verb `%s`, so `fmt` produces `%!s(int=N)` and the operand is not a
      number `dd` can read. */
  function RawCopyCommandAsWritten(bootloader: string, firstBegin: int): (r: Option<Command>)
    requires IsInt64(firstBegin)
    ensures r.Some? <==> bootloader == "gpt" || bootloader == "mbr"
    ensures r.Some? ==> r.value.RawCopy? && Some(r.value.sectors) == RawCopyStart(bootloader)
    ensures r.Some? ==> "count=" <= r.value.countOperand && Atoi(r.value.countOperand[6..]).Err?
  {
    match RawCopyStart(bootloader)
    case None => None
    case Some(start) =>
      var n := Quo(firstBegin, 512) - start;
      var op := "count=" + BadVerbS(n);
      assert op[6..] == BadVerbS(n);
      Some(RawCopy(start, op))
  }

  /** The command the code writes differs from the corrected one only in its
      count operand, which carries the corrected count printed with `%s`. */
  lemma RawCopyAsWrittenCount(bootloader: string, firstBegin: int)
    requires IsInt64(firstBegin)
    ensures RawCopyCommandAsWritten(bootloader, firstBegin).Some? <==> RawCopyCommand(bootloader, firstBegin).Some?
    ensures RawCopyCommand(bootloader, firstBegin).Some? ==>
      var fixed := RawCopyCommand(bootloader, firstBegin).value;
      var n := Atoi(fixed.countOperand[6..]).value;
      RawCopyCommandAsWritten(bootloader, firstBegin)
        == Some(RawCopy(fixed.sectors, "count=" + BadVerbS(n)))
  {
    match RawCopyStart(bootloader)
    case None =>
    case Some(start) =>
      var n := Quo(firstBegin, 512) - start;
      ParseFormat(n);
      assert ("count=" + FormatInt(n))[6..] == FormatInt(n);
  }

  /** For a GPT image whose first partition starts at 1 MiB, the code asks
      `dd` for `count=%!s(int=2014)` where 2014 sectors were meant. */
  lemma RawCopyCountExample()
    ensures RawCopyCommandAsWritten("gpt", 1048576) == Some(RawCopy(34, "count=%!s(int=2014)"))
    ensures RawCopyCommand("gpt", 1048576) == Some(RawCopy(34, "count=2014"))
  {
    assert Quo(1048576, 512) == 2048;
    assert FormatNat(2) == "2";
    assert FormatNat(20) == "20";
    assert FormatNat(201) == "201";
    assert FormatInt(2014) == "2014";
    assert BadVerbS(2014) == "%!s(int=2014)";
    assert RawCopyStart("gpt") == Some(34);
    assert Quo(1048576, 512) - 34 == 2014;
    assert "count=" + FormatInt(2014) == "count=2014";
    assert "count=" + BadVerbS(2014) == "count=%!s(int=2014)";
  }

  /** The state the partition loop carries: the commands issued so far and
      the end of the last partition copied. */
  datatype LoopState = LoopState(trace: seq<Command>, lastEnd: int)

  /** For partition 1 the begin must read as a number, even when no raw copy
      follows; then the bootloader area is copied if the Bootloader setting
      says how. */
  function RawCopyStep(p: PartitionLine, bootloader: string): (r: Result<seq<Command>, Failure>)
    ensures r.Err? <==> p.nr == 1 && Atoi(p.begin).Err?
    ensures r.Ok? ==> |r.value| <= 1
    ensures r.Ok? ==> (|r.value| == 1 <==> p.nr == 1 && RawCopyStart(bootloader).Some?)
    ensures r.Ok? && |r.value| == 1 ==> Some(r.value[0]) == RawCopyCommand(bootloader, Atoi(p.begin).value)
  {
    if p.nr != 1 then Ok([])
    else
      var b :- ParseNumber(p.begin);
      match RawCopyCommand(bootloader, b)
      case None => Ok([])
      case Some(c) => Ok([c])
  }

  /** One iteration of the loop over the base partitions: the raw copy for
      partition 1, then, when the recovery number is known, a copy of each
      partition below it (remembering its end) or the removal of the rest. */
  function LineStep(p: PartitionLine, bootloader: string, recoveryNr: Option<int>, st: LoopState): (r: Result<LoopState, Failure>)
    ensures r.Ok? ==> st.trace <= r.value.trace
  {
    var raw :- RawCopyStep(p, bootloader);
    match recoveryNr
    case None => Ok(LoopState(st.trace + raw, st.lastEnd))
    case Some(rnr) =>
      if p.nr < rnr then Ok(LoopState(st.trace + raw + [CopyPartition(p.begin, p.size)], p.end))
      else Ok(LoopState(st.trace + raw + [RemovePartition(p.nr)], st.lastEnd))
  }

  /** The loop over the lines of the base image's partition table. A fatal
      line stops it with the commands issued for the lines before it; a line
      fails before it issues any command of its own. */
  function PartitionLoop(lines: seq<string>, bootloader: string, recoveryNr: Option<int>, st: LoopState): (r: Result<LoopState, Halt>)
    ensures r.Ok? ==> st.trace <= r.value.trace
    ensures r.Err? ==> st.trace <= r.error.issued
    decreases |lines|
  {
    if |lines| == 0 then Ok(st)
    else
      match ParsePartitionLine(lines[0])
      case Err(e) => Err(Halt(st.trace, e))
      case Ok(p) =>
        match LineStep(p, bootloader, recoveryNr, st)
        case Err(e) => Err(Halt(st.trace, e))
        case Ok(st') => PartitionLoop(lines[1..], bootloader, recoveryNr, st')
  }

  /** A line the loop gets past: it parses, and if it is partition 1 its
      begin is a number. */
  predicate LineAccepted(line: string) {
    match ParsePartitionLine(line)
    case Err(_) => false
    case Ok(p) => p.nr == 1 ==> Atoi(p.begin).Ok?
  }

  /** The loop is fatal exactly when some line is not accepted. */
  lemma {:induction false} PartitionLoopOk(lines: seq<string>, bootloader: string, recoveryNr: Option<int>, st: LoopState)
    ensures PartitionLoop(lines, bootloader, recoveryNr, st).Ok? <==> forall i :: 0 <= i < |lines| ==> LineAccepted(lines[i])
    decreases |lines|
  {
    if |lines| > 0 {
      AllAcceptedCons(lines);
      PartitionLoopCons(lines, bootloader, recoveryNr, st);
      if LineAccepted(lines[0]) {
        var st' := LineStep(ParsePartitionLine(lines[0]).value, bootloader, recoveryNr, st).value;
        PartitionLoopOk(lines[1..], bootloader, recoveryNr, st');
      }
    }
  }

  lemma AllAcceptedCons(lines: seq<string>)
    requires |lines| > 0
    ensures (forall i :: 0 <= i < |lines| ==> LineAccepted(lines[i]))
      <==> LineAccepted(lines[0]) && forall i :: 0 <= i < |lines[1..]| ==> LineAccepted(lines[1..][i])
  {
    assert forall i :: 0 <= i < |lines[1..]| ==> lines[1..][i] == lines[i + 1];
  }

  /** When the lines `pre` are all accepted and the next line is not, the
      loop stops there, and what it has issued is exactly what `pre` issues. */
  lemma {:induction false} PartitionLoopHalt(pre: seq<string>, rest: seq<string>, bootloader: string, recoveryNr: Option<int>, st: LoopState)
    requires forall i :: 0 <= i < |pre| ==> LineAccepted(pre[i])
    requires |rest| > 0 && !LineAccepted(rest[0])
    ensures PartitionLoop(pre, bootloader, recoveryNr, st).Ok?
    ensures PartitionLoop(pre + rest, bootloader, recoveryNr, st).Err?
    ensures PartitionLoop(pre + rest, bootloader, recoveryNr, st).error.issued
            == PartitionLoop(pre, bootloader, recoveryNr, st).value.trace
    decreases |pre|
  {
    if |pre| == 0 {
      assert pre + rest == rest;
      PartitionLoopCons(rest, bootloader, recoveryNr, st);
    } else {
      HaltStep(pre, rest, bootloader, recoveryNr, st);
      var st' := LineStep(ParsePartitionLine(pre[0]).value, bootloader, recoveryNr, st).value;
      assert forall i :: 0 <= i < |pre| - 1 ==> pre[1..][i] == pre[i + 1];
      PartitionLoopHalt(pre[1..], rest, bootloader, recoveryNr, st');
    }
  }

  /** Past an accepted first line, the loop over `pre + rest` and the loop
      over `pre` both continue from the same state. */
  lemma HaltStep(pre: seq<string>, rest: seq<string>, bootloader: string, recoveryNr: Option<int>, st: LoopState)
    requires |pre| > 0 && LineAccepted(pre[0])
    ensures LineStep(ParsePartitionLine(pre[0]).value, bootloader, recoveryNr, st).Ok?
    ensures var st' := LineStep(ParsePartitionLine(pre[0]).value, bootloader, recoveryNr, st).value;
      && PartitionLoop(pre + rest, bootloader, recoveryNr, st) == PartitionLoop(pre[1..] + rest, bootloader, recoveryNr, st')
      && PartitionLoop(pre, bootloader, recoveryNr, st) == PartitionLoop(pre[1..], bootloader, recoveryNr, st')
  {
    var all := pre + rest;
    assert all[0] == pre[0];
    assert all[1..] == pre[1..] + rest;
    PartitionLoopCons(all, bootloader, recoveryNr, st);
    PartitionLoopCons(pre, bootloader, recoveryNr, st);
  }

  /** One turn of the loop: a line that is not accepted is fatal; an accepted
      one moves the loop on to the next line. */
  lemma PartitionLoopCons(lines: seq<string>, bootloader: string, recoveryNr: Option<int>, st: LoopState)
    requires |lines| > 0
    ensures !LineAccepted(lines[0]) ==> PartitionLoop(lines, bootloader, recoveryNr, st).Err?
    ensures !LineAccepted(lines[0]) ==> PartitionLoop(lines, bootloader, recoveryNr, st).error.issued == st.trace
    ensures LineAccepted(lines[0]) ==>
      && LineStep(ParsePartitionLine(lines[0]).value, bootloader, recoveryNr, st).Ok?
      && PartitionLoop(lines, bootloader, recoveryNr, st)
         == PartitionLoop(lines[1..], bootloader, recoveryNr, LineStep(ParsePartitionLine(lines[0]).value, bootloader, recoveryNr, st).value)
  {
  }

  predicate IsRaw(c: Command) { c.RawCopy? }
  predicate IsCopy(c: Command) { c.CopyPartition? }
  predicate IsRemoval(c: Command) { c.RemovePartition? }
  predicate IsMake(c: Command) { c.MakeRecoveryPartition? }
  predicate IsBoot(c: Command) { c.SetBoot? }

  /** The commands of one kind, in the order they were issued. */
  function Only(cs: seq<Command>, keep: Command -> bool): (r: seq<Command>)
    ensures |r| <= |cs|
    ensures forall i :: 0 <= i < |r| ==> keep(r[i]) && r[i] in cs
  {
    if |cs| == 0 then []
    else (if keep(cs[0]) then [cs[0]] else []) + Only(cs[1..], keep)
  }

  lemma {:induction false} OnlyAppend(a: seq<Command>, b: seq<Command>, keep: Command -> bool)
    ensures Only(a + b, keep) == Only(a, keep) + Only(b, keep)
    decreases |a|
  {
    if |a| == 0 {
      assert a + b == b;
    } else {
      assert (a + b)[1..] == a[1..] + b;
      OnlyAppend(a[1..], b, keep);
    }
  }

  /** The copies the base partitions below the recovery partition call for,
      in table order. */
  function KeptCopies(ps: seq<PartitionLine>, rnr: int): seq<Command> {
    if |ps| == 0 then []
    else (if ps[0].nr < rnr then [CopyPartition(ps[0].begin, ps[0].size)] else []) + KeptCopies(ps[1..], rnr)
  }

  /** The removals of the recovery partition and every partition after it. */
  function Removals(ps: seq<PartitionLine>, rnr: int): seq<Command> {
    if |ps| == 0 then []
    else (if ps[0].nr >= rnr then [RemovePartition(ps[0].nr)] else []) + Removals(ps[1..], rnr)
  }

  predicate BeginsReadable(ps: seq<PartitionLine>) {
    forall i :: 0 <= i < |ps| && ps[i].nr == 1 ==> Atoi(ps[i].begin).Ok?
  }

  /** With no recovery number the loop issues only the raw copies. */
  lemma {:induction false} PartitionLoopRawOnly(lines: seq<string>, ps: seq<PartitionLine>, bootloader: string, st: LoopState)
    requires |ps| == |lines|
    requires forall i :: 0 <= i < |lines| ==> ParsePartitionLine(lines[i]) == Ok(ps[i])
    requires BeginsReadable(ps)
    ensures PartitionLoop(lines, bootloader, None, st) == Ok(LoopState(st.trace + RawCopies(ps, bootloader), st.lastEnd))
    decreases |lines|
  {
    if |lines| == 0 {
      assert st.trace + [] == st.trace;
    } else {
      var p := ps[0];
      RawCopiesCons(ps, bootloader);
      RawOnlyStep(lines, p, bootloader, st);
      var st1 := LoopState(st.trace + RawCopies([p], bootloader), st.lastEnd);
      assert forall i :: 0 <= i < |lines| - 1 ==> ParsePartitionLine(lines[1..][i]) == Ok(ps[1..][i]) by {
        assert forall i :: 0 <= i < |lines| - 1 ==> lines[1..][i] == lines[i + 1] && ps[1..][i] == ps[i + 1];
      }
      PartitionLoopRawOnly(lines[1..], ps[1..], bootloader, st1);
      AppendAssoc(st.trace, RawCopies([p], bootloader), RawCopies(ps[1..], bootloader));
    }
  }

  /** A readable first line issues its raw copy and hands the rest of the
      lines to the loop. */
  lemma RawOnlyStep(lines: seq<string>, p: PartitionLine, bootloader: string, st: LoopState)
    requires |lines| > 0 && ParsePartitionLine(lines[0]) == Ok(p)
    requires p.nr == 1 ==> Atoi(p.begin).Ok?
    ensures BeginsReadable([p])
    ensures PartitionLoop(lines, bootloader, None, st)
      == PartitionLoop(lines[1..], bootloader, None, LoopState(st.trace + RawCopies([p], bootloader), st.lastEnd))
  {
    LineStepRaw(p, bootloader, st);
    PartitionLoopCons(lines, bootloader, None, st);
  }

  lemma AppendAssoc(a: seq<Command>, b: seq<Command>, c: seq<Command>)
    ensures (a + b) + c == a + (b + c)
  {
  }

  /** With no recovery number a line issues only its raw copy. */
  lemma LineStepRaw(p: PartitionLine, bootloader: string, st: LoopState)
    requires p.nr == 1 ==> Atoi(p.begin).Ok?
    ensures LineStep(p, bootloader, None, st) == Ok(LoopState(st.trace + RawCopies([p], bootloader), st.lastEnd))
  {
    assert [p][1..] == [];
    var raw := RawCopyStep(p, bootloader).value;
    assert LineStep(p, bootloader, None, st) == Ok(LoopState(st.trace + raw, st.lastEnd));
    if p.nr == 1 && RawCopyStart(bootloader).Some? {
      assert raw == [RawCopyCommand(bootloader, Atoi(p.begin).value).value];
      assert RawCopies([p], bootloader) == raw + [];
      assert raw + [] == raw;
    } else {
      assert raw == [];
      assert RawCopies([p], bootloader) == [] + [];
    }
  }

  lemma RawCopiesCons(ps: seq<PartitionLine>, bootloader: string)
    requires |ps| > 0 && BeginsReadable(ps)
    ensures BeginsReadable(ps[1..]) && BeginsReadable([ps[0]])
    ensures RawCopies(ps, bootloader) == RawCopies([ps[0]], bootloader) + RawCopies(ps[1..], bootloader)
  {
    assert forall i :: 0 <= i < |ps| - 1 ==> ps[1..][i] == ps[i + 1];
    assert [ps[0]][1..] == [];
  }

  /** The raw copies: one for each line numbered 1, when the Bootloader
      setting is "gpt" or "mbr". */
  function RawCopies(ps: seq<PartitionLine>, bootloader: string): seq<Command>
    requires BeginsReadable(ps)
  {
    if |ps| == 0 then []
    else
      (if ps[0].nr == 1 && RawCopyStart(bootloader).Some?
       then [RawCopyCommand(bootloader, Atoi(ps[0].begin).value).value] else [])
      + RawCopies(ps[1..], bootloader)
  }

  /** The end the loop remembers after the partitions `ps`, starting from
      `dflt`: each partition numbered below `rnr` replaces it with its own end. */
  function LastKeptEnd(ps: seq<PartitionLine>, rnr: int, dflt: int): int
    decreases |ps|
  {
    if |ps| == 0 then dflt
    else LastKeptEnd(ps[1..], rnr, if ps[0].nr < rnr then ps[0].end else dflt)
  }

  /** When no partition is numbered below `rnr`, the starting value is kept. */
  lemma {:induction false} LastKeptEndNone(ps: seq<PartitionLine>, rnr: int, dflt: int)
    requires forall i :: 0 <= i < |ps| ==> ps[i].nr >= rnr
    ensures LastKeptEnd(ps, rnr, dflt) == dflt
    decreases |ps|
  {
    if |ps| > 0 {
      assert ps[0].nr >= rnr;
      assert forall i :: 0 <= i < |ps| - 1 ==> ps[1..][i] == ps[i + 1];
      LastKeptEndNone(ps[1..], rnr, dflt);
    }
  }

  /** Otherwise it is the end of the last partition numbered below `rnr`. */
  lemma {:induction false} LastKeptEndIsLast(ps: seq<PartitionLine>, rnr: int, dflt: int, i: int)
    requires 0 <= i < |ps| && ps[i].nr < rnr
    requires forall j :: i < j < |ps| ==> ps[j].nr >= rnr
    ensures LastKeptEnd(ps, rnr, dflt) == ps[i].end
    decreases |ps|
  {
    var d' := if ps[0].nr < rnr then ps[0].end else dflt;
    assert forall j :: 0 <= j < |ps| - 1 ==> ps[1..][j] == ps[j + 1];
    if i == 0 {
      LastKeptEndNone(ps[1..], rnr, d');
    } else {
      LastKeptEndIsLast(ps[1..], rnr, d', i - 1);
    }
  }

  /** The commands one accepted line leads to when the recovery number is known. */
  function LineCommands(p: PartitionLine, bootloader: string, rnr: int): seq<Command>
    requires p.nr == 1 ==> Atoi(p.begin).Ok?
  {
    RawCopyStep(p, bootloader).value + [if p.nr < rnr then CopyPartition(p.begin, p.size) else RemovePartition(p.nr)]
  }

  /** The commands of all lines, one line after the other. */
  function AllLineCommands(ps: seq<PartitionLine>, bootloader: string, rnr: int): seq<Command>
    requires BeginsReadable(ps)
  {
    if |ps| == 0 then [] else LineCommands(ps[0], bootloader, rnr) + AllLineCommands(ps[1..], bootloader, rnr)
  }

  lemma LineStepIs(p: PartitionLine, bootloader: string, rnr: int, st: LoopState)
    requires p.nr == 1 ==> Atoi(p.begin).Ok?
    ensures LineStep(p, bootloader, Some(rnr), st)
      == Ok(LoopState(st.trace + LineCommands(p, bootloader, rnr), if p.nr < rnr then p.end else st.lastEnd))
  {
    var raw := RawCopyStep(p, bootloader).value;
    var last := if p.nr < rnr then CopyPartition(p.begin, p.size) else RemovePartition(p.nr);
    assert st.trace + raw + [last] == st.trace + (raw + [last]);
  }

  lemma AllLineCommandsCons(ps: seq<PartitionLine>, bootloader: string, rnr: int, t: seq<Command>)
    requires |ps| > 0 && BeginsReadable(ps)
    ensures t + AllLineCommands(ps, bootloader, rnr)
      == (t + LineCommands(ps[0], bootloader, rnr)) + AllLineCommands(ps[1..], bootloader, rnr)
  {
  }

  /** With the recovery number known and every line accepted, the loop issues
      the commands of every line in table order and remembers the end of the
      last partition numbered below the recovery number. */
  lemma {:induction false} PartitionLoopTrace(lines: seq<string>, ps: seq<PartitionLine>, bootloader: string, rnr: int, st: LoopState)
    requires |ps| == |lines|
    requires forall i :: 0 <= i < |lines| ==> ParsePartitionLine(lines[i]) == Ok(ps[i])
    requires BeginsReadable(ps)
    ensures PartitionLoop(lines, bootloader, Some(rnr), st).Ok?
    ensures PartitionLoop(lines, bootloader, Some(rnr), st).value
      == LoopState(st.trace + AllLineCommands(ps, bootloader, rnr), LastKeptEnd(ps, rnr, st.lastEnd))
    decreases |lines|
  {
    if |lines| > 0 {
      var p := ps[0];
      assert ParsePartitionLine(lines[0]) == Ok(p);
      LineStepIs(p, bootloader, rnr, st);
      var st1 := LoopState(st.trace + LineCommands(p, bootloader, rnr), if p.nr < rnr then p.end else st.lastEnd);
      PartitionLoopCons(lines, bootloader, Some(rnr), st);
      assert forall i :: 0 <= i < |lines| - 1 ==> lines[1..][i] == lines[i + 1] && ps[1..][i] == ps[i + 1];
      PartitionLoopTrace(lines[1..], ps[1..], bootloader, rnr, st1);
      AllLineCommandsCons(ps, bootloader, rnr, st.trace);
    }
  }

  /** The loop's copies are exactly the partitions below the recovery
      partition, in table order. */
  lemma {:induction false} LoopCopies(ps: seq<PartitionLine>, bootloader: string, rnr: int)
    requires BeginsReadable(ps)
    ensures Only(AllLineCommands(ps, bootloader, rnr), IsCopy) == KeptCopies(ps, rnr)
    decreases |ps|
  {
    if |ps| > 0 {
      var raw := RawCopyStep(ps[0], bootloader).value;
      var last := if ps[0].nr < rnr then CopyPartition(ps[0].begin, ps[0].size) else RemovePartition(ps[0].nr);
      OnlyAppend(LineCommands(ps[0], bootloader, rnr), AllLineCommands(ps[1..], bootloader, rnr), IsCopy);
      OnlyAppend(raw, [last], IsCopy);
      LoopCopies(ps[1..], bootloader, rnr);
    }
  }

  /** The loop's removals are exactly the recovery partition's number and
      every number at or above it, in table order. */
  lemma {:induction false} LoopRemovals(ps: seq<PartitionLine>, bootloader: string, rnr: int)
    requires BeginsReadable(ps)
    ensures Only(AllLineCommands(ps, bootloader, rnr), IsRemoval) == Removals(ps, rnr)
    decreases |ps|
  {
    if |ps| > 0 {
      var raw := RawCopyStep(ps[0], bootloader).value;
      var last := if ps[0].nr < rnr then CopyPartition(ps[0].begin, ps[0].size) else RemovePartition(ps[0].nr);
      OnlyAppend(LineCommands(ps[0], bootloader, rnr), AllLineCommands(ps[1..], bootloader, rnr), IsRemoval);
      OnlyAppend(raw, [last], IsRemoval);
      LoopRemovals(ps[1..], bootloader, rnr);
    }
  }

  /** The loop's raw copies are one per partition 1 when the Bootloader
      setting is "gpt" or "mbr", and none otherwise. */
  lemma {:induction false} LoopRawCopies(ps: seq<PartitionLine>, bootloader: string, rnr: int)
    requires BeginsReadable(ps)
    ensures Only(AllLineCommands(ps, bootloader, rnr), IsRaw) == RawCopies(ps, bootloader)
    decreases |ps|
  {
    if |ps| > 0 {
      var raw := RawCopyStep(ps[0], bootloader).value;
      var last := if ps[0].nr < rnr then CopyPartition(ps[0].begin, ps[0].size) else RemovePartition(ps[0].nr);
      OnlyAppend(LineCommands(ps[0], bootloader, rnr), AllLineCommands(ps[1..], bootloader, rnr), IsRaw);
      OnlyAppend(raw, [last], IsRaw);
      LoopRawCopies(ps[1..], bootloader, rnr);
    }
  }

  /** The loop never creates a partition or sets a flag. */
  lemma {:induction false} LoopMakesNothing(ps: seq<PartitionLine>, bootloader: string, rnr: int)
    requires BeginsReadable(ps)
    ensures Only(AllLineCommands(ps, bootloader, rnr), IsMake) == []
    ensures Only(AllLineCommands(ps, bootloader, rnr), IsBoot) == []
    decreases |ps|
  {
    if |ps| > 0 {
      LineMakesNothing(ps[0], bootloader, rnr);
      OnlyAppend(LineCommands(ps[0], bootloader, rnr), AllLineCommands(ps[1..], bootloader, rnr), IsMake);
      OnlyAppend(LineCommands(ps[0], bootloader, rnr), AllLineCommands(ps[1..], bootloader, rnr), IsBoot);
      LoopMakesNothing(ps[1..], bootloader, rnr);
    }
  }

  /** One line's commands create no partition and set no flag. */
  lemma LineMakesNothing(p: PartitionLine, bootloader: string, rnr: int)
    requires p.nr == 1 ==> Atoi(p.begin).Ok?
    ensures Only(LineCommands(p, bootloader, rnr), IsMake) == []
    ensures Only(LineCommands(p, bootloader, rnr), IsBoot) == []
  {
    var cs := LineCommands(p, bootloader, rnr);
    assert forall i :: 0 <= i < |cs| ==> !cs[i].MakeRecoveryPartition? && !cs[i].SetBoot?;
    OnlyNone(cs, IsMake);
    OnlyNone(cs, IsBoot);
  }

  /** The settings of the configuration the planner reads. */
  datatype LayoutConfig = LayoutConfig(bootloader: string, partitionType: string, recoverySize: string)

  /** What the planner decides: the size to allocate, the commands in order,
      and the recovery partition's first and last byte. */
  datatype Layout = Layout(imageSize: int, commands: seq<Command>, recoveryBegin: int, recoveryEnd: int)

  /** The recovery partition's `mkpart`. A "gpt" table also names it: the
      words `name`, the recovery number and the label. An "mbr" table gets no
      name; any other partition type gets no partition at all. */
  function RecoveryPartitionCommands(partitionType: string, first: int, last: int, recoveryNR: string, fsLabel: string): (r: seq<Command>)
    ensures |r| <= 1
    ensures |r| == 1 <==> partitionType == "gpt" || partitionType == "mbr"
    ensures |r| == 1 ==> r[0].MakeRecoveryPartition? && r[0].first == first && r[0].last == last
    ensures |r| == 1 ==> (r[0].name != [] <==> partitionType == "gpt")
    ensures |r| == 1 && r[0].name != [] ==> r[0].name == ["name", recoveryNR, fsLabel]
  {
    if partitionType == "gpt" then [MakeRecoveryPartition(first, last, ["name", recoveryNR, fsLabel])]
    else if partitionType == "mbr" then [MakeRecoveryPartition(first, last, [])]
    else []
  }

  /** `setupLoopDevice` up to the partitioning: read the recovery size, size
      the image, run the loop over the base partitions, read the recovery
      number, place the recovery partition right after the last copied one
      (at 4 MiB when it is partition 1), create it and, for partition 1, mark
      it bootable. All byte arithmetic is Go's 64-bit `int`. */
  function PlanLayout(cfg: LayoutConfig, recoveryNR: string, fsLabel: string, baseSize: int, partedLines: seq<string>): (r: Result<Layout, Halt>)
    requires IsInt64(baseSize)
    ensures r.Ok? ==> r.value.imageSize >= baseSize
    ensures r.Ok? ==> IsInt64(r.value.recoveryBegin) && IsInt64(r.value.recoveryEnd)
    ensures Atoi(cfg.recoverySize).Err? ==> r == Err(Halt([], BadNumber(cfg.recoverySize, Atoi(cfg.recoverySize).error)))
  {
    match ParseNumber(cfg.recoverySize)
    case Err(e) => Err(Halt([], e))
    case Ok(size) =>
      var rnr := KnownNumber(recoveryNR);
      var st :- PartitionLoop(partedLines, cfg.bootloader, rnr, LoopState([], 0));
      match ParseNumber(recoveryNR)
      case Err(e) => Err(Halt(st.trace, e))
      case Ok(nr) => Ok(PlaceRecovery(cfg.partitionType, recoveryNR, fsLabel, ImageSize(size, baseSize), size, nr, st))
  }

  /** The recovery number as the loop sees it: known when it reads as a
      number, and unknown (no copy or removal) otherwise. */
  function KnownNumber(text: string): (r: Option<int>)
    ensures r.Some? <==> Atoi(text).Ok?
    ensures r.Some? ==> r.value == Atoi(text).value
  {
    match Atoi(text)
    case Ok(n) => Some(n)
    case Err(_) => None
  }

  /** A fatal partition line stops the planner with the commands the lines
      before it issued. */
  lemma PlanLayoutHaltsInLoop(cfg: LayoutConfig, recoveryNR: string, fsLabel: string, baseSize: int,
                              pre: seq<string>, rest: seq<string>)
    requires IsInt64(baseSize) && Atoi(cfg.recoverySize).Ok?
    requires forall i :: 0 <= i < |pre| ==> LineAccepted(pre[i])
    requires |rest| > 0 && !LineAccepted(rest[0])
    ensures PartitionLoop(pre, cfg.bootloader, KnownNumber(recoveryNR), LoopState([], 0)).Ok?
    ensures PlanLayout(cfg, recoveryNR, fsLabel, baseSize, pre + rest).Err?
    ensures PlanLayout(cfg, recoveryNR, fsLabel, baseSize, pre + rest).error.issued
            == PartitionLoop(pre, cfg.bootloader, KnownNumber(recoveryNR), LoopState([], 0)).value.trace
  {
    PartitionLoopHalt(pre, rest, cfg.bootloader, KnownNumber(recoveryNR), LoopState([], 0));
  }

  /** A recovery number that is not a number is fatal only after the loop
      (main.go:114-115), so the run stops with every command the loop issued,
      which are then only raw copies. */
  lemma PlanLayoutHaltsAfterLoop(cfg: LayoutConfig, recoveryNR: string, fsLabel: string, baseSize: int, partedLines: seq<string>)
    requires IsInt64(baseSize) && Atoi(cfg.recoverySize).Ok? && Atoi(recoveryNR).Err?
    requires forall i :: 0 <= i < |partedLines| ==> LineAccepted(partedLines[i])
    ensures PartitionLoop(partedLines, cfg.bootloader, None, LoopState([], 0)).Ok?
    ensures PlanLayout(cfg, recoveryNR, fsLabel, baseSize, partedLines)
      == Err(Halt(PartitionLoop(partedLines, cfg.bootloader, None, LoopState([], 0)).value.trace,
                  BadNumber(recoveryNR, Atoi(recoveryNR).error)))
  {
    PartitionLoopOk(partedLines, cfg.bootloader, None, LoopState([], 0));
  }

  /** Where the recovery partition starts. */
  function RecoveryFirstByte(rnr: int, lastEnd: int): int {
    if rnr == 1 then FirstPartitionStart else Wrap64(lastEnd + 1)
  }

  /** The part of the plan after the loop. */
  function PlaceRecovery(partitionType: string, recoveryNR: string, fsLabel: string, imageSize: int, size: int, nr: int, st: LoopState): (l: Layout)
    ensures l.imageSize == imageSize
    ensures IsInt64(l.recoveryBegin) && IsInt64(l.recoveryEnd)
  {
    var first := RecoveryFirstByte(nr, st.lastEnd);
    var last := Wrap64(first + size * MiB);
    var boot := if nr == 1 then [SetBoot(recoveryNR)] else [];
    Layout(imageSize, st.trace + RecoveryPartitionCommands(partitionType, first, last, recoveryNR, fsLabel) + boot, first, last)
  }

  /** The planner fails exactly when the recovery size or the recovery number
      is not a number or some partition line is not accepted. */
  lemma PlanLayoutOk(cfg: LayoutConfig, recoveryNR: string, fsLabel: string, baseSize: int, partedLines: seq<string>)
    requires IsInt64(baseSize)
    ensures PlanLayout(cfg, recoveryNR, fsLabel, baseSize, partedLines).Ok?
      <==> Atoi(cfg.recoverySize).Ok? && Atoi(recoveryNR).Ok?
           && forall i :: 0 <= i < |partedLines| ==> LineAccepted(partedLines[i])
  {
    var rnr := KnownNumber(recoveryNR);
    PartitionLoopOk(partedLines, cfg.bootloader, rnr, LoopState([], 0));
  }

  /** The plan once the numbers are read and the loop has run. */
  lemma PlanLayoutIs(cfg: LayoutConfig, recoveryNR: string, fsLabel: string, baseSize: int,
                     partedLines: seq<string>, size: int, rnr: int, st: LoopState)
    requires IsInt64(baseSize)
    requires Atoi(cfg.recoverySize) == Ok(size) && Atoi(recoveryNR) == Ok(rnr)
    requires PartitionLoop(partedLines, cfg.bootloader, Some(rnr), LoopState([], 0)) == Ok(st)
    ensures PlanLayout(cfg, recoveryNR, fsLabel, baseSize, partedLines)
      == Ok(PlaceRecovery(cfg.partitionType, recoveryNR, fsLabel, ImageSize(size, baseSize), size, rnr, st))
  {
  }

  /** What the plan does to the base partitions: it copies exactly those
      numbered below the recovery partition and removes exactly the others, in
      table order, and raw-copies the bootloader area once per partition 1
      when the Bootloader setting allows. */
  lemma PlanLayoutCommands(cfg: LayoutConfig, recoveryNR: string, fsLabel: string, baseSize: int,
                           partedLines: seq<string>, ps: seq<PartitionLine>, rnr: int)
    requires IsInt64(baseSize)
    requires Atoi(cfg.recoverySize).Ok? && Atoi(recoveryNR) == Ok(rnr)
    requires |ps| == |partedLines|
    requires forall i :: 0 <= i < |partedLines| ==> ParsePartitionLine(partedLines[i]) == Ok(ps[i])
    requires BeginsReadable(ps)
    ensures PlanLayout(cfg, recoveryNR, fsLabel, baseSize, partedLines).Ok?
    ensures var l := PlanLayout(cfg, recoveryNR, fsLabel, baseSize, partedLines).value;
      && Only(l.commands, IsCopy) == KeptCopies(ps, rnr)
      && Only(l.commands, IsRemoval) == Removals(ps, rnr)
      && Only(l.commands, IsRaw) == RawCopies(ps, cfg.bootloader)
  {
    PlanCommandsAre(cfg, recoveryNR, fsLabel, baseSize, partedLines, ps, rnr);
    var l := PlanLayout(cfg, recoveryNR, fsLabel, baseSize, partedLines).value;
    var mk := RecoveryPartitionCommands(cfg.partitionType, l.recoveryBegin, l.recoveryEnd, recoveryNR, fsLabel);
    var boot := if rnr == 1 then [SetBoot(recoveryNR)] else [];
    PlanViewsOfLines(ps, cfg.bootloader, rnr, mk, boot);
  }

  /** Appending a created partition and a boot flag after the loop's commands
      leaves the copies, the removals and the raw copies as the loop made them. */
  lemma PlanViewsOfLines(ps: seq<PartitionLine>, bootloader: string, rnr: int, mk: seq<Command>, boot: seq<Command>)
    requires BeginsReadable(ps)
    requires forall i :: 0 <= i < |mk| ==> mk[i].MakeRecoveryPartition?
    requires forall i :: 0 <= i < |boot| ==> boot[i].SetBoot?
    ensures var cs := AllLineCommands(ps, bootloader, rnr) + mk + boot;
      && Only(cs, IsCopy) == KeptCopies(ps, rnr)
      && Only(cs, IsRemoval) == Removals(ps, rnr)
      && Only(cs, IsRaw) == RawCopies(ps, bootloader)
  {
    var all := AllLineCommands(ps, bootloader, rnr);
    LoopCopies(ps, bootloader, rnr);
    LoopRemovals(ps, bootloader, rnr);
    LoopRawCopies(ps, bootloader, rnr);
    TailOther(all, mk, boot, IsCopy);
    TailOther(all, mk, boot, IsRemoval);
    TailOther(all, mk, boot, IsRaw);
  }

  /** Appending them leaves exactly those as the plan's created partitions and
      boot flags. */
  lemma PlanViewsOfTail(ps: seq<PartitionLine>, bootloader: string, rnr: int, mk: seq<Command>, boot: seq<Command>)
    requires BeginsReadable(ps)
    requires forall i :: 0 <= i < |mk| ==> mk[i].MakeRecoveryPartition?
    requires forall i :: 0 <= i < |boot| ==> boot[i].SetBoot?
    ensures var cs := AllLineCommands(ps, bootloader, rnr) + mk + boot;
      Only(cs, IsMake) == mk && Only(cs, IsBoot) == boot
  {
    var all := AllLineCommands(ps, bootloader, rnr);
    LoopMakesNothing(ps, bootloader, rnr);
    TailMake(all, mk, boot);
    TailBoot(all, mk, boot);
    assert [] + mk == mk;
    assert [] + boot == boot;
  }

  /** The plan creates one partition, the recovery partition, named only in a
      "gpt" table, and sets the boot flag only when it is partition 1. */
  lemma PlanLayoutNewPartition(cfg: LayoutConfig, recoveryNR: string, fsLabel: string, baseSize: int,
                               partedLines: seq<string>, ps: seq<PartitionLine>, rnr: int)
    requires IsInt64(baseSize)
    requires Atoi(cfg.recoverySize).Ok? && Atoi(recoveryNR) == Ok(rnr)
    requires |ps| == |partedLines|
    requires forall i :: 0 <= i < |partedLines| ==> ParsePartitionLine(partedLines[i]) == Ok(ps[i])
    requires BeginsReadable(ps)
    ensures PlanLayout(cfg, recoveryNR, fsLabel, baseSize, partedLines).Ok?
    ensures var l := PlanLayout(cfg, recoveryNR, fsLabel, baseSize, partedLines).value;
      && Only(l.commands, IsMake) == RecoveryPartitionCommands(cfg.partitionType, l.recoveryBegin, l.recoveryEnd, recoveryNR, fsLabel)
      && Only(l.commands, IsBoot) == (if rnr == 1 then [SetBoot(recoveryNR)] else [])
  {
    PlanCommandsAre(cfg, recoveryNR, fsLabel, baseSize, partedLines, ps, rnr);
    var l := PlanLayout(cfg, recoveryNR, fsLabel, baseSize, partedLines).value;
    var mk := RecoveryPartitionCommands(cfg.partitionType, l.recoveryBegin, l.recoveryEnd, recoveryNR, fsLabel);
    var boot := if rnr == 1 then [SetBoot(recoveryNR)] else [];
    PlanViewsOfTail(ps, cfg.bootloader, rnr, mk, boot);
  }

  /** The plan's commands: those of every partition line, then the recovery
      partition, then the boot flag. */
  lemma PlanCommandsAre(cfg: LayoutConfig, recoveryNR: string, fsLabel: string, baseSize: int,
                        partedLines: seq<string>, ps: seq<PartitionLine>, rnr: int)
    requires IsInt64(baseSize)
    requires Atoi(cfg.recoverySize).Ok? && Atoi(recoveryNR) == Ok(rnr)
    requires |ps| == |partedLines|
    requires forall i :: 0 <= i < |partedLines| ==> ParsePartitionLine(partedLines[i]) == Ok(ps[i])
    requires BeginsReadable(ps)
    ensures PlanLayout(cfg, recoveryNR, fsLabel, baseSize, partedLines).Ok?
    ensures var l := PlanLayout(cfg, recoveryNR, fsLabel, baseSize, partedLines).value;
      l.commands == AllLineCommands(ps, cfg.bootloader, rnr)
        + RecoveryPartitionCommands(cfg.partitionType, l.recoveryBegin, l.recoveryEnd, recoveryNR, fsLabel)
        + (if rnr == 1 then [SetBoot(recoveryNR)] else [])
  {
    PartitionLoopTrace(partedLines, ps, cfg.bootloader, rnr, LoopState([], 0));
    var all := AllLineCommands(ps, cfg.bootloader, rnr);
    var st := LoopState([] + all, LastKeptEnd(ps, rnr, 0));
    assert [] + all == all;
    PlanLayoutIs(cfg, recoveryNR, fsLabel, baseSize, partedLines, Atoi(cfg.recoverySize).value, rnr, st);
  }

  lemma {:induction false} OnlyNone(cs: seq<Command>, keep: Command -> bool)
    requires forall i :: 0 <= i < |cs| ==> !keep(cs[i])
    ensures Only(cs, keep) == []
    decreases |cs|
  {
    if |cs| > 0 {
      OnlyNone(cs[1..], keep);
    }
  }

  lemma {:induction false} OnlyAll(cs: seq<Command>, keep: Command -> bool)
    requires forall i :: 0 <= i < |cs| ==> keep(cs[i])
    ensures Only(cs, keep) == cs
    decreases |cs|
  {
    if |cs| > 0 {
      OnlyAll(cs[1..], keep);
    }
  }

  /** Commands of other kinds appended after the loop leave a kind's view as it was. */
  lemma TailOther(all: seq<Command>, mk: seq<Command>, boot: seq<Command>, keep: Command -> bool)
    requires forall i :: 0 <= i < |mk| ==> !keep(mk[i])
    requires forall i :: 0 <= i < |boot| ==> !keep(boot[i])
    ensures Only(all + mk + boot, keep) == Only(all, keep)
  {
    OnlyAppend(all, mk, keep);
    OnlyAppend(all + mk, boot, keep);
    OnlyNone(mk, keep);
    OnlyNone(boot, keep);
    assert Only(all, keep) + [] + [] == Only(all, keep);
  }

  /** The partition created after the loop is the only one in the plan. */
  lemma TailMake(all: seq<Command>, mk: seq<Command>, boot: seq<Command>)
    requires forall i :: 0 <= i < |mk| ==> mk[i].MakeRecoveryPartition?
    requires forall i :: 0 <= i < |boot| ==> boot[i].SetBoot?
    ensures Only(all + mk + boot, IsMake) == Only(all, IsMake) + mk
  {
    OnlyAppend(all, mk, IsMake);
    OnlyAppend(all + mk, boot, IsMake);
    OnlyAll(mk, IsMake);
    OnlyNone(boot, IsMake);
    assert Only(all, IsMake) + mk + [] == Only(all, IsMake) + mk;
  }

  /** The boot flag set after the loop is the only one in the plan. */
  lemma TailBoot(all: seq<Command>, mk: seq<Command>, boot: seq<Command>)
    requires forall i :: 0 <= i < |mk| ==> mk[i].MakeRecoveryPartition?
    requires forall i :: 0 <= i < |boot| ==> boot[i].SetBoot?
    ensures Only(all + mk + boot, IsBoot) == Only(all, IsBoot) + boot
  {
    OnlyAppend(all, mk, IsBoot);
    OnlyAppend(all + mk, boot, IsBoot);
    OnlyNone(mk, IsBoot);
    OnlyAll(boot, IsBoot);
    assert Only(all, IsBoot) + [] == Only(all, IsBoot);
  }

  /** Where the recovery partition lies: at 4 MiB when it is partition 1,
      otherwise on the byte after the end of the last copied partition (or at
      byte 1 when none was copied); in both cases it spans the recovery size
      in MiB, unless 64-bit arithmetic wraps. */
  lemma PlanLayoutPlacement(cfg: LayoutConfig, recoveryNR: string, fsLabel: string, baseSize: int,
                            partedLines: seq<string>, ps: seq<PartitionLine>, rnr: int, size: int)
    requires IsInt64(baseSize)
    requires Atoi(cfg.recoverySize) == Ok(size) && Atoi(recoveryNR) == Ok(rnr)
    requires |ps| == |partedLines|
    requires forall i :: 0 <= i < |partedLines| ==> ParsePartitionLine(partedLines[i]) == Ok(ps[i])
    requires BeginsReadable(ps)
    ensures PlanLayout(cfg, recoveryNR, fsLabel, baseSize, partedLines).Ok?
    ensures var l := PlanLayout(cfg, recoveryNR, fsLabel, baseSize, partedLines).value;
      && (rnr == 1 ==> l.recoveryBegin == 4 * MiB)
      && (rnr != 1 && IsInt64(LastKeptEnd(ps, rnr, 0) + 1) ==> l.recoveryBegin == LastKeptEnd(ps, rnr, 0) + 1)
      && (IsInt64(l.recoveryBegin + size * MiB) ==> l.recoveryEnd - l.recoveryBegin == size * MiB)
      && (IsInt64((size + 20) * MiB) ==> l.imageSize >= (size + 20) * MiB)
  {
    PartitionLoopTrace(partedLines, ps, cfg.bootloader, rnr, LoopState([], 0));
    var st := PartitionLoop(partedLines, cfg.bootloader, Some(rnr), LoopState([], 0)).value;
    PlanLayoutIs(cfg, recoveryNR, fsLabel, baseSize, partedLines, size, rnr, st);
  }

  /** The argument list of a command: the operands handed to `dd` (after the
      input and output images), or the full `parted` command line on the
      output image `out`. Numbers are printed with `%d`/`%v`. */
  function Arguments(c: Command, out: string): (r: seq<string>)
    ensures c.MakeRecoveryPartition? ==> |r| == 13 + |c.name|
    ensures !c.MakeRecoveryPartition? ==> |r| == 5 || |r| == 7
    ensures c.RemovePartition? ==> |r| == 5
    ensures c.MakeRecoveryPartition? && IsInt64(c.first) && IsInt64(c.last) ==>
      Atoi(r[10]) == Ok(c.first) && Atoi(r[11]) == Ok(c.last)
    ensures c.RemovePartition? && IsInt64(c.nr) ==> Atoi(r[4]) == Ok(c.nr)
    ensures c.CopyPartition? ==> r[1] == "skip=" + c.offset && r[2] == "seek=" + c.offset
  {
    match c
    case RawCopy(sectors, countOperand) =>
      ["bs=512", "skip=" + FormatInt(sectors), "seek=" + FormatInt(sectors), countOperand, "conv=notrunc"]
    case CopyPartition(offset, size) =>
      ["bs=1", "skip=" + offset, "seek=" + offset, "count=" + size, "conv=notrunc"]
    case RemovePartition(nr) =>
      if IsInt64(nr) then ParseFormat(nr); ["parted", "-ms", out, "rm", FormatInt(nr)]
      else ["parted", "-ms", out, "rm", FormatInt(nr)]
    case MakeRecoveryPartition(first, last, name) =>
      if IsInt64(first) && IsInt64(last) then ParseFormat(first); ParseFormat(last);
        ["parted", "-ms", "-a", "optimal", out, "unit", "B", "mkpart", "primary", "fat32",
         FormatInt(first), FormatInt(last)] + name + ["print"]
      else
        ["parted", "-ms", "-a", "optimal", out, "unit", "B", "mkpart", "primary", "fat32",
         FormatInt(first), FormatInt(last)] + name + ["print"]
    case SetBoot(nr) => ["parted", "-ms", out, "set", nr, "boot", "on"]
  }

  /** The two compression formats an initrd comes in. */
  datatype Compression = Gzip | Xz

  /** The decompression tool the first switch of `setupInitrd` picks for the
      detected content type; any other type panics. */
  function ExtractTool(filetype: string): (r: Result<string, Failure>)
    ensures r.Ok? ==> DecompressorFormat(r.value).Some?
    ensures r.Err? ==> r.error == UnknownInitrdType(filetype)
  {
    if filetype == "application/x-gzip" then Ok("gunzip")
    else if filetype == "application/octet-stream" then Ok("unxz")
    else Err(UnknownInitrdType(filetype))
  }

  /** The compression tool the second switch picks for the same content type. */
  function RecompressTool(filetype: string): (r: Result<string, Failure>)
    ensures r.Ok? ==> CompressorFormat(r.value).Some?
    ensures r.Err? ==> r.error == UnknownInitrdType(filetype)
  {
    if filetype == "application/x-gzip" then Ok("gzip -9")
    else if filetype == "application/octet-stream" then Ok("xz -c9 --check=crc32")
    else Err(UnknownInitrdType(filetype))
  }

  /** The format a decompression tool reads. */
  function DecompressorFormat(tool: string): Option<Compression> {
    if tool == "gunzip" then Some(Gzip) else if tool == "unxz" then Some(Xz) else None
  }

  /** The format a compression command writes. */
  function CompressorFormat(tool: string): Option<Compression> {
    if tool == "gzip -9" then Some(Gzip) else if tool == "xz -c9 --check=crc32" then Some(Xz) else None
  }

  /** The two switches panic on the same content types, and otherwise the
      initrd is recompressed in the format it was unpacked from. */
  lemma InitrdCodecMatches(filetype: string)
    ensures ExtractTool(filetype).Ok? <==> RecompressTool(filetype).Ok?
    ensures ExtractTool(filetype).Ok? <==> filetype == "application/x-gzip" || filetype == "application/octet-stream"
    ensures ExtractTool(filetype).Ok? ==>
      && DecompressorFormat(ExtractTool(filetype).value).Some?
      && DecompressorFormat(ExtractTool(filetype).value) == CompressorFormat(RecompressTool(filetype).value)
  {
  }

  /** The two shell pipelines of `setupInitrd`: unpack the kernel snap's
      initrd into `<tmp>/misc/initrd/`, and pack that directory back into the
      recovery partition's initrd with the matching compressor. */
  function InitrdCommands(tmpDir: string, initrdImagePath: string, filetype: string): (r: Result<(string, string), Failure>)
    ensures r.Ok? <==> filetype == "application/x-gzip" || filetype == "application/octet-stream"
    ensures r.Ok? ==> ExtractTool(filetype).value + " < " <= r.value.0
    ensures r.Ok? ==> var tail := " | " + RecompressTool(filetype).value + " > " + initrdImagePath;
      |tail| <= |r.value.1| && r.value.1[|r.value.1| - |tail|..] == tail
  {
    var extract :- ExtractTool(filetype);
    var recompress := RecompressTool(filetype).value;
    var initrdTmpDir := tmpDir + "/misc/initrd/";
    var kernelSnapTmpDir := tmpDir + "/misc/kernel-snap";
    var head := "( cd " + initrdTmpDir + "; find | cpio --quiet -o -H newc )";
    var tail := " | " + recompress + " > " + initrdImagePath;
    var unpack := extract + " < " + kernelSnapTmpDir + "/initrd.img | (cd " + initrdTmpDir + "; cpio -i )";
    assert unpack[..|extract + " < "|] == extract + " < ";
    assert (head + tail)[|head|..] == tail;
    Ok((unpack, head + tail))
  }

  /** The directory under `<tmp>/image/` a base partition is mounted on,
      decided by its file-system type as `blkid` prints it, white space
      trimmed: "vfat" is the boot partition, "ext4" the writable one, any
      other type is skipped. */
  function BaseMountDir(blkidType: string): (r: Option<string>)
    ensures r == Some("system-boot") <==> TrimSpace(blkidType) == "vfat"
    ensures r == Some("writable") <==> TrimSpace(blkidType) == "ext4"
    ensures r.None? <==> TrimSpace(blkidType) != "vfat" && TrimSpace(blkidType) != "ext4"
  {
    var t := TrimSpace(blkidType);
    if t == "vfat" then Some("system-boot")
    else if t == "ext4" then Some("writable")
    else None
  }

  /** The mounts of the base image's partitions, each given with its
      `blkid` type, in the order the device glob lists them: the partitions
      whose type names a directory, each paired with that directory. */
  function BaseMounts(parts: seq<(string, string)>): (r: seq<(string, string)>)
    ensures |r| <= |parts|
  {
    if |parts| == 0 then []
    else
      match BaseMountDir(parts[0].1)
      case None => BaseMounts(parts[1..])
      case Some(dir) => [(parts[0].0, dir)] + BaseMounts(parts[1..])
  }

  /** Only partitions of a mountable type are mounted, each on its own
      type's directory. */
  lemma {:induction false} BaseMountsSound(parts: seq<(string, string)>, m: (string, string))
    requires m in BaseMounts(parts)
    ensures exists j :: 0 <= j < |parts| && parts[j].0 == m.0 && BaseMountDir(parts[j].1) == Some(m.1)
    decreases |parts|
  {
    var rest := BaseMounts(parts[1..]);
    if m in rest {
      BaseMountsSound(parts[1..], m);
      var j :| 0 <= j < |parts[1..]| && parts[1..][j].0 == m.0 && BaseMountDir(parts[1..][j].1) == Some(m.1);
      assert parts[j + 1] == parts[1..][j];
    } else {
      assert parts[0].0 == m.0 && BaseMountDir(parts[0].1) == Some(m.1);
    }
  }

  /** Every partition of a mountable type is mounted. */
  lemma {:induction false} BaseMountsComplete(parts: seq<(string, string)>, j: int)
    requires 0 <= j < |parts| && BaseMountDir(parts[j].1).Some?
    ensures (parts[j].0, BaseMountDir(parts[j].1).value) in BaseMounts(parts)
    decreases |parts|
  {
    var m := (parts[j].0, BaseMountDir(parts[j].1).value);
    if j > 0 {
      assert parts[1..][j - 1] == parts[j];
      BaseMountsComplete(parts[1..], j - 1);
      BaseMountsKeepsRest(parts, m);
    } else {
      BaseMountsKeepsFirst(parts);
    }
  }

  /** A mount of the partitions after the first is a mount of all of them. */
  lemma BaseMountsKeepsRest(parts: seq<(string, string)>, m: (string, string))
    requires |parts| > 0 && m in BaseMounts(parts[1..])
    ensures m in BaseMounts(parts)
  {
  }

  /** The first partition is mounted when its type is mountable. */
  lemma BaseMountsKeepsFirst(parts: seq<(string, string)>)
    requires |parts| > 0 && BaseMountDir(parts[0].1).Some?
    ensures (parts[0].0, BaseMountDir(parts[0].1).value) in BaseMounts(parts)
  {
  }

  /** The label of the recovery file system: the installer label for the
      headless-installer image type, the recovery label otherwise. The value
      of that image-type constant is not part of this model, so it is a
      parameter. */
  function RecoveryLabel(imageType: string, headlessInstaller: string, installerFsLabel: string, recoveryFsLabel: string): (r: string)
    ensures imageType == headlessInstaller ==> r == installerFsLabel
    ensures imageType != headlessInstaller ==> r == recoveryFsLabel
  {
    if imageType == headlessInstaller then installerFsLabel else recoveryFsLabel
  }

  /** The device-path prefix of partitions on loop device `loop`. */
  function LoopPartitionPrefix(loop: string): string {
    "/dev/" + loop + "p"
  }

  /** The recovery partition number as the code computes it: "1" for grub;
      for u-boot, the device of the partition labelled `writable` with the
      characters of `/dev/<loop>p` trimmed from both ends, a character set
      rather than a prefix; empty for any other bootloader. */
  function RecoveryNumberAsWritten(bootloader: string, loop: string, writablePart: string): (r: string)
    ensures bootloader == "grub" ==> r == "1"
    ensures bootloader == "u-boot" ==> IsInfix(r, writablePart)
    ensures bootloader == "u-boot" && |r| > 0 ==>
      r[0] !in LoopPartitionPrefix(loop) && r[|r| - 1] !in LoopPartitionPrefix(loop)
    ensures bootloader == "u-boot" ==> exists k :: CutAround(writablePart, r, k, LoopPartitionPrefix(loop))
    ensures bootloader != "grub" && bootloader != "u-boot" ==> r == ""
  {
    if bootloader == "grub" then "1"
    else if bootloader == "u-boot" then Trim(writablePart, LoopPartitionPrefix(loop))
    else ""
  }

  /** The recovery partition number as intended: the partition suffix after
      the loop device's prefix. */
  function RecoveryNumber(bootloader: string, loop: string, writablePart: string): (r: string)
    ensures bootloader == "grub" ==> r == "1"
    ensures bootloader == "u-boot" && LoopPartitionPrefix(loop) <= writablePart ==>
      LoopPartitionPrefix(loop) + r == writablePart
    ensures bootloader != "grub" && bootloader != "u-boot" ==> r == ""
  {
    if bootloader == "grub" then "1"
    else if bootloader == "u-boot" then TrimPrefix(writablePart, LoopPartitionPrefix(loop))
    else ""
  }

  /** On u-boot the intended number of partition `n` of the loop device is `n`. */
  lemma RecoveryNumberOfPartition(loop: string, n: string)
    ensures RecoveryNumber("u-boot", loop, LoopPartitionPrefix(loop) + n) == n
  {
    var prefix := LoopPartitionPrefix(loop);
    assert prefix <= prefix + n;
  }

  /** The cutset trim agrees with the intended prefix removal when the
      partition number neither starts nor ends with a character of the
      device prefix. */
  lemma RecoveryNumberAgrees(loop: string, n: string)
    requires |n| > 0
    requires n[0] !in LoopPartitionPrefix(loop) && n[|n| - 1] !in LoopPartitionPrefix(loop)
    ensures RecoveryNumberAsWritten("u-boot", loop, LoopPartitionPrefix(loop) + n) == n
    ensures RecoveryNumber("u-boot", loop, LoopPartitionPrefix(loop) + n) == n
  {
    var prefix := LoopPartitionPrefix(loop);
    TrimLeftPrepended(prefix, n, prefix);
    TrimRightAppended(n, "", prefix);
    assert n + "" == n;
    RecoveryNumberOfPartition(loop, n);
  }

  /** The raw copy of the bootloader area depends on the Bootloader setting
      being "gpt" or "mbr", and for those settings the recovery number is
      empty. So a run that raw-copies never gets past the reading of the
      recovery number after the loop. */
  lemma RawCopyRunFails(cfg: LayoutConfig, loop: string, writablePart: string, fsLabel: string, baseSize: int, partedLines: seq<string>)
    requires IsInt64(baseSize) && RawCopyStart(cfg.bootloader).Some?
    ensures PlanLayout(cfg, RecoveryNumberAsWritten(cfg.bootloader, loop, writablePart), fsLabel, baseSize, partedLines).Err?
  {
    assert Atoi("").Err?;
    PlanLayoutOk(cfg, RecoveryNumberAsWritten(cfg.bootloader, loop, writablePart), fsLabel, baseSize, partedLines);
  }

  /** When the recovery size and every partition line are readable, such a
      run stops on the empty recovery number having issued exactly the raw
      copies: no partition is copied, removed or created. */
  lemma RawCopyRunHalts(cfg: LayoutConfig, loop: string, writablePart: string, fsLabel: string, baseSize: int,
                        partedLines: seq<string>, ps: seq<PartitionLine>)
    requires IsInt64(baseSize) && RawCopyStart(cfg.bootloader).Some? && Atoi(cfg.recoverySize).Ok?
    requires |ps| == |partedLines|
    requires forall i :: 0 <= i < |partedLines| ==> ParsePartitionLine(partedLines[i]) == Ok(ps[i])
    requires BeginsReadable(ps)
    ensures PlanLayout(cfg, RecoveryNumberAsWritten(cfg.bootloader, loop, writablePart), fsLabel, baseSize, partedLines)
      == Err(Halt(RawCopies(ps, cfg.bootloader), BadNumber("", Atoi("").error)))
  {
    var nr := RecoveryNumberAsWritten(cfg.bootloader, loop, writablePart);
    assert nr == "";
    assert Atoi("").Err?;
    assert forall i :: 0 <= i < |partedLines| ==> LineAccepted(partedLines[i]);
    PlanLayoutHaltsAfterLoop(cfg, nr, fsLabel, baseSize, partedLines);
    PartitionLoopRawOnly(partedLines, ps, cfg.bootloader, LoopState([], 0));
    assert [] + RawCopies(ps, cfg.bootloader) == RawCopies(ps, cfg.bootloader);
  }

  /** Partition 2 of loop device `loop2` comes out as the empty string,
      because every character of `/dev/loop2p2` is in the cutset; 2 was meant. */
  lemma RecoveryNumberCutsetExample()
    ensures RecoveryNumberAsWritten("u-boot", "loop2", "/dev/loop2p2") == ""
    ensures RecoveryNumber("u-boot", "loop2", "/dev/loop2p2") == "2"
  {
    var part := "/dev/loop2p2";
    var prefix := LoopPartitionPrefix("loop2");
    assert part == prefix + "2";
    RecoveryNumberOfPartition("loop2", "2");
    assert forall i :: 0 <= i < |part| ==> part[i] in prefix;
  }
}

=== FILE: sign_serial.dfy ===
/** The serial signing client: it loads or creates a device key, asks the
    signing service for a nonce, builds a serial request that carries the
    nonce, writes the request to a file and, when a signing server is
    configured, submits it and stores the signed serial. The network, the
    key generator and the assertion library are parameters: each step's
    outcome is given, and the model records which effects happen in which
    order. */
module SignSerial {
  import opened Wrappers
  import opened GoStrings

  const RequestIdPath: string := "/request-id"

  /** Where the nonce is requested: the server with every trailing `/`
      removed, then `/request-id`. */
  function NonceUrl(server: string): (r: string)
    ensures |r| >= |RequestIdPath| && r[|r| - |RequestIdPath|..] == RequestIdPath
    ensures var base := r[..|r| - |RequestIdPath|];
      && base <= server
      && (|base| > 0 ==> base[|base| - 1] != '/')
      && forall i :: |base| <= i < |server| ==> server[i] == '/'
  {
    var base := TrimRight(server, "/");
    var r := base + RequestIdPath;
    assert r[..|base|] == base;
    r
  }

  /** A server named without a trailing `/` is used as it is. */
  lemma NonceUrlPlain(server: string)
    requires |server| > 0 && server[|server| - 1] != '/'
    ensures NonceUrl(server) == server + RequestIdPath
  {
    TrimRightAppended(server, "", "/");
    assert server + "" == server;
  }

  /** Extra trailing slashes make no difference to the nonce address. */
  lemma NonceUrlTrailingSlash(server: string)
    ensures NonceUrl(server + "/") == NonceUrl(server)
  {
    var base := TrimRight(server, "/");
    var s := server + "/";
    if |base| > 0 {
      var tail := server[|base|..];
      assert server == base + tail;
      assert s == base + (tail + "/");
      TrimRightAppended(base, tail + "/", "/");
    } else {
      assert forall i :: 0 <= i < |s| ==> s[i] in "/";
    }
  }

  /** An HTTP request: method, address, body and headers in the order added. */
  datatype HttpRequest = HttpRequest(verb: string, url: string, body: string, headers: seq<(string, string)>)

  /** The nonce request: a form-encoded POST with an empty body that carries
      the API key. */
  function NonceRequest(server: string, apikey: string): (r: HttpRequest)
    ensures r.verb == "POST" && r.body == "" && r.url == NonceUrl(server)
    ensures ("api-key", apikey) in r.headers
    ensures ("Content-Type", "application/x-www-form-urlencoded") in r.headers
  {
    HttpRequest("POST", NonceUrl(server), "", [("Content-Type", "application/x-www-form-urlencoded"), ("api-key", apikey)])
  }

  /** What became of the nonce request: it could not be built, the transport
      failed, the body could not be read, the body was not the expected JSON,
      or the reply carried a request id. */
  datatype NonceReply =
    | RequestNotBuilt(error: string)
    | TransportFailed(error: string)
    | BodyUnreadable(error: string)
    | NotJson(error: string)
    | RequestId(id: string)

  /** One call of `GetNonce`: the request it sent, if it got as far as
      sending one, and the nonce or the error. */
  datatype NonceCall = NonceCall(sent: Option<HttpRequest>, nonce: string, error: Option<string>)

  /** `GetNonce`: every failure is returned at once with an empty nonce and
      nothing is retried; on success the nonce is the reply's request id. */
  function GetNonce(server: string, apikey: string, reply: NonceReply): (r: NonceCall)
    ensures r.sent.Some? <==> !reply.RequestNotBuilt?
    ensures r.sent.Some? ==> r.sent.value == NonceRequest(server, apikey)
    ensures r.error.None? <==> reply.RequestId?
    ensures r.error.Some? ==> r.nonce == "" && r.error.value == reply.error
    ensures reply.RequestId? ==> r.nonce == reply.id
  {
    match reply
    case RequestNotBuilt(e) => NonceCall(None, "", Some(e))
    case TransportFailed(e) => NonceCall(Some(NonceRequest(server, apikey)), "", Some(e))
    case BodyUnreadable(e) => NonceCall(Some(NonceRequest(server, apikey)), "", Some(e))
    case NotJson(e) => NonceCall(Some(NonceRequest(server, apikey)), "", Some(e))
    case RequestId(id) => NonceCall(Some(NonceRequest(server, apikey)), id, None)
  }

  /** The configuration file. */
  datatype SignConfig = SignConfig(
    modelAssertionFile: string, deviceKeyFile: string, apikey: string,
    signServer: string, serialRequestFile: string, serialAssertionFile: string)

  /** A private key, known by its public key's id. */
  datatype Key = Key(id: string)

  /** The decoded model assertion. */
  datatype ModelAssertion = ModelAssertion(text: string)

  /** A serial request as the assertion library builds it from its inputs. */
  datatype SerialRequest = SerialRequest(model: ModelAssertion, key: Key, serial: string, revision: string, nonce: string)

  /** The serial number and revision every request asks for. */
  const RequestSerial: string := "A1234567"
  const RequestRevision: string := "1"

  /** The state of the device-key file: absent or unreadable, readable but
      not a key, or a key. */
  datatype KeyFile = NoKeyFile | NotAKey(armored: string) | KeyInFile(armored: string, key: Key)

  datatype FileData = ArmoredKey(text: string) | EncodedRequest(request: SerialRequest) | SignedSerial(text: string)

  datatype FatalReason =
    | Usage | BadConfig | KeyGenerationFailed | NilKey | BadModel
    | NonceFailed(error: string) | RequestFailed(error: string) | SubmitFailed(error: string)

  /** The effects of a run, in order. A fatal error ends it. */
  datatype Effect =
    | WriteFile(path: string, data: FileData, mode: int)
    | Post(call: HttpRequest)
    | Submit(request: SerialRequest, server: string, apikey: string)
    | Fatal(reason: FatalReason)

  /** Everything a run learns from outside: the configuration file, the key
      file, the key generator, the model-assertion file, the nonce service,
      the request builder and the signing service. */
  datatype World = World(
    config: Result<SignConfig, string>, keyFile: KeyFile, generated: Result<(Key, string), string>,
    model: Result<ModelAssertion, string>, nonceReply: NonceReply,
    requestError: Option<string>, submitReply: Result<string, string>)

  /** The file mode of every file the client writes. */
  const PrivateMode: int := 0x180

  /** A fatal error, if any, is the last effect. */
  predicate FatalOnlyLast(t: seq<Effect>) {
    forall i :: 0 <= i < |t| - 1 ==> !t[i].Fatal?
  }

  /** At most one nonce request is posted. */
  predicate AtMostOnePost(t: seq<Effect>) {
    forall i, j :: 0 <= i < |t| && 0 <= j < |t| && t[i].Post? && t[j].Post? ==> i == j
  }

  /** Every submitted request was written to a file earlier. */
  predicate SubmitAfterWrite(t: seq<Effect>) {
    forall j :: 0 <= j < |t| && t[j].Submit? ==>
      exists i :: 0 <= i < j && t[i].WriteFile? && t[i].data == EncodedRequest(t[j].request)
  }

  /** Loading the device key: reused when the file holds one; generated and
      written with mode 0600 when there is no file; a file that reads but
      does not hold a key crashes the run, as the key's id is printed before
      the key is checked. */
  function LoadDeviceKey(path: string, file: KeyFile, generated: Result<(Key, string), string>): (r: (seq<Effect>, Option<Key>))
    ensures file.KeyInFile? ==> r == ([], Some(file.key))
    ensures file.NoKeyFile? && generated.Ok? ==>
      r == ([WriteFile(path, ArmoredKey(generated.value.1), PrivateMode)], Some(generated.value.0))
    ensures r.1.None? <==> file.NotAKey? || (file.NoKeyFile? && generated.Err?)
    ensures r.1.None? ==> |r.0| == 1 && r.0[0].Fatal?
    ensures r.1.Some? ==> forall i :: 0 <= i < |r.0| ==> !r.0[i].Fatal?
  {
    match file
    case KeyInFile(_, key) => ([], Some(key))
    case NotAKey(_) => ([Fatal(NilKey)], None)
    case NoKeyFile =>
      match generated
      case Err(_) => ([Fatal(KeyGenerationFailed)], None)
      case Ok((key, armored)) => ([WriteFile(path, ArmoredKey(armored), PrivateMode)], Some(key))
  }

  /** Submitting the request, only when a signing server is configured, and
      storing the signed serial it returns. */
  function SubmitStage(cfg: SignConfig, request: SerialRequest, reply: Result<string, string>): (t: seq<Effect>)
    ensures cfg.signServer == "" <==> t == []
    ensures t != [] ==> t[0] == Submit(request, cfg.signServer, cfg.apikey) && |t| == 2
    ensures forall i :: 1 <= i < |t| ==> !t[i].Submit?
  {
    if cfg.signServer == "" then []
    else
      [Submit(request, cfg.signServer, cfg.apikey)] +
      match reply
      case Err(e) => [Fatal(SubmitFailed(e))]
      case Ok(signed) => [WriteFile(cfg.serialAssertionFile, SignedSerial(signed), PrivateMode)]
  }

  /** Building the serial request from the nonce, writing it, then submitting it. */
  function SignStage(cfg: SignConfig, model: ModelAssertion, key: Key, nonce: string, w: World): (t: seq<Effect>)
    ensures FatalOnlyLast(t) && SubmitAfterWrite(t)
    ensures forall i :: 0 <= i < |t| ==> !t[i].Post?
    ensures forall i :: 0 <= i < |t| && t[i].WriteFile? ==> !t[i].data.ArmoredKey?
    ensures forall i :: 0 <= i < |t| && t[i].WriteFile? && t[i].data.EncodedRequest? ==>
      t[i].data.request == SerialRequest(model, key, RequestSerial, RequestRevision, nonce)
    ensures forall i :: 0 <= i < |t| && t[i].Submit? ==> cfg.signServer != ""
  {
    match w.requestError
    case Some(e) => [Fatal(RequestFailed(e))]
    case None =>
      var request := SerialRequest(model, key, RequestSerial, RequestRevision, nonce);
      var write := WriteFile(cfg.serialRequestFile, EncodedRequest(request), PrivateMode);
      var rest := SubmitStage(cfg, request, w.submitReply);
      var t := [write] + rest;
      assert forall j :: 0 <= j < |t| && t[j].Submit? ==> j == 1 && t[0].data == EncodedRequest(t[j].request);
      t
  }

  /** Everything after the key is loaded: decode the model assertion, fetch a
      nonce, then sign. */
  function AfterKey(cfg: SignConfig, key: Key, w: World): (t: seq<Effect>)
    ensures FatalOnlyLast(t) && AtMostOnePost(t) && SubmitAfterWrite(t)
    ensures forall i :: 0 <= i < |t| && t[i].Post? ==> t[i].call == NonceRequest(cfg.signServer, cfg.apikey)
    ensures forall i :: 0 <= i < |t| && t[i].WriteFile? ==> !t[i].data.ArmoredKey?
    ensures forall i :: 0 <= i < |t| && t[i].WriteFile? && t[i].data.EncodedRequest? ==>
      w.model.Ok? && w.nonceReply.RequestId? && t[0] == Post(NonceRequest(cfg.signServer, cfg.apikey))
      && t[i].data.request == SerialRequest(w.model.value, key, RequestSerial, RequestRevision, w.nonceReply.id)
    ensures forall i :: 0 <= i < |t| && t[i].Submit? ==> cfg.signServer != ""
  {
    match w.model
    case Err(_) => [Fatal(BadModel)]
    case Ok(model) =>
      var call := GetNonce(cfg.signServer, cfg.apikey, w.nonceReply);
      if call.error.Some? then
        if call.sent.Some? then [Post(call.sent.value), Fatal(NonceFailed(call.error.value))]
        else [Fatal(NonceFailed(call.error.value))]
      else
        var rest := SignStage(cfg, model, key, call.nonce, w);
        PostThen(call.sent.value, rest);
        [Post(call.sent.value)] + rest
  }

  /** One nonce request posted before a stage that posts none keeps the
      trace properties of that stage. */
  lemma PostThen(call: HttpRequest, rest: seq<Effect>)
    requires FatalOnlyLast(rest) && SubmitAfterWrite(rest)
    requires forall i :: 0 <= i < |rest| ==> !rest[i].Post?
    ensures var t := [Post(call)] + rest;
      && FatalOnlyLast(t) && AtMostOnePost(t) && SubmitAfterWrite(t)
      && forall i :: 1 <= i < |t| ==> t[i] == rest[i - 1]
  {
    var t := [Post(call)] + rest;
    assert forall i :: 1 <= i < |t| ==> t[i] == rest[i - 1];
    PostThenFatal(t, rest);
    PostThenOnePost(t, rest);
    PostThenSubmit(t, rest);
  }

  lemma PostThenFatal(t: seq<Effect>, rest: seq<Effect>)
    requires |t| == |rest| + 1 && t[0].Post? && forall i :: 1 <= i < |t| ==> t[i] == rest[i - 1]
    requires FatalOnlyLast(rest)
    ensures FatalOnlyLast(t)
  {
    forall i | 0 <= i < |t| - 1
      ensures !t[i].Fatal?
    {
      if i > 0 {
        assert t[i] == rest[i - 1];
      }
    }
  }

  lemma PostThenOnePost(t: seq<Effect>, rest: seq<Effect>)
    requires |t| == |rest| + 1 && forall i :: 1 <= i < |t| ==> t[i] == rest[i - 1]
    requires forall i :: 0 <= i < |rest| ==> !rest[i].Post?
    ensures AtMostOnePost(t)
  {
    forall i | 1 <= i < |t|
      ensures !t[i].Post?
    {
      assert t[i] == rest[i - 1];
    }
  }

  lemma PostThenSubmit(t: seq<Effect>, rest: seq<Effect>)
    requires |t| == |rest| + 1 && !t[0].Submit? && forall i :: 1 <= i < |t| ==> t[i] == rest[i - 1]
    requires SubmitAfterWrite(rest)
    ensures SubmitAfterWrite(t)
  {
    forall j | 0 <= j < |t| && t[j].Submit?
      ensures exists i :: 0 <= i < j && t[i].WriteFile? && t[i].data == EncodedRequest(t[j].request)
    {
      assert t[j] == rest[j - 1];
      var i :| 0 <= i < j - 1 && rest[i].WriteFile? && rest[i].data == EncodedRequest(rest[j - 1].request);
      assert t[i + 1] == rest[i];
    }
  }

  /** The client's `main`. It needs exactly one argument, the configuration
      file, and then loads the key, fetches one nonce, writes the serial
      request and submits it when a signing server is configured. A fatal
      error ends the run; no step is retried; the request is always written
      before it is submitted. */
  function Run(args: seq<string>, w: World): (t: seq<Effect>)
    ensures |args| != 1 ==> t == [Fatal(Usage)]
    ensures FatalOnlyLast(t) && AtMostOnePost(t) && SubmitAfterWrite(t)
    ensures forall i :: 0 <= i < |t| && t[i].Submit? ==> w.config.Ok? && w.config.value.signServer != ""
  {
    if |args| != 1 then [Fatal(Usage)]
    else
      match w.config
      case Err(_) => [Fatal(BadConfig)]
      case Ok(cfg) =>
        var (loaded, key) := LoadDeviceKey(cfg.deviceKeyFile, w.keyFile, w.generated);
        match key
        case None => loaded
        case Some(k) =>
          var rest := AfterKey(cfg, k, w);
          RunTail(loaded, rest);
          loaded + rest
  }

  /** Prepending effects that post nothing, submit nothing and are not fatal
      keeps the trace properties. */
  lemma RunTail(loaded: seq<Effect>, rest: seq<Effect>)
    requires forall i :: 0 <= i < |loaded| ==> !loaded[i].Fatal? && !loaded[i].Post? && !loaded[i].Submit?
    requires FatalOnlyLast(rest) && AtMostOnePost(rest) && SubmitAfterWrite(rest)
    ensures FatalOnlyLast(loaded + rest) && AtMostOnePost(loaded + rest) && SubmitAfterWrite(loaded + rest)
    ensures forall i :: |loaded| <= i < |loaded + rest| ==> (loaded + rest)[i] == rest[i - |loaded|]
  {
    var t := loaded + rest;
    var n := |loaded|;
    forall j | 0 <= j < |t| && t[j].Submit?
      ensures exists i :: 0 <= i < j && t[i].WriteFile? && t[i].data == EncodedRequest(t[j].request)
    {
      assert t[j] == rest[j - n];
      var i :| 0 <= i < j - n && rest[i].WriteFile? && rest[i].data == EncodedRequest(rest[j - n].request);
      assert t[i + n] == rest[i];
    }
  }

  /** When every step succeeds, the device key is the one from the file or
      the freshly generated one, the written request carries the nonce the
      service returned, and the request is submitted exactly when a signing
      server is configured. */
  lemma RunSucceeds(args: seq<string>, w: World, cfg: SignConfig, key: Key, model: ModelAssertion, id: string)
    requires |args| == 1 && w.config == Ok(cfg) && w.model == Ok(model) && w.nonceReply == RequestId(id)
    requires w.requestError.None?
    requires w.keyFile.KeyInFile? ==> key == w.keyFile.key
    requires w.keyFile.NoKeyFile? ==> w.generated.Ok? && key == w.generated.value.0
    requires !w.keyFile.NotAKey?
    ensures var t := Run(args, w);
      var request := SerialRequest(model, key, RequestSerial, RequestRevision, id);
      && Post(NonceRequest(cfg.signServer, cfg.apikey)) in t
      && WriteFile(cfg.serialRequestFile, EncodedRequest(request), PrivateMode) in t
      && (Submit(request, cfg.signServer, cfg.apikey) in t <==> cfg.signServer != "")
      && |t| > 0
      && (w.keyFile.NoKeyFile? ==> t[0] == WriteFile(cfg.deviceKeyFile, ArmoredKey(w.generated.value.1), PrivateMode))
      && (w.keyFile.KeyInFile? ==> t[0] == Post(NonceRequest(cfg.signServer, cfg.apikey)))
  {
    var (loaded, k) := LoadDeviceKey(cfg.deviceKeyFile, w.keyFile, w.generated);
    var rest := AfterKey(cfg, key, w);
    var request := SerialRequest(model, key, RequestSerial, RequestRevision, id);
    var signed := SignStage(cfg, model, key, id, w);
    assert rest == [Post(NonceRequest(cfg.signServer, cfg.apikey))] + signed;
    assert signed == [WriteFile(cfg.serialRequestFile, EncodedRequest(request), PrivateMode)] + SubmitStage(cfg, request, w.submitReply);
    var t := Run(args, w);
    assert t == loaded + rest;
    assert Post(NonceRequest(cfg.signServer, cfg.apikey)) in rest;
    assert WriteFile(cfg.serialRequestFile, EncodedRequest(request), PrivateMode) in signed;
    if cfg.signServer != "" {
      assert Submit(request, cfg.signServer, cfg.apikey) in signed;
    } else {
      assert forall e :: e in signed ==> !e.Submit?;
    }
    assert rest[0].Post?;
  }

  /** A device key read from its file is used as it is: the key file is not
      rewritten and every written request is signed with that key. */
  lemma RunReusesKey(args: seq<string>, w: World)
    requires w.keyFile.KeyInFile?
    ensures var t := Run(args, w);
      forall i :: 0 <= i < |t| && t[i].WriteFile? ==>
        !t[i].data.ArmoredKey? && (t[i].data.EncodedRequest? ==> t[i].data.request.key == w.keyFile.key)
  {
    if |args| == 1 && w.config.Ok? {
      var cfg := w.config.value;
      assert Run(args, w) == [] + AfterKey(cfg, w.keyFile.key, w);
    }
  }
}

=== FILE: trust_chain.dfy ===
/** The mock serial generator: against an assertion store that trusts only
    the test root account and its key, it finds or creates a brand account,
    loads or creates the brand's signing key, finds or creates the
    account-key assertion, and then issues a model assertion and a serial
    assertion for a device key. Keys, key ids, signatures, the clock and the
    key generator are opaque values given as parameters; the store is an
    abstract collection of assertions looked up by header values. */
module TrustChain {
  import opened Wrappers
  import Base64

  /** The test root authority every created account and account key is signed by. */
  const RootAccountId: string := "testrootorg"
  const RootKeyId: string := "hIedp1AvrWlcDI4uS_qjoFLzjKl5enu4G2FYJpgB3Pj-tUzGlTQBxMBsBmi-tnJR"

  datatype Kind = AccountKind | AccountKeyKind | ModelKind | SerialKind

  /** An assertion: its type, its headers, the id of the key that signed it,
      and the id of the public key it carries (empty when it carries none). */
  datatype Assertion = Assertion(kind: Kind, headers: map<string, string>, signKeyId: string, publicKeyId: string)

  /** The trusted root account: self-signed, validation "certified". */
  const RootAccount: Assertion := Assertion(AccountKind,
    map["authority-id" := RootAccountId, "account-id" := RootAccountId, "display-name" := "Testrootorg",
        "timestamp" := "2016-08-11T18:30:57+02:00", "username" := RootAccountId, "validation" := "certified"],
    RootKeyId, "")

  /** The trusted root account key: the root's own key, signed by itself. */
  const RootAccountKey: Assertion := Assertion(AccountKeyKind,
    map["authority-id" := RootAccountId, "public-key-sha3-384" := RootKeyId, "account-id" := RootAccountId,
        "since" := "2016-08-11T18:30:57+02:00"],
    RootKeyId, RootKeyId)

  const TrustedAssertions: seq<Assertion> := [RootAccount, RootAccountKey]

  /** What is on disk under the store path: the assertions added so far, the
      imported private keys (key id to account id), and whether it can be read. */
  datatype Backstore = Backstore(added: seq<Assertion>, keys: map<string, string>, failure: Option<string>)

  /** The opened assertion database. */
  datatype Store = Store(trusted: seq<Assertion>, backstore: Backstore)

  /** Opening the database: it trusts exactly the root account and the root
      account key. */
  function OpenStore(b: Backstore): (s: Store)
    ensures s.trusted == [RootAccount, RootAccountKey] && s.backstore == b
  {
    Store(TrustedAssertions, b)
  }

  /** The root account key is the key the root account is signed with. */
  lemma RootSelfSigned()
    ensures RootAccountKey.publicKeyId == RootAccount.signKeyId == RootAccountKey.signKeyId
    ensures RootAccountKey.headers["account-id"] == RootAccount.headers["account-id"] == RootAccountId
  {
  }

  /** `a` is of kind `kind` and has every header of `query` with its value. */
  predicate Matches(a: Assertion, kind: Kind, query: map<string, string>) {
    a.kind == kind && forall k :: k in query ==> k in a.headers && a.headers[k] == query[k]
  }

  datatype FindResult = Found(assertion: Assertion) | NotFound | FindFailed(error: string)

  /** The first assertion of `cands` that matches. */
  function FirstMatch(cands: seq<Assertion>, kind: Kind, query: map<string, string>): (r: Option<nat>)
    ensures r.Some? ==> r.value < |cands| && Matches(cands[r.value], kind, query)
    ensures r.Some? ==> forall i :: 0 <= i < r.value ==> !Matches(cands[i], kind, query)
    ensures r.None? <==> forall i :: 0 <= i < |cands| ==> !Matches(cands[i], kind, query)
  {
    if |cands| == 0 then None
    else if Matches(cands[0], kind, query) then Some(0)
    else
      match FirstMatch(cands[1..], kind, query)
      case None =>
        assert forall i :: 1 <= i < |cands| ==> cands[i] == cands[1..][i - 1];
        None
      case Some(j) =>
        assert forall i :: 1 <= i < j + 1 ==> cands[i] == cands[1..][i - 1];
        Some(j + 1)
  }

  /** `db.Find`: an unreadable store fails; otherwise the first trusted or
      added assertion that matches, if any. */
  function Find(s: Store, kind: Kind, query: map<string, string>): (r: FindResult)
    ensures s.backstore.failure.Some? <==> r.FindFailed?
    ensures r.Found? ==> Matches(r.assertion, kind, query) && r.assertion in s.trusted + s.backstore.added
    ensures r.NotFound? ==> forall a :: a in s.trusted + s.backstore.added ==> !Matches(a, kind, query)
  {
    if s.backstore.failure.Some? then FindFailed(s.backstore.failure.value)
    else
      var all := s.trusted + s.backstore.added;
      match FirstMatch(all, kind, query)
      case None => NotFound
      case Some(i) => Found(all[i])
  }

  /** `db.Add`. */
  function Add(s: Store, a: Assertion): (r: Store)
    ensures r.trusted == s.trusted && r.backstore.keys == s.backstore.keys && r.backstore.failure == s.backstore.failure
    ensures r.backstore.added == s.backstore.added + [a]
  {
    s.(backstore := s.backstore.(added := s.backstore.added + [a]))
  }

  /** Once an assertion is in a readable store, a lookup for its headers
      finds an assertion, so it is never created again. */
  lemma FindAfterAdd(s: Store, a: Assertion, kind: Kind, query: map<string, string>)
    requires s.backstore.failure.None? && Matches(a, kind, query)
    ensures Find(Add(s, a), kind, query).Found?
  {
    var all := Add(s, a).trusted + Add(s, a).backstore.added;
    assert all[|all| - 1] == a;
  }

  /** The value of header `name`, or "" when it is absent. */
  function Header(a: Assertion, name: string): string {
    if name in a.headers then a.headers[name] else ""
  }

  /** A private key, known by its public key's id. */
  datatype PrivateKey = PrivateKey(id: string)

  type byte = Base64.uint8

  /** A key file: absent or unreadable, readable but not a key, or a key. */
  datatype KeyFile = NoKeyFile | NotAKey(armored: seq<byte>) | KeyInFile(armored: seq<byte>, key: PrivateKey)

  datatype OutputFiles = OutputFiles(
    keypairJsonFile: string, modelJsonFile: string, accountAssertionFile: string,
    accountKeyAssertionFile: string, modelAssertionFile: string, serialAssertionFile: string)

  /** The configuration file. */
  datatype MockConfig = MockConfig(
    dbStorePath: string, testKeyFile: string, deviceKeyFile: string,
    accountId: string, model: string, serial: string, nonce: string, output: OutputFiles)

  /** The two JSON files are written at fixed paths; the configured paths
      for them are not used. */
  const KeypairJsonPath: string := "keypair.json"
  const ModelJsonPath: string := "model.json"

  /** The file mode of every file the generator writes (0600). */
  const PrivateMode: int := 0x180

  datatype FileData =
    | EncodedAssertion(assertion: Assertion)
    | ArmoredKey(bytes: seq<byte>)
    | KeypairJson(privateKey: string, authorityId: string)
    | ModelJson(brandId: string, name: string, keypairId: int)

  datatype FatalReason = Usage | BadConfig | StoreFailed(error: string) | NilKey | KeyGenerationFailed | ImportFailed

  /** The effects of a run, in order. A fatal error ends it. */
  datatype Effect =
    | WriteFile(path: string, data: FileData, mode: int)
    | AddAssertion(assertion: Assertion)
    | ImportKey(accountId: string, keyId: string)
    | Fatal(reason: FatalReason)

  /** The account created for `accountId`, signed by the root. */
  function NewAccount(accountId: string, now: string): (a: Assertion)
    ensures a.kind == AccountKind && Header(a, "account-id") == accountId && Header(a, "validation") == "certified"
    ensures a.signKeyId == RootKeyId
  {
    Assertion(AccountKind,
      map["authority-id" := RootAccountId, "account-id" := accountId, "validation" := "certified", "timestamp" := now],
      RootKeyId, "")
  }

  /** Finding the brand account by its id, creating and adding it when it is
      not there. Any other lookup error is fatal. */
  function FindOrCreateAccount(s: Store, accountId: string, now: string): (r: Result<(Assertion, Store, seq<Effect>), string>)
    ensures r.Err? <==> s.backstore.failure.Some?
    ensures r.Ok? ==> var (a, s', effects) := r.value;
      && a.kind == AccountKind && Header(a, "account-id") == accountId
      && s'.trusted == s.trusted && s'.backstore.keys == s.backstore.keys && s'.backstore.failure.None?
      && ((effects == [] && s' == s) || (effects == [AddAssertion(a)] && s' == Add(s, a) && Header(a, "validation") == "certified"))
      && (effects == [] <==> exists b :: b in s.trusted + s.backstore.added && Matches(b, AccountKind, map["account-id" := accountId]))
  {
    var query := map["account-id" := accountId];
    match Find(s, AccountKind, query)
    case FindFailed(e) => Err(e)
    case Found(a) =>
      assert "account-id" in query;
      Ok((a, s, []))
    case NotFound =>
      var a := NewAccount(accountId, now);
      Ok((a, Add(s, a), [AddAssertion(a)]))
  }

  /** A second lookup in the store the first one left behind adds nothing
      and returns the same account. */
  lemma FindOrCreateAccountIdempotent(s: Store, accountId: string, now: string, now': string)
    requires FindOrCreateAccount(s, accountId, now).Ok?
    ensures var (a, s1, _) := FindOrCreateAccount(s, accountId, now).value;
      FindOrCreateAccount(s1, accountId, now') == Ok((a, s1, []))
  {
    var query := map["account-id" := accountId];
    var (a, s1, effects) := FindOrCreateAccount(s, accountId, now).value;
    if effects != [] {
      var all := s1.trusted + s1.backstore.added;
      assert all == (s.trusted + s.backstore.added) + [a];
      assert FirstMatch(s.trusted + s.backstore.added, AccountKind, query).None?;
      FirstMatchAppend(s.trusted + s.backstore.added, a, AccountKind, query);
    }
  }

  /** The first match in a sequence extended by a matching assertion, when
      nothing before matched, is that assertion. */
  lemma FirstMatchAppend(cands: seq<Assertion>, a: Assertion, kind: Kind, query: map<string, string>)
    requires FirstMatch(cands, kind, query).None? && Matches(a, kind, query)
    ensures FirstMatch(cands + [a], kind, query) == Some(|cands|)
  {
    var all := cands + [a];
    assert all[|cands|] == a;
    assert forall i :: 0 <= i < |cands| ==> all[i] == cands[i];
  }

  /** The account-key assertion for `key` under `account`, signed by the root. */
  function NewAccountKey(account: Assertion, key: PrivateKey, now: string): (a: Assertion)
    ensures a.kind == AccountKeyKind && a.publicKeyId == key.id && a.signKeyId == RootKeyId
    ensures Header(a, "account-id") == Header(account, "account-id") && Header(a, "public-key-sha3-384") == key.id
  {
    Assertion(AccountKeyKind,
      map["authority-id" := RootAccountId, "account-id" := Header(account, "account-id"),
          "public-key-sha3-384" := key.id, "since" := now],
      RootKeyId, key.id)
  }

  /** The lookup of the account-key assertion. */
  function AccountKeyQuery(accountId: string, key: PrivateKey): map<string, string> {
    map["account-id" := accountId, "public-key-sha3-384" := key.id]
  }

  /** Finding the account-key assertion by account id and public-key id,
      creating and adding it when it is not there. */
  function FindOrCreateAccountKey(s: Store, account: Assertion, accountId: string, key: PrivateKey, now: string): (r: Result<(Assertion, Store, seq<Effect>), string>)
    requires Header(account, "account-id") == accountId
    ensures r.Err? <==> s.backstore.failure.Some?
    ensures r.Ok? ==> var (a, s', effects) := r.value;
      && a.kind == AccountKeyKind && Header(a, "account-id") == accountId && Header(a, "public-key-sha3-384") == key.id
      && s'.trusted == s.trusted && s'.backstore.keys == s.backstore.keys && s'.backstore.failure.None?
      && ((effects == [] && s' == s) || (effects == [AddAssertion(a)] && s' == Add(s, a) && a.signKeyId == RootKeyId))
      && (effects == [] <==> exists b :: b in s.trusted + s.backstore.added && Matches(b, AccountKeyKind, AccountKeyQuery(accountId, key)))
  {
    var query := AccountKeyQuery(accountId, key);
    match Find(s, AccountKeyKind, query)
    case FindFailed(e) => Err(e)
    case Found(a) =>
      assert "account-id" in query && "public-key-sha3-384" in query;
      Ok((a, s, []))
    case NotFound =>
      var a := NewAccountKey(account, key, now);
      Ok((a, Add(s, a), [AddAssertion(a)]))
  }

  /** No effect of `t` adds an assertion to the store or imports a key into it. */
  predicate NoStoreEffects(t: seq<Effect>) {
    forall i :: 0 <= i < |t| ==> !t[i].AddAssertion? && !t[i].ImportKey?
  }

  /** The id of the generated key, or "" when generation failed. */
  function GeneratedId(generated: Result<(PrivateKey, seq<byte>), string>): string {
    if generated.Ok? then generated.value.0.id else ""
  }

  /** Every key import in `t` is `e`, and happens only when `ok` holds. */
  predicate ImportsOnly(t: seq<Effect>, ok: bool, e: Effect) {
    forall i :: 0 <= i < |t| && t[i].ImportKey? ==> ok && t[i] == e
  }

  lemma ImportsOnlyAppend(a: seq<Effect>, b: seq<Effect>, ok: bool, e: Effect)
    requires ImportsOnly(a, ok, e) && ImportsOnly(b, ok, e)
    ensures ImportsOnly(a + b, ok, e)
  {
    var t := a + b;
    forall i | 0 <= i < |t| && t[i].ImportKey?
      ensures ok && t[i] == e
    {
      if i >= |a| {
        assert t[i] == b[i - |a|];
      }
    }
  }

  /** Loading the brand's signing key: a key read from its file is used and
      not imported; a missing file means a new key, written with mode 0600
      and imported under the brand account; a file that reads but holds no
      key crashes the run. */
  function LoadAccountKey(s: Store, cfg: MockConfig, file: KeyFile, generated: Result<(PrivateKey, seq<byte>), string>): (r: (seq<Effect>, Option<(PrivateKey, seq<byte>, Store)>))
    ensures file.KeyInFile? ==> r == ([], Some((file.key, file.armored, s)))
    ensures r.1.None? ==> |r.0| > 0 && r.0[|r.0| - 1].Fatal? && forall i :: 0 <= i < |r.0| - 1 ==> !r.0[i].Fatal?
    ensures r.1.Some? ==> forall i :: 0 <= i < |r.0| ==> !r.0[i].Fatal? && !r.0[i].AddAssertion?
    ensures r.1.Some? ==>
      && r.1.value.2.trusted == s.trusted
      && r.1.value.2.backstore.added == s.backstore.added
      && r.1.value.2.backstore.failure == s.backstore.failure
    ensures ImportsOnly(r.0, file.NoKeyFile? && generated.Ok?, ImportKey(cfg.accountId, GeneratedId(generated)))
    ensures file.NoKeyFile? && r.1.Some? ==>
      && generated.Ok?
      && r.0 == [WriteFile(cfg.testKeyFile, ArmoredKey(generated.value.1), PrivateMode), ImportKey(cfg.accountId, generated.value.0.id)]
      && r.1.value.0 == generated.value.0 && r.1.value.1 == generated.value.1
      && r.1.value.2.backstore.keys == s.backstore.keys[generated.value.0.id := cfg.accountId]
  {
    match file
    case KeyInFile(armored, key) => ([], Some((key, armored, s)))
    case NotAKey(_) => ([Fatal(NilKey)], None)
    case NoKeyFile =>
      match generated
      case Err(_) => ([Fatal(KeyGenerationFailed)], None)
      case Ok((key, armored)) =>
        var write := WriteFile(cfg.testKeyFile, ArmoredKey(armored), PrivateMode);
        if key.id in s.backstore.keys then ([write, Fatal(ImportFailed)], None)
        else
          var s' := s.(backstore := s.backstore.(keys := s.backstore.keys[key.id := cfg.accountId]));
          ([write, ImportKey(cfg.accountId, key.id)], Some((key, armored, s')))
  }

  /** The model assertion, signed by the brand's key. */
  function NewModel(accountId: string, model: string, key: PrivateKey): (a: Assertion)
    ensures a.kind == ModelKind && a.signKeyId == key.id
    ensures Header(a, "authority-id") == Header(a, "brand-id") == accountId && Header(a, "model") == model
    ensures Header(a, "series") == "16" && Header(a, "revision") == "1"
  {
    Assertion(ModelKind,
      map["series" := "16", "authority-id" := accountId, "brand-id" := accountId, "model" := model,
          "revision" := "1", "core" := "ubuntu-core", "architecture" := "amd64", "class" := "fixed",
          "gadget" := "pc", "kernel" := "pc-kernel", "store" := "brand-store"],
      key.id, "")
  }

  /** The model assertion carries exactly the eleven headers the generator sets. */
  lemma NewModelHeaderNames(accountId: string, model: string, key: PrivateKey)
    ensures NewModel(accountId, model, key).headers.Keys == {"series", "authority-id", "brand-id", "model", "revision", "core",
                                                             "architecture", "class", "gadget", "kernel", "store"}
  {
  }

  /** The serial assertion for the device key, signed by the brand's key. */
  function NewSerial(accountId: string, model: string, serial: string, signer: PrivateKey, device: PrivateKey): (a: Assertion)
    ensures a.kind == SerialKind && a.signKeyId == signer.id && a.publicKeyId == device.id
    ensures Header(a, "authority-id") == Header(a, "brand-id") == accountId
    ensures Header(a, "model") == model && Header(a, "serial") == serial && Header(a, "revision") == "1"
  {
    Assertion(SerialKind,
      map["series" := "16", "authority-id" := accountId, "brand-id" := accountId, "model" := model,
          "serial" := serial, "revision" := "1"],
      signer.id, device.id)
  }

  /** The serial assertion carries exactly the six headers the generator sets. */
  lemma NewSerialHeaderNames(accountId: string, model: string, serial: string, signer: PrivateKey, device: PrivateKey)
    ensures NewSerial(accountId, model, serial, signer, device).headers.Keys ==
      {"series", "authority-id", "brand-id", "model", "serial", "revision"}
  {
  }

  /** Loading the device key: read from its file, or generated and written
      with mode 0600 when there is no file. It is never imported. */
  function LoadDeviceKey(path: string, file: KeyFile, generated: Result<(PrivateKey, seq<byte>), string>): (r: (seq<Effect>, Option<PrivateKey>))
    ensures file.KeyInFile? ==> r == ([], Some(file.key))
    ensures file.NoKeyFile? && generated.Ok? ==>
      r == ([WriteFile(path, ArmoredKey(generated.value.1), PrivateMode)], Some(generated.value.0))
    ensures r.1.None? <==> file.NotAKey? || (file.NoKeyFile? && generated.Err?)
    ensures r.1.None? ==> |r.0| == 1 && r.0[0].Fatal?
    ensures NoStoreEffects(r.0)
  {
    match file
    case KeyInFile(_, key) => ([], Some(key))
    case NotAKey(_) => ([Fatal(NilKey)], None)
    case NoKeyFile =>
      match generated
      case Err(_) => ([Fatal(KeyGenerationFailed)], None)
      case Ok((key, armored)) => ([WriteFile(path, ArmoredKey(armored), PrivateMode)], Some(key))
  }

  /** Everything a run learns from outside besides the store. */
  datatype World = World(
    config: Result<MockConfig, string>, now: string,
    accountKeyFile: KeyFile, generatedAccountKey: Result<(PrivateKey, seq<byte>), string>,
    deviceKeyFile: KeyFile, generatedDeviceKey: Result<(PrivateKey, seq<byte>), string>)

  /** The model and serial stage, once the brand's key is known. */
  function Issue(cfg: MockConfig, key: PrivateKey, w: World): (t: seq<Effect>)
    ensures NoStoreEffects(t)
    ensures |t| >= 2 && t[0] == WriteFile(cfg.output.modelAssertionFile, EncodedAssertion(NewModel(cfg.accountId, cfg.model, key)), PrivateMode)
  {
    var modelWrites := [
      WriteFile(cfg.output.modelAssertionFile, EncodedAssertion(NewModel(cfg.accountId, cfg.model, key)), PrivateMode),
      WriteFile(ModelJsonPath, ModelJson(cfg.accountId, cfg.model, 1), PrivateMode)];
    var loaded := LoadDeviceKey(cfg.deviceKeyFile, w.deviceKeyFile, w.generatedDeviceKey);
    NoStoreEffectsAppend(modelWrites, loaded.0);
    var head := modelWrites + loaded.0;
    assert head[0] == modelWrites[0];
    if loaded.1.None? then head
    else
      var serial := [WriteFile(cfg.output.serialAssertionFile,
        EncodedAssertion(NewSerial(cfg.accountId, cfg.model, cfg.serial, key, loaded.1.value)), PrivateMode)];
      NoStoreEffectsAppend(head, serial);
      head + serial
  }

  /** The run once the configuration is read: account, signing key,
      `keypair.json`, account key, then model and serial. */
  function Chain(cfg: MockConfig, w: World, s0: Store): (r: (seq<Effect>, Store))
    ensures r.1.trusted == s0.trusted
  {
    match FindOrCreateAccount(s0, cfg.accountId, w.now)
    case Err(e) => ([Fatal(StoreFailed(e))], s0)
    case Ok((account, s1, e1)) =>
      AfterAccount(cfg, w, account, s1, e1 + [WriteFile(cfg.output.accountAssertionFile, EncodedAssertion(account), PrivateMode)])
  }

  /** The run after the account is known: load the brand key and write
      `keypair.json`. */
  function AfterAccount(cfg: MockConfig, w: World, account: Assertion, s1: Store, t1: seq<Effect>): (r: (seq<Effect>, Store))
    requires Header(account, "account-id") == cfg.accountId
    ensures r.1.trusted == s1.trusted
    ensures t1 <= r.0 && s1.backstore.added <= r.1.backstore.added
    ensures r.1.backstore.failure == s1.backstore.failure
    ensures w.accountKeyFile.NotAKey? ==> r == (t1 + [Fatal(NilKey)], s1)
    ensures w.accountKeyFile.KeyInFile? ==>
      && r.1.backstore.keys == s1.backstore.keys
      && |r.0| > |t1|
      && r.0[|t1|] == WriteFile(KeypairJsonPath, KeypairJson(Base64.Encode(w.accountKeyFile.armored), cfg.accountId), PrivateMode)
  {
    var (e2, loaded) := LoadAccountKey(s1, cfg, w.accountKeyFile, w.generatedAccountKey);
    match loaded
    case None => (t1 + e2, s1)
    case Some((key, armored, s2)) =>
      AfterKey(cfg, w, account, key, s2,
        t1 + e2 + [WriteFile(KeypairJsonPath, KeypairJson(Base64.Encode(armored), cfg.accountId), PrivateMode)])
  }

  /** The run after the brand key is known: the account key, then the model
      and the serial. */
  function AfterKey(cfg: MockConfig, w: World, account: Assertion, key: PrivateKey, s2: Store, t2: seq<Effect>): (r: (seq<Effect>, Store))
    requires Header(account, "account-id") == cfg.accountId
    ensures r.1.trusted == s2.trusted && r.1.backstore.keys == s2.backstore.keys
    ensures t2 <= r.0 && s2.backstore.added <= r.1.backstore.added
    ensures |r.1.backstore.added| <= |s2.backstore.added| + 1
    ensures s2.backstore.failure.Some? ==> r == (t2 + [Fatal(StoreFailed(s2.backstore.failure.value))], s2)
    ensures s2.backstore.failure.None? ==>
      && r.1.backstore.failure.None?
      && exists i :: |t2| <= i < |r.0| && r.0[i].WriteFile? && r.0[i].path == cfg.output.accountKeyAssertionFile
  {
    match FindOrCreateAccountKey(s2, account, cfg.accountId, key, w.now)
    case Err(e) => (t2 + [Fatal(StoreFailed(e))], s2)
    case Ok((accountKey, s3, e3)) =>
      var write := WriteFile(cfg.output.accountKeyAssertionFile, EncodedAssertion(accountKey), PrivateMode);
      var t := t2 + e3 + [write] + Issue(cfg, key, w);
      assert t[|t2| + |e3|] == write;
      (t, s3)
  }

  /** The generator's `main`: it needs exactly one argument, the
      configuration file; the database it opens always trusts exactly the
      root account and the root account key. */
  function Run(args: seq<string>, w: World, b: Backstore): (r: (seq<Effect>, Store))
    ensures |args| != 1 ==> r.0 == [Fatal(Usage)]
    ensures r.1.trusted == [RootAccount, RootAccountKey]
  {
    if |args| != 1 then ([Fatal(Usage)], OpenStore(b))
    else
      match w.config
      case Err(_) => ([Fatal(BadConfig)], OpenStore(b))
      case Ok(cfg) => Chain(cfg, w, OpenStore(b))
  }

  /** The brand key's armored bytes, as `keypair.json` carries them, decode
      back from the file's base64 text. */
  lemma KeypairJsonRoundTrip(armored: seq<byte>, accountId: string)
    ensures var data := KeypairJson(Base64.Encode(armored), accountId);
      Base64.Decode(data.privateKey) == Some(armored) && data.authorityId == accountId
  {
    Base64.DecodeEncode(armored);
  }

  /** The brand key is imported only when it was generated in this run; a
      key read from its file is never imported, and the device key never is. */
  lemma ImportOnlyWhenGenerated(cfg: MockConfig, w: World, s0: Store)
    ensures var t := Chain(cfg, w, s0).0;
      forall i :: 0 <= i < |t| && t[i].ImportKey? ==>
        w.accountKeyFile.NoKeyFile? && w.generatedAccountKey.Ok?
        && t[i] == ImportKey(cfg.accountId, w.generatedAccountKey.value.0.id)
  {
    var ok := w.accountKeyFile.NoKeyFile? && w.generatedAccountKey.Ok?;
    var e := ImportKey(cfg.accountId, GeneratedId(w.generatedAccountKey));
    match FindOrCreateAccount(s0, cfg.accountId, w.now)
    case Err(_) =>
    case Ok((account, s1, e1)) =>
      var t1 := e1 + [WriteFile(cfg.output.accountAssertionFile, EncodedAssertion(account), PrivateMode)];
      ImportsOnlyAppend(e1, [WriteFile(cfg.output.accountAssertionFile, EncodedAssertion(account), PrivateMode)], ok, e);
      AfterAccountImports(cfg, w, account, s1, t1);
  }

  lemma AfterAccountImports(cfg: MockConfig, w: World, account: Assertion, s1: Store, t1: seq<Effect>)
    requires Header(account, "account-id") == cfg.accountId
    requires ImportsOnly(t1, w.accountKeyFile.NoKeyFile? && w.generatedAccountKey.Ok?, ImportKey(cfg.accountId, GeneratedId(w.generatedAccountKey)))
    ensures ImportsOnly(AfterAccount(cfg, w, account, s1, t1).0,
      w.accountKeyFile.NoKeyFile? && w.generatedAccountKey.Ok?, ImportKey(cfg.accountId, GeneratedId(w.generatedAccountKey)))
  {
    var ok := w.accountKeyFile.NoKeyFile? && w.generatedAccountKey.Ok?;
    var e := ImportKey(cfg.accountId, GeneratedId(w.generatedAccountKey));
    var (e2, loaded) := LoadAccountKey(s1, cfg, w.accountKeyFile, w.generatedAccountKey);
    ImportsOnlyAppend(t1, e2, ok, e);
    match loaded
    case None =>
    case Some((key, armored, s2)) =>
      var keypair := [WriteFile(KeypairJsonPath, KeypairJson(Base64.Encode(armored), cfg.accountId), PrivateMode)];
      ImportsOnlyAppend(t1 + e2, keypair, ok, e);
      AfterKeyImports(cfg, w, account, key, s2, t1 + e2 + keypair, ok, e);
  }

  lemma AfterKeyImports(cfg: MockConfig, w: World, account: Assertion, key: PrivateKey, s2: Store, t2: seq<Effect>, ok: bool, e: Effect)
    requires Header(account, "account-id") == cfg.accountId
    requires ImportsOnly(t2, ok, e)
    ensures ImportsOnly(AfterKey(cfg, w, account, key, s2, t2).0, ok, e)
  {
    match FindOrCreateAccountKey(s2, account, cfg.accountId, key, w.now)
    case Err(err) =>
      ImportsOnlyAppend(t2, [Fatal(StoreFailed(err))], ok, e);
    case Ok((accountKey, s3, e3)) =>
      var write := [WriteFile(cfg.output.accountKeyAssertionFile, EncodedAssertion(accountKey), PrivateMode)];
      ImportsOnlyAppend(t2, e3, ok, e);
      ImportsOnlyAppend(t2 + e3, write, ok, e);
      ImportsOnlyAppend(t2 + e3 + write, Issue(cfg, key, w), ok, e);
  }

  /** Adding assertions or keys never changes what an earlier successful
      lookup finds. */
  lemma FindStable(s: Store, s': Store, kind: Kind, query: map<string, string>)
    requires s'.trusted == s.trusted && s'.backstore.failure == s.backstore.failure
    requires s.backstore.added <= s'.backstore.added
    requires Find(s, kind, query).Found?
    ensures Find(s', kind, query) == Find(s, kind, query)
  {
    var all := s.trusted + s.backstore.added;
    var all' := s'.trusted + s'.backstore.added;
    assert all <= all';
    FirstMatchPrefix(all, all', kind, query);
  }

  /** Extending the candidates never changes a match already found among them. */
  lemma FirstMatchPrefix(cands: seq<Assertion>, cands': seq<Assertion>, kind: Kind, query: map<string, string>)
    requires cands <= cands' && FirstMatch(cands, kind, query).Some?
    ensures FirstMatch(cands', kind, query) == FirstMatch(cands, kind, query)
  {
    var j := FirstMatch(cands, kind, query).value;
    assert Matches(cands'[j], kind, query);
    assert forall i :: 0 <= i < j ==> cands'[i] == cands[i];
    var j' := FirstMatch(cands', kind, query);
    assert j'.Some? && j'.value <= j;
  }

  /** The brand key a run signs with: the one in its file, or the generated one. */
  function BrandKey(w: World): Option<(PrivateKey, seq<byte>)> {
    match w.accountKeyFile
    case KeyInFile(armored, key) => Some((key, armored))
    case NotAKey(_) => None
    case NoKeyFile => if w.generatedAccountKey.Ok? then Some(w.generatedAccountKey.value) else None
  }

  /** A second run against the store the first run left behind, with the
      brand key now read from the file the first run wrote, adds no
      assertion, imports no key and leaves the store as it was. */
  lemma RerunAddsNothing(cfg: MockConfig, w: World, s0: Store, now': string)
    requires s0.backstore.failure.None?
    requires w.accountKeyFile.KeyInFile? ||
      (w.accountKeyFile.NoKeyFile? && w.generatedAccountKey.Ok? && w.generatedAccountKey.value.0.id !in s0.backstore.keys)
    ensures BrandKey(w).Some?
    ensures var s1 := Chain(cfg, w, s0).1;
      var w' := w.(accountKeyFile := KeyInFile(BrandKey(w).value.1, BrandKey(w).value.0), now := now');
      var r := Chain(cfg, w', s1);
      && r.1 == s1
      && NoStoreEffects(r.0)
  {
    var (key, armored) := BrandKey(w).value;
    var w' := w.(accountKeyFile := KeyInFile(armored, key), now := now');
    var (account, s1, e1) := FindOrCreateAccount(s0, cfg.accountId, w.now).value;
    FindOrCreateAccountIdempotent(s0, cfg.accountId, w.now, now');
    var accountQuery := map["account-id" := cfg.accountId];
    assert Find(s1, AccountKind, accountQuery) == Found(account);
    var (e2, loaded) := LoadAccountKey(s1, cfg, w.accountKeyFile, w.generatedAccountKey);
    var (key2, armored2, s2) := loaded.value;
    assert key2 == key && armored2 == armored;
    var query := AccountKeyQuery(cfg.accountId, key);
    var (accountKey, s3, e3) := FindOrCreateAccountKey(s2, account, cfg.accountId, key, w.now).value;
    assert Chain(cfg, w, s0).1 == s3;
    FindStable(s1, s3, AccountKind, accountQuery);
    assert FindOrCreateAccount(s3, cfg.accountId, now') == Ok((account, s3, []));
    assert LoadAccountKey(s3, cfg, w'.accountKeyFile, w'.generatedAccountKey) == ([], Some((key, armored, s3)));
    if e3 == [] {
      assert s3 == s2;
      var b :| b in s2.trusted + s2.backstore.added && Matches(b, AccountKeyKind, query);
      assert Find(s3, AccountKeyKind, query).Found?;
    } else {
      FindAfterAdd(s2, accountKey, AccountKeyKind, query);
    }
    var f := Find(s3, AccountKeyKind, query);
    assert f.assertion in s3.trusted + s3.backstore.added && Matches(f.assertion, AccountKeyKind, query);
    assert FindOrCreateAccountKey(s3, account, cfg.accountId, key, now') == Ok((f.assertion, s3, []));
    ChainWhenAllFound(cfg, w', s3, account, f.assertion);
  }

  /** A run whose account and account-key lookups both succeed, with the
      brand key read from its file, leaves the store as it was. */
  lemma ChainWhenAllFound(cfg: MockConfig, w: World, s: Store, account: Assertion, accountKey: Assertion)
    requires w.accountKeyFile.KeyInFile? && Header(account, "account-id") == cfg.accountId
    requires FindOrCreateAccount(s, cfg.accountId, w.now) == Ok((account, s, []))
    requires FindOrCreateAccountKey(s, account, cfg.accountId, w.accountKeyFile.key, w.now) == Ok((accountKey, s, []))
    ensures Chain(cfg, w, s).1 == s
    ensures NoStoreEffects(Chain(cfg, w, s).0)
  {
    var key := w.accountKeyFile.key;
    var head := AllFoundHead(cfg, w, account, accountKey);
    ChainAllFoundTrace(cfg, w, s, account, accountKey);
    NoStoreEffectsAppend(head, Issue(cfg, key, w));
  }

  /** The three files written before the model when nothing is created. */
  function AllFoundHead(cfg: MockConfig, w: World, account: Assertion, accountKey: Assertion): (t: seq<Effect>)
    requires w.accountKeyFile.KeyInFile?
    ensures NoStoreEffects(t)
  {
    [WriteFile(cfg.output.accountAssertionFile, EncodedAssertion(account), PrivateMode),
     WriteFile(KeypairJsonPath, KeypairJson(Base64.Encode(w.accountKeyFile.armored), cfg.accountId), PrivateMode),
     WriteFile(cfg.output.accountKeyAssertionFile, EncodedAssertion(accountKey), PrivateMode)]
  }

  lemma ChainAllFoundTrace(cfg: MockConfig, w: World, s: Store, account: Assertion, accountKey: Assertion)
    requires w.accountKeyFile.KeyInFile? && Header(account, "account-id") == cfg.accountId
    requires FindOrCreateAccount(s, cfg.accountId, w.now) == Ok((account, s, []))
    requires FindOrCreateAccountKey(s, account, cfg.accountId, w.accountKeyFile.key, w.now) == Ok((accountKey, s, []))
    ensures Chain(cfg, w, s) == (AllFoundHead(cfg, w, account, accountKey) + Issue(cfg, w.accountKeyFile.key, w), s)
  {
    var key := w.accountKeyFile.key;
    var armored := w.accountKeyFile.armored;
    var t1 := [] + [WriteFile(cfg.output.accountAssertionFile, EncodedAssertion(account), PrivateMode)];
    var t2 := t1 + [] + [WriteFile(KeypairJsonPath, KeypairJson(Base64.Encode(armored), cfg.accountId), PrivateMode)];
    var write := [WriteFile(cfg.output.accountKeyAssertionFile, EncodedAssertion(accountKey), PrivateMode)];
    ChainAccountFound(cfg, w, s, account);
    AfterAccountKeyRead(cfg, w, account, s, t1);
    AfterKeyFound(cfg, w, account, key, s, t2, accountKey);
    ThreeWrites(t1[0], t2[1], write[0], Issue(cfg, key, w));
  }

  lemma ThreeWrites(x: Effect, y: Effect, z: Effect, tail: seq<Effect>)
    ensures ([] + [x]) + [] + [y] + [] + [z] + tail == [x, y, z] + tail
  {
  }

  lemma ChainAccountFound(cfg: MockConfig, w: World, s: Store, account: Assertion)
    requires FindOrCreateAccount(s, cfg.accountId, w.now) == Ok((account, s, []))
    ensures Header(account, "account-id") == cfg.accountId
    ensures Chain(cfg, w, s) == AfterAccount(cfg, w, account, s,
      [] + [WriteFile(cfg.output.accountAssertionFile, EncodedAssertion(account), PrivateMode)])
  {
  }

  lemma AfterAccountKeyRead(cfg: MockConfig, w: World, account: Assertion, s: Store, t1: seq<Effect>)
    requires w.accountKeyFile.KeyInFile? && Header(account, "account-id") == cfg.accountId
    ensures AfterAccount(cfg, w, account, s, t1) == AfterKey(cfg, w, account, w.accountKeyFile.key, s,
      t1 + [] + [WriteFile(KeypairJsonPath, KeypairJson(Base64.Encode(w.accountKeyFile.armored), cfg.accountId), PrivateMode)])
  {
  }

  lemma AfterKeyFound(cfg: MockConfig, w: World, account: Assertion, key: PrivateKey, s: Store, t2: seq<Effect>, accountKey: Assertion)
    requires Header(account, "account-id") == cfg.accountId
    requires FindOrCreateAccountKey(s, account, cfg.accountId, key, w.now) == Ok((accountKey, s, []))
    ensures AfterKey(cfg, w, account, key, s, t2) ==
      (t2 + [] + [WriteFile(cfg.output.accountKeyAssertionFile, EncodedAssertion(accountKey), PrivateMode)] + Issue(cfg, key, w), s)
  {
  }

  /** Neither part adds or imports anything, so neither does the whole. */
  lemma NoStoreEffectsAppend(a: seq<Effect>, b: seq<Effect>)
    requires NoStoreEffects(a) && NoStoreEffects(b)
    ensures NoStoreEffects(a + b)
  {
    assert forall i :: |a| <= i < |a + b| ==> (a + b)[i] == b[i - |a|];
  }
}

=== FILE: wrappers.dfy ===
/** Failure-compatible wrappers used throughout the model: an optional value
    and a value-or-error result. */
module Wrappers {

  datatype Option<+T> = None | Some(value: T) {

    predicate IsFailure() {
      None?
    }

    function PropagateFailure<U>(): Option<U>
      requires None?
    {
      None
    }

    function Extract(): T
      requires Some?
    {
      value
    }
  }

  datatype Result<+R, +E> = Ok(value: R) | Err(error: E) {

    predicate IsFailure() {
      Err?
    }

    function PropagateFailure<U>(): Result<U, E>
      requires Err?
    {
      Err(error)
    }

    function Extract(): R
      requires Ok?
    {
      value
    }
  }
}
